=== FILE: README.md ===
# MechSim physics core in Dafny

This project models the physics layer of MechSim, a small 2-D robot
simulator written in Java. The model covers:

- the two collision shapes, `Circle` and `Rectangle`, with their overlap
  tests and "nudge" moves;
- the `CollisionBounds` union of the two shapes;
- `Vector2`;
- the `Ray` used by the sensors;
- `PhysicsObject`: force and acceleration bookkeeping, the integration
  step, `SetPosition` and collision listeners;
- `PhysicsModel`: friction and restitution, the list of registered bodies,
  and the collision pass (detect, nudge apart, respond, notify);
- the `Motor` power countdown;
- the `Sensor` polling timer, the `BumperSensor` latch, and the
  nearest-hit scans of `DistanceSensor` and `ColorSensor`.

Every Java `double` is a Dafny `real`. Every mutating Java method becomes a
pure function that returns the updated value.

Bodies have identity in the Java program. Here they live in a heap,
`map<BodyId, Body>`. The model's object list is a `seq<BodyId>` and may hold
the same body twice, as the Java `ArrayList` can. A listener is identified
by a `ListenerId`. A notification is an `Event(listener, subject, other)`,
and the collision functions return the events in the order the Java code
makes the calls.

Transcendental functions are inputs:

- `Math.sqrt` is a parameter `sqrt: real -> real`. The predicate
  `Numerics.IsSqrt` requires that, for every `x >= 0`, `sqrt(x) >= 0` and
  `sqrt(x) * sqrt(x) == x`.
- `Math.pow(friction, dt)` is the parameter `retained` of
  `Bodies.Integrate` and `Collision.Update`.
- `Math.cos` and `Math.sin` of a heading are the parameters `cos` and
  `sin`.

`Double.MAX_VALUE` is written out exactly as `Numerics.DOUBLE_MAX`. It is
both the "no hit" distance and the initial exit bound of the ray's slab
test.

Where the Java code divides by zero, the model does one of two things:

- If the caller can rule the case out, the division becomes a
  precondition: two distinct centres for `Circle.Nudge(Circle)`, a
  non-zero heading for the `Ray` constructor, a non-zero magnitude for
  `Vector2.NormalizeInPlace`.
- If the case can arise inside a collision, the result is
  `Outcome.NaN`. There are three such cases:
  - two circles with the same centre;
  - a circle and a rectangle whose centres coincide, in the responses
    that normalize the centre-to-centre offset;
  - a circle that touches no rectangle edge within EPSILON.

  `Collision.Collide`, `Collision.Pass` and `Collision.Update` then return
  `NaN` as well.

## Behaviour kept as written

The model keeps these details of the Java code rather than correcting them,
and proves them:

- **Vector2.Subtract** changes only `x`, and subtracts the other vector's
  `y` from it. See `Vectors.Subtract` and `Vectors.SubtractSelfNotZero`.
- **Vector2.Add** keeps the old cached magnitude. See
  `Vectors.AddLeavesCacheStale`.
- **PhysicsObject.SetPosition** moves a rectangle's `x`/`y` without
  refreshing its cached right and bottom edges. See
  `Bodies.SetPositionLeavesEdgesStale`.
- **A Static circle can be nudged.** A reacting circle beta that meets a
  non-reacting circle alpha gets the nudge applied to alpha's shape, and
  neither body's tracked position moves. See
  `Collision.StaticCircleIsNudged`.
- **No reaction for a rectangle beta.** A reacting circle alpha bounces
  off a reacting rectangle beta, but beta gets no reaction. The mirror
  case, rectangle alpha against circle beta, does transfer it. See
  `Collision.CircleHitsRectNoReaction` and `Collision.RectCircleMomentum`.
- **Sensor.Update** subtracts `dt` twice on a tick that does not poll. See
  `Sensors.Tick`.
- **RegisterObject and RegisterListener** append even when the entry is
  already there.
- **Ray.Intersects(Circle)** tests only the line through the origin and
  ignores the direction.

Where the source's own comments and its code disagree, the model follows
the code:

- **Static bodies never respond to collisions.** The comment on
  `InteractionType.Static` (`src/MechSim/Physics/InteractionType.java:18-20`)
  says a Static body is affected by collisions. The code, however, treats
  only Kinetic and Passive bodies as responsive
  (`src/MechSim/Physics/PhysicsModel.java:62-63` and `:143-144`).
- **Ghost bodies, and moving Passive bodies, check for collisions.** The
  comments on `InteractionType.Passive` and `InteractionType.Ghost`
  (`src/MechSim/Physics/InteractionType.java:14-17` and `:22-25`) say these
  bodies do not check for collisions. The code, however, runs the
  collision pass for every Kinetic or Ghost body and for any body with a
  non-zero velocity (`src/MechSim/Physics/PhysicsObject.java:88-90`). See
  `Bodies.NeedsCollisionPass` and `Collision.UpdateRunsPass`.

## The circle/circle impulse

The code sizes the impulse as `restitution * sqrt(|impact . n| * ma * mb)`
(`src/MechSim/Physics/PhysicsModel.java:160`). This is not an elastic
exchange of momentum, and two lemmas show it on concrete head-on
collisions:

- `Collision.HeadOnCircleKeepsGoing`: a mass-1 circle hits a resting mass-1
  Static circle head-on at speed 10, with restitution 1. It slows by
  sqrt 10 and keeps moving forward. The Static circle is unchanged.
- `Collision.HeadOnEqualCirclesSwap`: two reacting mass-1 circles meet
  head-on at speeds s and −s, with restitution 1. They swap velocities
  exactly when the closing speed 2s is 1, and at no other speed.

## Modules

| file | module | Java counterpart |
|---|---|---|
| numerics.dfy | Numerics | constants, the sqrt oracle, real-arithmetic lemmas |
| vectors.dfy | Vectors | Vector2 |
| shapes.dfy | Shapes | Circle, Rectangle |
| bounds.dfy | Bounds | CollisionBounds |
| rays.dfy | Rays | Ray |
| seqs.dfy | Seqs | `ArrayList.add` / `remove(Object)` |
| bodies.dfy | Bodies | PhysicsObject, InteractionType, CollisionListener calls |
| collision.dfy | Collision | PhysicsModel, PhysicsObject.Update |
| motors.dfy | Motors | Motor |
| sensors.dfy | Sensors | Sensor, BumperSensor, DistanceSensor, ColorSensor |

## Model

| member | source | states |
|---|---|---|
| Vectors.NewVector | src/MechSim/Physics/Vector2.java:44-49 | a new vector holds the given components; its magnitude is marked not calculated, which the cache invariant accepts |
| Vectors.Copy | src/MechSim/Physics/Vector2.java:62-65 | a copy keeps both components and whatever the cache holds; the copy's cache is sound exactly when the original's is |
| Vectors.SetX | src/MechSim/Physics/Vector2.java:70 | x is replaced, y is kept, and the cache is invalidated |
| Vectors.SetY | src/MechSim/Physics/Vector2.java:75 | y is replaced, x is kept, and the cache is invalidated |
| Vectors.Scale | src/MechSim/Physics/Vector2.java:127-132 | both components are multiplied by the scalar, and the cache is invalidated, which is therefore sound |
| Vectors.ScaleLength | src/MechSim/Physics/Vector2.java:127-132 | scaling by k multiplies the squared length by k squared |
| Vectors.GetMagnitude | src/MechSim/Physics/Vector2.java:90-95 | a cached magnitude is returned as is; otherwise the result is non-negative, squares to x²+y², and is stored in the cache |
| Vectors.GetMagnitudeSound | src/MechSim/Physics/Vector2.java:90-95 | if the cache invariant holds, the magnitude returned is the true length and the cache stays sound and is filled |
| Vectors.Normalize | src/MechSim/Physics/Vector2.java:101-108 | a zero magnitude gives (0, 0) with no division; otherwise the result times the magnitude is the original vector; the receiver's cache is filled |
| Vectors.NormalizeUnit | src/MechSim/Physics/Vector2.java:101-108 | if the cache invariant holds, a non-zero vector normalizes to length 1 and the zero vector to (0, 0) |
| Vectors.NormalizeInPlace | src/MechSim/Physics/Vector2.java:113-121 | the unguarded division needs a non-zero magnitude; the vector is divided by it and the cache set to 1 |
| Vectors.NormalizeInPlaceSound | src/MechSim/Physics/Vector2.java:113-121 | if the cache invariant holds, the result has length 1 and its cached 1.0 is sound |
| Vectors.Add | src/MechSim/Physics/Vector2.java:138-142 | the components increase by the other vector's and the old cached magnitude is kept |
| Vectors.AddLeavesCacheStale | src/MechSim/Physics/Vector2.java:138-142 | (3, 4) with cached length 5, plus (1, 0), no longer satisfies the cache invariant |
| Vectors.Subtract | src/MechSim/Physics/Vector2.java:148-152 | x decreases by the other vector's y; y and the cache are unchanged |
| Vectors.SubtractSelfNotZero | src/MechSim/Physics/Vector2.java:148-152 | (1, 2) minus itself is (-1, 2), not the zero vector |
| Vectors.CrossAntisymmetric | src/MechSim/Physics/Vector2.java:159-162 | swapping the operands negates the cross product |
| Vectors.Cross | src/MechSim/Physics/Vector2.java:159-162 | the cross product of a vector with itself is 0, and of a vector with its quarter turn (-y, x) is its squared length |
| Vectors.Reflect | src/MechSim/Physics/Vector2.java:168-173 | reflecting about a non-zero normal negates the component along the normal, changes the vector only along the normal (so the tangential component is kept), and keeps the cache |
| Vectors.ReflectPreservesLength | src/MechSim/Physics/Vector2.java:168-173 | reflection keeps x²+y², so a sound cache stays sound |
| Vectors.ReflectInvolution | src/MechSim/Physics/Vector2.java:168-173 | reflecting twice about the same normal gives the original vector back |
| Shapes.DefaultCircle | src/MechSim/Physics/Circle.java:18-21 | the no-argument circle is at (0, 0) with radius 0 |
| Shapes.NewCircle | src/MechSim/Physics/Circle.java:29-34 | the centre is kept; a negative radius becomes 0 and any other radius is kept |
| Shapes.CircleIntersectsCircleSymmetric | src/MechSim/Physics/Circle.java:40-43 | the circle/circle test gives the same answer for either order |
| Shapes.CircleIntersectsCircle | src/MechSim/Physics/Circle.java:40-43 | circles with the same centre always intersect, whatever their radii, including a circle with itself |
| Shapes.RectIntersectsCircle | src/MechSim/Physics/Rectangle.java:35-43 | Rectangle.Intersects(Circle) decides exactly as Circle.Intersects(Rectangle) |
| Shapes.CircleIntersectsRect | src/MechSim/Physics/Circle.java:49-57 | a circle whose centre lies in the rectangle intersects it, whatever the radius |
| Shapes.CircleIntersectsRectIffNearPoint | src/MechSim/Physics/Circle.java:49-57 | for a well-formed rectangle, the clamp test holds exactly when some point of the rectangle is within the radius of the centre |
| Shapes.NudgeCircle | src/MechSim/Physics/Circle.java:59-68 | for distinct centres, the moved circle keeps its radius and its centre ends at squared distance (r1+r2)² from the other centre |
| Shapes.NudgeCircleAlongCentres | src/MechSim/Physics/Circle.java:59-68 | the centre moves along the line through the two centres and stays on the same side of the other centre; with radii summing to 0 it lands on the other centre |
| Shapes.NudgeFactor | src/MechSim/Physics/Circle.java:62-67 | the new offset from the other centre is the old offset times a factor k, positive exactly when the radii sum is positive |
| Shapes.NudgeCircleTouches | src/MechSim/Physics/Circle.java:59-68 | after the nudge the two circles still intersect, in either order |
| Shapes.NudgeRatio | src/MechSim/Physics/Circle.java:76-81 | scaling a non-zero offset by radius / length gives an offset of squared length radius², with a non-negative factor for a non-negative radius |
| Shapes.NudgeCircleFromRect | src/MechSim/Physics/Circle.java:70-87 | if the centre is its own nearest point the circle is unchanged; otherwise the new centre is exactly one radius from the old nearest point; the radius is kept |
| Shapes.NudgeFromRectKeepsNearest | src/MechSim/Physics/Circle.java:70-87 | for a centre outside a well-formed rectangle, the nudged centre has the same nearest point as before |
| Shapes.NudgeFromRectTouches | src/MechSim/Physics/Circle.java:70-87 | a circle nudged out of a well-formed rectangle still intersects it, touching it |
| Shapes.NewRect | src/MechSim/Physics/Rectangle.java:21-29 | negative sizes become 0, other sizes are kept, and right = x + width, bottom = y + height |
| Shapes.SetX | src/MechSim/Physics/Rectangle.java:115-119 | x is replaced, right is recomputed, everything else is kept, and well-formedness is preserved |
| Shapes.SetY | src/MechSim/Physics/Rectangle.java:121-125 | y is replaced, bottom is recomputed, everything else is kept, and well-formedness is preserved |
| Shapes.SetWidth | src/MechSim/Physics/Rectangle.java:127-131 | a negative width becomes 0, right is recomputed, and well-formedness is preserved |
| Shapes.SetHeight | src/MechSim/Physics/Rectangle.java:133-137 | a negative height becomes 0, bottom is recomputed, and well-formedness is preserved |
| Shapes.RectIntersectsRect | src/MechSim/Physics/Rectangle.java:49-53 | a rectangle that holds the top-left corner of a well-formed rectangle intersects it |
| Shapes.RectIntersectsRectSymmetric | src/MechSim/Physics/Rectangle.java:49-53 | the rectangle/rectangle test gives the same answer for either order |
| Shapes.RectIntersectsIffCommonPoint | src/MechSim/Physics/Rectangle.java:49-53 | two well-formed rectangles pass the edge test exactly when they share a point |
| Shapes.RectIntersectsSelf | src/MechSim/Physics/Rectangle.java:49-53 | a well-formed rectangle intersects itself |
| Shapes.SharedEdgeIntersects | src/MechSim/Physics/Rectangle.java:49-53 | rectangles that only share an edge intersect |
| Shapes.NudgeRectFromCircle | src/MechSim/Physics/Rectangle.java:55-74 | if the centre is inside, nothing moves; otherwise the rectangle's old nearest point, carried along, ends one radius from the centre, the size is kept, and the cache is refreshed |
| Shapes.NudgeRectFromCircleKeepsNearest | src/MechSim/Physics/Rectangle.java:55-74 | the moved rectangle's nearest point to the centre is the old one carried along, so the rectangle stays on its side of the circle and ends touching it |
| Shapes.Penetration | src/MechSim/Physics/Rectangle.java:83-84 | removing the penetration from the centre offset leaves exactly half the summed sizes, with the offset's sign |
| Shapes.NudgeRect | src/MechSim/Physics/Rectangle.java:76-97 | exactly one axis moves, by its penetration: X if its penetration is smaller in magnitude, otherwise Y (ties go to Y); only that axis's edge is refreshed; the size is kept |
| Shapes.NudgeRectSeparates | src/MechSim/Physics/Rectangle.java:76-97 | after the nudge the centres are exactly half the summed sizes apart on the axis that moved |
| Shapes.NudgeRectTouches | src/MechSim/Physics/Rectangle.java:76-97 | a rectangle nudged off an overlapping one still intersects it, edge to edge |
| Bounds.FromCircle | src/MechSim/Physics/CollisionBounds.java:19-23 | wrapping a circle gives circle bounds holding that circle |
| Bounds.FromRect | src/MechSim/Physics/CollisionBounds.java:29-33 | wrapping a rectangle gives rectangle bounds holding that rectangle |
| Bounds.Intersects | src/MechSim/Physics/CollisionBounds.java:40-56 | a rectangle-first circle pair decides as Rectangle.Intersects(Circle); two circles with the same centre always intersect |
| Bounds.IntersectsSymmetric | src/MechSim/Physics/CollisionBounds.java:40-56 | the bounds overlap test is symmetric for all four shape combinations |
| Bounds.MixedPairUsesCircleTest | src/MechSim/Physics/CollisionBounds.java:40-56 | a circle/rectangle pair, in either order, is decided by the circle's clamp test |
| Bounds.IntersectsCircle | src/MechSim/Physics/CollisionBounds.java:63-66 | Intersects(Circle) agrees with the pairwise test on bounds wrapping the circle |
| Bounds.IntersectsRect | src/MechSim/Physics/CollisionBounds.java:73-76 | Intersects(Rectangle) agrees with the pairwise test on bounds wrapping the rectangle |
| Bounds.Shift | src/MechSim/Physics/PhysicsObject.java:296-305 | the origin moves by (dx, dy), the variant and size are kept, and a rectangle's right/bottom are not touched |
| Bounds.ShiftRefreshed | src/MechSim/Physics/PhysicsObject.java:94-105 | the origin moves by (dx, dy), the size is kept, and a rectangle's edge cache is consistent afterwards |
| Bounds.ShiftLeavesEdgesStale | src/MechSim/Physics/PhysicsObject.java:296-305 | a sideways shift without refresh makes a consistent edge cache stale, while the refreshing shift keeps it consistent |
| Rays.Snap | src/MechSim/Physics/Ray.java:24-27 | a component within EPSILON of zero becomes 0; any other is kept |
| Rays.NewRay | src/MechSim/Physics/Ray.java:19-33 | the origin is kept; the heading has length 1, is parallel to the snapped input and points the same way; a snapped input that is already a unit is kept; a component is 0 exactly when it was snapped; each component keeps its sign |
| Rays.UnitHeadingBuildable | src/MechSim/Physics/Ray.java:24-32 | a unit heading (cos, sin) never snaps to (0, 0), so the constructor's division is safe |
| Rays.SlabAxis | src/MechSim/Physics/Ray.java:54-72 | one slab step only narrows the interval, misses at once when a heading component below EPSILON has the origin outside the span, and caps the exit at the far crossing |
| Rays.RectSpan | src/MechSim/Physics/Ray.java:49-95 | a surviving interval satisfies 0 <= entry <= exit <= Double.MAX_VALUE |
| Rays.InSlabIffBetween | src/MechSim/Physics/Ray.java:60-67 | for a non-zero heading component, the ray is within the slab at t exactly when t lies between the two sorted crossing parameters |
| Rays.SlabSound | src/MechSim/Physics/Ray.java:54-72 | every parameter left in the interval after a slab step puts the ray inside that slab |
| Rays.SlabComplete | src/MechSim/Physics/Ray.java:54-72 | a parameter in play at which the ray is inside the slab stays in play, unless the EPSILON shortcut fires |
| Rays.DistanceToRect | src/MechSim/Physics/Ray.java:137-183 | the distance lies in [0, Double.MAX_VALUE] and is the sentinel whenever Intersects(Rectangle) is false |
| Rays.DistanceToRectSound | src/MechSim/Physics/Ray.java:137-183 | at a reported hit distance, the ray's point lies in the (well-formed) rectangle |
| Rays.DistanceToRectMinimal | src/MechSim/Physics/Ray.java:137-183 | every parameter in [0, Double.MAX_VALUE] at which the ray is inside the rectangle is a hit at no smaller distance, so the distance is the first such parameter |
| Rays.OriginInsideDistanceZero | src/MechSim/Physics/Ray.java:137-183 | a ray starting inside the rectangle hits it at distance 0 |
| Rays.IntersectsRect | src/MechSim/Physics/Ray.java:49-95 | a heading component below EPSILON with the origin outside that axis's span is a miss; so is a rectangle whose exit crossing on some axis is negative |
| Rays.DistanceToRectSentinel | src/MechSim/Physics/Ray.java:137-183 | the sentinel is returned exactly on a miss (or an entry of Double.MAX_VALUE itself), and a hit is no farther than either slab's exit |
| Rays.IntersectsCircle | src/MechSim/Physics/Ray.java:39-43 | a heading with x exactly 0 never hits; any other ray hits every circle whose centre lies on its line, in either direction |
| Rays.DistanceToCircle | src/MechSim/Physics/Ray.java:114-130 | the sentinel when the line test fails or the discriminant is at most 0; otherwise a root, (d - b)² equals the discriminant: the nearer root b - s when it is not negative, else the farther root b + s |
| Rays.OnCircleIffRoot | src/MechSim/Physics/Ray.java:118-120 | for a unit heading, the ray meets the circle at t exactly when (t - b)² equals the discriminant |
| Rays.DistanceToCircleOnCircle | src/MechSim/Physics/Ray.java:114-130 | a hit distance is a point where the ray meets the circle |
| Rays.DistanceToCircleNearest | src/MechSim/Physics/Ray.java:114-130 | the hit distance is no larger than any non-negative parameter at which the ray meets the circle |
| Rays.DistanceToCircleAhead | src/MechSim/Physics/Ray.java:124-128 | if the ray meets the circle anywhere ahead of its origin, the hit distance is not negative, so it is the first such point |
| Rays.IntersectsBounds | src/MechSim/Physics/Ray.java:101-107 | the bounds test uses the variant the bounds hold |
| Rays.DistanceTo | src/MechSim/Physics/Ray.java:190-196 | the bounds distance uses the variant the bounds hold |
| Seqs.RemoveFirst | src/MechSim/Physics/PhysicsModel.java:371-374 | removing an absent element changes nothing; removing a present one shortens the list by one |
| Seqs.RemoveFirstMultiset | src/MechSim/Physics/PhysicsModel.java:371-374 | as a bag, the result is the list less one copy of the element |
| Seqs.RemoveFirstAtFirstIndex | src/MechSim/Physics/PhysicsModel.java:371-374 | exactly the first occurrence is dropped, and the elements before and after it are kept in order |
| Seqs.RemoveFirstUndoesAppend | src/MechSim/Physics/PhysicsModel.java:362-374 | removing an element just appended, and not otherwise present, restores the list |
| Seqs.Without | src/MechSim/Physics/PhysicsModel.java:44-47 | the list with every occurrence of x dropped keeps the count of every other element |
| Bodies.NewBody | src/MechSim/Physics/PhysicsObject.java:72-80 | a non-positive mass becomes 0.01, so mass is always positive; the body starts at rest, black, with no listeners |
| Bodies.ApplyAcceleration | src/MechSim/Physics/PhysicsObject.java:272-276 | the pending acceleration increases by the given amount and nothing else changes |
| Bodies.ApplyAccelerationAdditive | src/MechSim/Physics/PhysicsObject.java:272-276 | two accelerations applied in turn equal one application of their sum |
| Bodies.ApplyForce | src/MechSim/Physics/PhysicsObject.java:262-265 | mass times the change of pending acceleration equals the force |
| Bodies.SetAcceleration | src/MechSim/Physics/PhysicsObject.java:283-287 | the pending acceleration is overwritten and nothing else changes |
| Bodies.SetThenApply | src/MechSim/Physics/PhysicsObject.java:272-287 | a set followed by an apply is a set of the sum; setting the current value or applying zero changes nothing |
| Bodies.Integrate | src/MechSim/Physics/PhysicsObject.java:92-110 | position advances by v·dt + a·dt²/2 and velocity becomes v·retained + a·dt, per axis; the shape origin moves by the same amount, so their offset is kept; a rectangle's cache is refreshed; the pending acceleration ends at 0 |
| Bodies.IntegrateComposes | src/MechSim/Physics/PhysicsObject.java:92-110 | without friction, two steps with the same acceleration applied before each end where one step of the combined length does, at the same velocity |
| Bodies.AdvanceComposes | src/MechSim/Physics/PhysicsObject.java:92-109 | on one axis, advancing position and velocity for t1 and then t2 under constant acceleration equals advancing for t1 + t2 |
| Bodies.IntegrateWithoutForces | src/MechSim/Physics/PhysicsObject.java:92-109 | with no pending acceleration a step moves the body by v·dt and leaves it with v·retained |
| Bodies.IntegrateFrictionCompounds | src/MechSim/Physics/PhysicsObject.java:93-109 | without forces, the retained fractions of two steps multiply |
| Bodies.SetPosition | src/MechSim/Physics/PhysicsObject.java:294-308 | the position is set and the shape moves with it, keeping their offset; nothing else changes |
| Bodies.SetPositionLeavesEdgesStale | src/MechSim/Physics/PhysicsObject.java:301-305 | moving a rectangular body sideways leaves its right-edge cache stale |
| Bodies.SetPositionUndo | src/MechSim/Physics/PhysicsObject.java:294-308 | setting the old position back restores the body exactly |
| Bodies.BodiesIntersect | src/MechSim/Physics/PhysicsObject.java:177-180 | the body test is the shapes' test, and symmetric |
| Bodies.RegisterListener | src/MechSim/Physics/PhysicsObject.java:158-161 | the listener is appended after the existing ones, duplicates allowed |
| Bodies.UnregisterListener | src/MechSim/Physics/PhysicsObject.java:167-170 | one registration of the listener is removed (as a bag); an absent listener changes nothing |
| Bodies.RegisterThenUnregister | src/MechSim/Physics/PhysicsObject.java:158-170 | registering a new listener and unregistering it restores the body |
| Bodies.Events | src/MechSim/Physics/PhysicsObject.java:150-151 | one call per registration, in registration order, each with (subject, other) |
| Bodies.Notify | src/MechSim/Physics/PhysicsObject.java:147-152 | the collided flag is set, nothing else changes, and every registered listener is called once, in order, with (this, other) |
| Bodies.NeedsCollisionPass | src/MechSim/Physics/PhysicsObject.java:89 | Kinetic and Ghost bodies always run a collision pass; a Passive or Static body runs one exactly when it is moving |
| Collision.NewModel | src/MechSim/Physics/PhysicsModel.java:30-35 | friction and restitution start at 1 and no body is registered |
| Collision.RegisterObject | src/MechSim/Physics/PhysicsModel.java:362-365 | the body is appended after the existing entries, duplicates allowed; coefficients are kept |
| Collision.UnregisterObject | src/MechSim/Physics/PhysicsModel.java:371-374 | one entry of the body is removed (as a bag); an absent body changes nothing |
| Collision.RegisterThenUnregisterObject | src/MechSim/Physics/PhysicsModel.java:362-374 | registering a new body and unregistering it restores the model |
| Collision.SetFriction | src/MechSim/Physics/PhysicsModel.java:380-385 | the stored friction is 1 minus the loss clamped to [0, 1], so it stays in [0, 1]; nothing else changes |
| Collision.SetRestitution | src/MechSim/Physics/PhysicsModel.java:391-394 | the coefficient is clamped to [0, 1]; nothing else changes |
| Collision.SettersIdempotent | src/MechSim/Physics/PhysicsModel.java:380-394 | setting either coefficient twice equals setting it once, and setting the friction from its stored value reproduces it |
| Collision.Direction | src/MechSim/Physics/PhysicsModel.java:155-157 | normalizing succeeds exactly for a non-zero vector; the zero vector gives NaN |
| Collision.DirectionUnit | src/MechSim/Physics/PhysicsModel.java:155-157 | the normalized vector has length 1 |
| Collision.DirectionParallel | src/MechSim/Physics/PhysicsModel.java:153-157 | the normalized vector points the same way as the original |
| Collision.OneOverSqrtTwo | src/MechSim/Physics/PhysicsModel.java:20 | the constant is positive |
| Collision.OneOverSqrtTwoSquared | src/MechSim/Physics/PhysicsModel.java:20 | the constant squared is one half |
| Collision.RectNormal | src/MechSim/Physics/PhysicsModel.java:180-200 | the normal is an axis unit vector, chosen with priority left edge, right edge, top edge (within EPSILON), else bottom |
| Collision.RectNormalSideBySide | src/MechSim/Physics/PhysicsModel.java:181-190 | rectangles side by side get +x from the left one; from the right one they get -x exactly when their widths add up to more than EPSILON |
| Collision.EdgeComponent | src/MechSim/Physics/PhysicsModel.java:287-294 | each axis of the edge normal is +1 exactly when the near edge (left or top) is within EPSILON of the circle, -1 exactly when only the far edge is, and 0 when neither is |
| Collision.EdgeComponentMirror | src/MechSim/Physics/PhysicsModel.java:258-265 | mirroring the axis (so the far edge becomes the near one) negates the component whenever the edges are too far apart for the circle to reach both |
| Collision.EdgeNormal | src/MechSim/Physics/PhysicsModel.java:286-303 | with no edge contact the normal is the zero vector; each component is positive exactly when the circle reaches the near edge of that axis, negative exactly when it reaches only the far edge; a corner normal has components ±k, and a side normal is the edge components unscaled |
| Collision.EdgeNormalUnit | src/MechSim/Physics/PhysicsModel.java:296-303 | with some edge contact the normal has length 1, including the corner case scaled by 1/sqrt 2 |
| Collision.Reflected | src/MechSim/Physics/PhysicsModel.java:205-207 | with restitution 0, or a velocity perpendicular to the normal, the velocity is unchanged |
| Collision.ReflectedScalesNormal | src/MechSim/Physics/PhysicsModel.java:205-207 | the velocity component along the normal is multiplied by 1 - 2·restitution |
| Collision.ReflectedAlongNormal | src/MechSim/Physics/PhysicsModel.java:205-207 | the velocity changes only along the normal |
| Collision.ElasticReflectionKeepsSpeed | src/MechSim/Physics/PhysicsModel.java:205-207 | with restitution 1 the speed is kept |
| Collision.ReflectedSignFree | src/MechSim/Physics/PhysicsModel.java:205-224 | reflecting about n and about -n gives the same velocity |
| Collision.Deflect | src/MechSim/Physics/PhysicsModel.java:222-224 | only the velocity changes, and it becomes the reflection about the normal |
| Collision.Bounce | src/MechSim/Physics/PhysicsModel.java:202-216 | alpha is deflected; beta changes only if it reacts, and only in velocity |
| Collision.BounceMomentum | src/MechSim/Physics/PhysicsModel.java:208-216 | the mass-scaled reaction on beta conserves momentum |
| Collision.ImpulseSize | src/MechSim/Physics/PhysicsModel.java:160 | the impulse along the normal is non-negative for a non-negative restitution |
| Collision.ImpulseSizeSquared | src/MechSim/Physics/PhysicsModel.java:160 | the impulse squares to e²·|impact·n|·ma·mb: the restitution times the root of the mass-weighted normal impact speed |
| Collision.Push | src/MechSim/Physics/PhysicsModel.java:165-174 | an impulse changes only the velocity |
| Collision.PushImpulse | src/MechSim/Physics/PhysicsModel.java:165-174 | mass times the change of velocity equals the impulse |
| Collision.CircleImpulse | src/MechSim/Physics/PhysicsModel.java:149-162 | the impulse is defined exactly when the two centres differ |
| Collision.CircleImpulseAlong | src/MechSim/Physics/PhysicsModel.java:153-162 | the impulse on alpha points from beta's centre towards alpha's |
| Collision.CircleResponse | src/MechSim/Physics/PhysicsModel.java:146-175 | only velocities change, and only for reacting bodies; NaN exactly when the centres coincide |
| Collision.CircleResponseMomentum | src/MechSim/Physics/PhysicsModel.java:146-175 | two reacting circles conserve momentum |
| Collision.CircleResponseAlongCentres | src/MechSim/Physics/PhysicsModel.java:149-168 | a reacting alpha's velocity changes along the line of centres, away from beta |
| Collision.HeadOnCircleKeepsGoing | src/MechSim/Physics/PhysicsModel.java:149-168 | a circle hitting a resting Static circle head-on at speed 10 slows by sqrt 10 and keeps moving forward, and the Static circle is untouched |
| Collision.HeadOnEqualCirclesSwap | src/MechSim/Physics/PhysicsModel.java:149-174 | two reacting mass-1 circles meeting head-on at speeds s and -s swap velocities exactly when 2s = 1 |
| Collision.RootOfDouble | src/MechSim/Physics/PhysicsModel.java:160 | for s > 0 the root of 2s equals 2s exactly when s = 1/2, which is why the head-on impulse swaps velocities only then |
| Collision.RectPairResponse | src/MechSim/Physics/PhysicsModel.java:202-226 | only velocities change, and only for reacting bodies |
| Collision.RectResponse | src/MechSim/Physics/PhysicsModel.java:176-227 | only velocities change, and only for reacting bodies |
| Collision.RectResponseMomentum | src/MechSim/Physics/PhysicsModel.java:202-216 | two reacting rectangles conserve momentum |
| Collision.RectResponseBounce | src/MechSim/Physics/PhysicsModel.java:180-207 | a reacting alpha's normal velocity component is scaled by 1 - 2·restitution and its tangential component is kept |
| Collision.PairBounce | src/MechSim/Physics/PhysicsModel.java:202-207 | a reacting alpha's new velocity is the reflection of its old one about the contact normal |
| Collision.RectCircleResponse | src/MechSim/Physics/PhysicsModel.java:229-281 | only velocities of reacting bodies change; NaN exactly for coincident centres (reacting rectangle) or no edge contact (only the circle reacts) |
| Collision.RectCircleMomentum | src/MechSim/Physics/PhysicsModel.java:231-253 | a reacting rectangle alpha and a reacting circle beta conserve momentum |
| Collision.RectCircleBounce | src/MechSim/Physics/PhysicsModel.java:231-253 | a reacting rectangle alpha's new velocity is its reflection about the unit direction from its centre to the circle's, so it changes only along that line; a reacting circle beta gets the recoil s·ma/mb along the same direction |
| Collision.RectCircleEdgeDeflect | src/MechSim/Physics/PhysicsModel.java:255-280 | when only the circle beta reacts, its new velocity is its reflection about the rectangle's edge normal, which has length 1 |
| Collision.CircleRectResponse | src/MechSim/Physics/PhysicsModel.java:282-327 | only alpha's velocity changes when alpha reacts, so beta gets no reaction; NaN exactly for no edge contact (reacting circle) or coincident centres (only the rectangle reacts) |
| Collision.CircleRectEdgeDeflect | src/MechSim/Physics/PhysicsModel.java:284-309 | a reacting circle alpha's new velocity is its reflection about the rectangle's edge normal, which has length 1 |
| Collision.CircleRectBounce | src/MechSim/Physics/PhysicsModel.java:310-326 | when only the rectangle beta reacts, its new velocity is its reflection about the unit direction from its centre to the circle's, so it changes only along that line |
| Collision.ReflectedAlongOffset | src/MechSim/Physics/PhysicsModel.java:236-245 | reflecting about the normalized offset changes the velocity only along the offset itself |
| Collision.Response | src/MechSim/Physics/PhysicsModel.java:138-328 | the response changes only velocities, and never those of a non-reacting body |
| Collision.NudgeBounds | src/MechSim/Physics/PhysicsModel.java:71-89 | a nudge keeps the variant and size and fails only for two circles with the same centre |
| Collision.NudgedCircleStillTouches | src/MechSim/Physics/PhysicsModel.java:71-89 | a nudged circle still intersects what it was nudged against |
| Collision.NudgedTouches | src/MechSim/Physics/PhysicsModel.java:71-89 | any nudged shape of valid size still intersects what it was nudged against |
| Collision.Relocate | src/MechSim/Physics/PhysicsModel.java:91-94 | the tracked position moves exactly as far as the shape's origin |
| Collision.NudgePhase | src/MechSim/Physics/PhysicsModel.java:65-124 | only shapes and positions change, never sizes; a reacting alpha's shape becomes its nudge against beta; otherwise a reacting beta's shape becomes its nudge against alpha, except for two circles, where alpha's shape takes the nudge and beta is untouched; a reacting body's position follows its shape |
| Collision.NudgePhaseTouches | src/MechSim/Physics/PhysicsModel.java:65-124 | after the nudge phase two overlapping bodies of valid size still intersect |
| Collision.StaticCircleIsNudged | src/MechSim/Physics/PhysicsModel.java:101-106 | a non-reacting circle alpha's shape is moved to touch a reacting circle beta, while its position stays and beta is untouched |
| Collision.Collide | src/MechSim/Physics/PhysicsModel.java:52-137 | a non-overlapping pair is returned unchanged and unnotified; an overlapping pair is reported as a hit, both are flagged, alpha's listeners are called before beta's, and a non-reacting body keeps its velocity and position |
| Collision.CollideWithGhost | src/MechSim/Physics/PhysicsModel.java:52-137 | an overlapping pair involving a Ghost is only flagged and notified |
| Collision.CollideWithoutResponse | src/MechSim/Physics/PhysicsModel.java:62-134 | an overlapping pair where neither body reacts is only flagged and notified |
| Collision.CollideRuns | src/MechSim/Physics/PhysicsModel.java:62-134 | an overlapping pair without a Ghost is nudged, then responded to when either reacts, then flagged and notified alpha first; a NaN from either phase is the result |
| Collision.CircleHitsRectNoReaction | src/MechSim/Physics/PhysicsModel.java:282-309 | a reacting rectangle beta hit by a reacting circle alpha keeps everything but its collision flag |
| Collision.CollideCirclesConservesMomentum | src/MechSim/Physics/PhysicsModel.java:52-175 | a whole collision of two reacting circles conserves momentum |
| Collision.CollideRectsConservesMomentum | src/MechSim/Physics/PhysicsModel.java:52-216 | a whole collision of two reacting rectangles conserves momentum |
| Collision.Pass | src/MechSim/Physics/PhysicsModel.java:41-50 | the pass keeps every body's kind, mass, listeners, colour and size; non-reacting bodies keep velocity and position; unlisted bodies are untouched |
| Collision.PassOne | src/MechSim/Physics/PhysicsModel.java:41-50 | a pass over one other body is exactly one collision of the body with it, whose result replaces both bodies |
| Collision.PassAppend | src/MechSim/Physics/PhysicsModel.java:41-50 | a pass over xs + ys is the pass over xs followed by the pass over ys on the bodies it left, with the events in that order; a NaN stays NaN |
| Collision.PassSkipsSelf | src/MechSim/Physics/PhysicsModel.java:44-47 | listing the body itself has no effect: the pass equals the pass over the list without it |
| Collision.PassWithoutContact | src/MechSim/Physics/PhysicsModel.java:41-50 | a pass that finds no overlap changes nothing and calls no listener |
| Collision.Update | src/MechSim/Physics/PhysicsObject.java:86-111 | after an update the body's pending acceleration is 0, other bodies keep what a collision keeps, and unlisted bodies are untouched |
| Collision.UpdateRunsPass | src/MechSim/Physics/PhysicsObject.java:86-111 | a body that needs a pass clears its flag, runs the pass over the registered bodies, and then integrates on the heap the pass left |
| Collision.UpdateHitsOverlap | src/MechSim/Physics/PhysicsObject.java:86-111 | a body that needs a pass and overlaps the one registered other body ends flagged, flags it, and notifies both bodies' listeners in order |
| Collision.UpdateWithoutContact | src/MechSim/Physics/PhysicsObject.java:86-111 | with nothing to hit, an update clears the flag and integrates, calling no listener |
| Collision.RestingBodyOnlyIntegrates | src/MechSim/Physics/PhysicsObject.java:88-90 | a Passive or Static body at rest only integrates, whatever it overlaps |
| Motors.NewMotor | src/MechSim/Mechanics/Motor.java:29 | the stored maximum power is a thousandth of the given magnitude, hence non-negative |
| Motors.Activate | src/MechSim/Mechanics/Motor.java:76-80 | power is clamped to [-1, 1] and time to at least 0 |
| Motors.ActivateOverrides | src/MechSim/Mechanics/Motor.java:76-80 | only the last activation counts |
| Motors.OnTime | src/MechSim/Mechanics/Motor.java:56-67 | a motor is on for min(countdown, dt) of a tick, and not at all once the countdown is 0 |
| Motors.Tick | src/MechSim/Mechanics/Motor.java:44-67 | for dt >= 0 the countdown falls by the on-time, never increases and never goes negative; at 0 nothing changes |
| Motors.Thrust | src/MechSim/Mechanics/Motor.java:55-65 | the force is (cos, sin) times power times max power times the on-time |
| Motors.Update | src/MechSim/Mechanics/Motor.java:41-69 | the body's pending acceleration grows by thrust / mass, nothing else of the body changes, and a switched-off motor changes nothing |
| Motors.RunUsesOrderedTime | src/MechSim/Mechanics/Motor.java:56-67 | over a run of ticks the countdown falls by min(elapsed time, ordered time) and stays non-negative |
| Motors.StoppedStaysStopped | src/MechSim/Mechanics/Motor.java:44 | a stopped motor stays stopped whatever the ticks |
| Sensors.NewTimer | src/MechSim/Sensors/Sensor.java:20-25 | a negative interval becomes 0, and the time left starts at 0 |
| Sensors.Tick | src/MechSim/Sensors/Sensor.java:31-41 | the sensor polls exactly when time left minus dt is at most 0, then the timer rewinds to the interval; otherwise it falls by 2·dt |
| Sensors.FirstTickPolls | src/MechSim/Sensors/Sensor.java:31-38 | the first update of a new sensor with dt >= 0 polls |
| Sensors.ZeroIntervalPollsEveryTick | src/MechSim/Sensors/Sensor.java:31-38 | with interval 0 every update with dt >= 0 polls |
| Sensors.TimeLeftWithinInterval | src/MechSim/Sensors/Sensor.java:31-41 | with time moving forward the time left never exceeds the interval |
| Sensors.NewBumper | src/MechSim/Sensors/BumperSensor.java:23-28 | the bumper starts unlatched and subscribes to its body as the last listener |
| Sensors.Notice | src/MechSim/Sensors/BumperSensor.java:43-47 | the latch is set exactly by a collision with a non-Ghost body (or was set already) |
| Sensors.Poll | src/MechSim/Sensors/BumperSensor.java:31-40 | the reading is the latch or else the body's collided flag, and the latch is clear afterwards |
| Sensors.NoticeThenPoll | src/MechSim/Sensors/BumperSensor.java:31-47 | a noticed collision is reported once, even after the body's flag is cleared |
| Sensors.BumperUpdate | src/MechSim/Sensors/Sensor.java:31-41 | the bumper polls exactly on the ticks the timer says; on other ticks latch and reading are kept |
| Sensors.Deliver | src/MechSim/Sensors/BumperSensor.java:43-47 | a sequence of listener calls changes neither the timer nor the reading |
| Sensors.DeliverLatches | src/MechSim/Sensors/BumperSensor.java:43-47 | the latch ends set exactly when it was set or some call to this bumper names a non-Ghost body |
| Sensors.BumperSeesCollision | src/MechSim/Physics/PhysicsModel.java:131-134 | a bumper subscribed to a body that hits a non-Ghost body ends latched |
| Sensors.NearestHit | src/MechSim/Sensors/DistanceSensor.java:58-72 | the result is at most every eligible non-negative distance; it is the sentinel exactly when there is no hit; otherwise it is the distance of the first entry attaining the minimum |
| Sensors.Eligibility | src/MechSim/Sensors/DistanceSensor.java:65-66 | a body is scanned exactly when it is not the robot's own and not a Ghost |
| Sensors.Distances | src/MechSim/Sensors/DistanceSensor.java:67 | each scanned entry's distance is the ray's distance to that body's bounds |
| Sensors.SensorRay | src/MechSim/Sensors/DistanceSensor.java:53-55 | the ray starts at the circle centre or the rectangle centre; its unit heading is parallel to the snapped (cos, sin) and points the same way, and is (cos, sin) itself when neither is snapped |
| Sensors.DistancePoll | src/MechSim/Sensors/DistanceSensor.java:40-73 | the reading is at most every eligible non-negative distance, is the sentinel when nothing eligible is hit, and is otherwise some eligible hit's distance |
| Sensors.ColorPoll | src/MechSim/Sensors/ColorSensor.java:42-82 | the reading is the no-object colour when nothing eligible is hit; otherwise it is the colour of the first eligible body at the minimum distance |

## Left out

- Rendering and UI: `Render`, `RenderWireframe`, `SelfRendering`, `TransformedImage`, `GameForm`, `RobotForm`. They are drawing and event plumbing.
- `Robot`, `GameEntity`, `GameObject`: orchestration with no physics logic. `Sensor`'s constructor call `robot.AddSensor(this)` is left out with them.
- The simulation loop that calls `Update` on every body each tick. `Collision.Update` models one body's update.
- `AccelerometerSensor`, `AnalogSensor`, `DigitalSensor`, `BooleanSensor`, `MechanicalDevice`: getters and interfaces only. The colour value is an opaque RGBA record.
- The cached rotation, cosine and sine of `Motor`, `DistanceSensor` and `ColorSensor`: the model takes the current cosine and sine as inputs.
- IEEE-754 behaviour: rounding, infinities, and NaN propagation. The only NaN modelled is `Outcome.NaN`, for the collision divisions by zero. The other unguarded divisions are preconditions.
- A slab axis whose heading component is exactly 0 while the origin lies inside the span is treated as unconstrained. In Java the division by zero gives infinities or NaN, and every comparison with them leaves the interval unchanged.
- Aliasing of one `CollisionBounds` object between two bodies: each body here owns its shape value.
- The `Vector2` static constants (`Zero`, `Left`, `Right`, `Up`, `Down`), trivial getters, and the body's rotation and render flags.
- Rays.IntersectsCircle: modelled as written (a line-only test that ignores the direction, false when headingX is 0). Its contract states only the vertical-heading miss and that a circle centred on the line is hit. It has no soundness property, because the test is not sound.
- Collision.CircleResponse: states momentum conservation and the direction of alpha's change, not exact post-collision velocities. The sqrt-scaled impulse has no closed form beyond the head-on cases `Collision.HeadOnCircleKeepsGoing` and `Collision.HeadOnEqualCirclesSwap`.
- Motors.Thrust: its ensures describes only a switched-on motor, because `Motor.Update` computes the thrust only when the countdown is non-zero.
- Rays.DistanceToRectSentinel: the sentinel-iff-miss equivalence has the extra case of a hit whose entry parameter is exactly Double.MAX_VALUE, where Java returns the same number.
- Rays.DistanceToRectMinimal: assumes each heading component is 0, at least EPSILON, or has the origin within that axis's span. Otherwise the EPSILON shortcut reports a miss (`Rays.IntersectsRect`).
- Sensors.SensorRay: requires cos² + sin² = 1, which the Java gets from `Math.cos`/`Math.sin` of one angle up to rounding.

=== FILE: bodies.dfy ===
/** PhysicsObject: a simulated body with an interaction type, a mass, a
    collision shape, kinematic state, a collision flag and a list of
    collision listeners. The body's physics model is not a field: the
    operations that need the model's friction take it as a parameter. */
module Bodies {
  import opened Numerics
  import opened Shapes
  import opened Bounds
  import opened Seqs

  /** InteractionType. Kinetic and Passive bodies respond to collisions.
      Static bodies get no collision response, although the nudge of a
      circle pair can still move a Static circle's shape. Ghost bodies are
      flagged and notified but never nudged or deflected. */
  datatype Kind = Kinetic | Passive | Static | Ghost

  /** Whether collisions change this body's velocity and position. */
  predicate HasResponse(k: Kind)
  {
    k == Kinetic || k == Passive
  }

  /** Bodies and listeners are referred to by identity. */
  type BodyId = nat
  type ListenerId = nat

  /** An RGBA colour, each channel 0..255. */
  datatype Color = Color(red: int, green: int, blue: int, alpha: int)

  const BLACK := Color(0, 0, 0, 255)

  /** The mass the constructor substitutes for a non-positive one. */
  const MIN_MASS: real := 0.01

  datatype Body = Body(
    kind: Kind,
    mass: real,
    bounds: Bounds,
    posX: real, posY: real,
    velX: real, velY: real,
    accX: real, accY: real,
    collided: bool,
    listeners: seq<ListenerId>,
    color: Color)

  /** Every constructed body has a positive mass, and nothing changes it. */
  predicate MassPositive(b: Body)
  {
    b.mass > 0.0
  }

  /** The constructors: a non-positive mass becomes 0.01, the body starts at
      rest at position (0, 0) whatever its shape's origin, black, with no
      listeners and no collision recorded. */
  function NewBody(kind: Kind, mass: real, bounds: Bounds): (b: Body)
    ensures MassPositive(b)
    ensures mass > 0.0 ==> b.mass == mass
    ensures mass <= 0.0 ==> b.mass == MIN_MASS
    ensures b.kind == kind && b.bounds == bounds
    ensures b.posX == 0.0 && b.posY == 0.0
    ensures b.velX == 0.0 && b.velY == 0.0 && b.accX == 0.0 && b.accY == 0.0
    ensures !b.collided && b.listeners == [] && b.color == BLACK
  {
    Body(kind, if mass <= 0.0 then MIN_MASS else mass, bounds,
         0.0, 0.0, 0.0, 0.0, 0.0, 0.0, false, [], BLACK)
  }

  /** Adds to the pending acceleration. */
  function ApplyAcceleration(b: Body, ax: real, ay: real): (r: Body)
    ensures r.accX - b.accX == ax && r.accY - b.accY == ay
    ensures r == b.(accX := r.accX, accY := r.accY)
  {
    b.(accX := b.accX + ax, accY := b.accY + ay)
  }

  /** Two accelerations applied one after the other add up to one. */
  lemma ApplyAccelerationAdditive(b: Body, a1x: real, a1y: real, a2x: real, a2y: real)
    ensures ApplyAcceleration(ApplyAcceleration(b, a1x, a1y), a2x, a2y)
         == ApplyAcceleration(b, a1x + a2x, a1y + a2y)
  {
  }

  /** Newton's second law: the force divided by the mass joins the pending
      acceleration. */
  function ApplyForce(b: Body, fx: real, fy: real): (r: Body)
    requires MassPositive(b)
    ensures Mul(b.mass, r.accX - b.accX) == fx
    ensures Mul(b.mass, r.accY - b.accY) == fy
    ensures r == b.(accX := r.accX, accY := r.accY)
  {
    ApplyAcceleration(b, fx / b.mass, fy / b.mass)
  }

  /** Replaces the pending acceleration. */
  function SetAcceleration(b: Body, ax: real, ay: real): (r: Body)
    ensures r.accX == ax && r.accY == ay
    ensures r == b.(accX := ax, accY := ay)
  {
    b.(accX := ax, accY := ay)
  }

  /** Setting the acceleration to what it already was and adding zero are
      both no-ops, and a set followed by an apply is a set of the sum. */
  lemma SetThenApply(b: Body, ax: real, ay: real, dx: real, dy: real)
    ensures ApplyAcceleration(SetAcceleration(b, ax, ay), dx, dy) == SetAcceleration(b, ax + dx, ay + dy)
    ensures SetAcceleration(b, b.accX, b.accY) == b
    ensures ApplyAcceleration(b, 0.0, 0.0) == b
  {
  }

  /** The shape's origin minus the tracked position: Update moves both by
      the same amount, so this stays as it was at construction. */
  function OffsetX(b: Body): real
  {
    OriginX(b.bounds) - b.posX
  }

  function OffsetY(b: Body): real
  {
    OriginY(b.bounds) - b.posY
  }

  /** Distance travelled in one step under constant acceleration. */
  function Displacement(v: real, a: real, dt: real): real
  {
    v * dt + a * dt * dt * 0.5
  }

  /** Velocity after one step: the fraction `retained` of the old velocity
      survives friction, and the acceleration adds a dt. */
  function StepVelocity(v: real, a: real, dt: real, retained: real): real
  {
    v * retained + a * dt
  }

  /** The integration half of PhysicsObject.Update. `retained` is the
      model's friction raised to the power dt, which the caller computes.
      Shape and position move by v dt + a dt^2 / 2 (a rectangle's edge cache
      is refreshed), velocity becomes v retained + a dt, and the pending
      acceleration is consumed. */
  function Integrate(b: Body, dt: real, retained: real): (r: Body)
    ensures SameKind(r.bounds, b.bounds)
    ensures r.posX - b.posX == OriginX(r.bounds) - OriginX(b.bounds)
    ensures r.posY - b.posY == OriginY(r.bounds) - OriginY(b.bounds)
    ensures OffsetX(r) == OffsetX(b) && OffsetY(r) == OffsetY(b)
    ensures r.posX == b.posX + Displacement(b.velX, b.accX, dt)
    ensures r.posY == b.posY + Displacement(b.velY, b.accY, dt)
    ensures r.velX == StepVelocity(b.velX, b.accX, dt, retained)
    ensures r.velY == StepVelocity(b.velY, b.accY, dt, retained)
    ensures r.accX == 0.0 && r.accY == 0.0
    ensures r.bounds.Rect? ==> EdgesCached(r.bounds.rect)
    ensures r.kind == b.kind && r.mass == b.mass && r.collided == b.collided
    ensures r.listeners == b.listeners && r.color == b.color
  {
    var dx := Displacement(b.velX, b.accX, dt);
    var dy := Displacement(b.velY, b.accY, dt);
    b.(bounds := ShiftRefreshed(b.bounds, dx, dy),
       posX := b.posX + dx, posY := b.posY + dy,
       velX := StepVelocity(b.velX, b.accX, dt, retained),
       velY := StepVelocity(b.velY, b.accY, dt, retained),
       accX := 0.0, accY := 0.0)
  }

  /** Under constant acceleration the step is exact: a step of length t1
      followed by a step of length t2 from the velocity reached travels as
      far as one step of length t1 + t2, that is v t + a t^2 / 2, and ends at
      the same velocity v + a t. */
  lemma AdvanceComposes(x: real, v: real, a: real, t1: real, t2: real)
    ensures x + Displacement(v, a, t1) + Displacement(StepVelocity(v, a, t1, 1.0), a, t2)
         == x + Displacement(v, a, t1 + t2)
    ensures StepVelocity(StepVelocity(v, a, t1, 1.0), a, t2, 1.0) == StepVelocity(v, a, t1 + t2, 1.0)
  {
    assert (t1 + t2) * (t1 + t2) == t1 * t1 + 2.0 * t1 * t2 + t2 * t2;
    assert a * (t1 + t2) * (t1 + t2) * 0.5 == a * t1 * t1 * 0.5 + a * t1 * t2 + a * t2 * t2 * 0.5;
    assert (v + a * t1) * t2 == v * t2 + a * t1 * t2;
    assert a * (t1 + t2) == a * t1 + a * t2;
  }

  /** With no pending acceleration a step moves the body by v dt and keeps
      the fraction `retained` of its velocity. */
  lemma IntegrateWithoutForces(b: Body, dt: real, retained: real)
    requires b.accX == 0.0 && b.accY == 0.0
    ensures var r := Integrate(b, dt, retained);
            r.posX == b.posX + b.velX * dt && r.posY == b.posY + b.velY * dt &&
            r.velX == b.velX * retained && r.velY == b.velY * retained
  {
    AdvanceWithoutForce(b.velX, dt, retained);
    AdvanceWithoutForce(b.velY, dt, retained);
  }

  lemma AdvanceWithoutForce(v: real, dt: real, retained: real)
    ensures Displacement(v, 0.0, dt) == v * dt
    ensures StepVelocity(v, 0.0, dt, retained) == v * retained
  {
  }

  /** Without friction, and with the same acceleration applied again before
      the second step (as a constant force does each frame), two steps reach
      the position and velocity of one step of the combined length. With no
      acceleration this says a body coasts at constant velocity. */
  lemma IntegrateComposes(b: Body, t1: real, t2: real)
    ensures var two := Integrate(SetAcceleration(Integrate(b, t1, 1.0), b.accX, b.accY), t2, 1.0);
            var one := Integrate(b, t1 + t2, 1.0);
            two.posX == one.posX && two.posY == one.posY && two.velX == one.velX && two.velY == one.velY
  {
    AdvanceComposes(b.posX, b.velX, b.accX, t1, t2);
    AdvanceComposes(b.posY, b.velY, b.accY, t1, t2);
  }

  /** Friction compounds: without acceleration, two steps that retain the
      fractions f1 and f2 of the velocity retain f1 f2 of it, as
      friction^t1 * friction^t2 == friction^(t1 + t2) requires. */
  lemma IntegrateFrictionCompounds(b: Body, t1: real, t2: real, f1: real, f2: real)
    requires b.accX == 0.0 && b.accY == 0.0
    ensures var two := Integrate(Integrate(b, t1, f1), t2, f2);
            two.velX == b.velX * (f1 * f2) && two.velY == b.velY * (f1 * f2)
  {
    var m := Integrate(b, t1, f1);
    assert m.velX == b.velX * f1 && m.velY == b.velY * f1;
    assert m.accX == 0.0 && m.accY == 0.0;
  }

  /** PhysicsObject.SetPosition: the shape moves by the difference between
      the new and the tracked position, so the offset between them is kept.
      A rectangle's edge cache is not refreshed here. */
  function SetPosition(b: Body, x: real, y: real): (r: Body)
    ensures r.posX == x && r.posY == y
    ensures OffsetX(r) == OffsetX(b) && OffsetY(r) == OffsetY(b)
    ensures SameKind(r.bounds, b.bounds)
    ensures r == b.(bounds := r.bounds, posX := x, posY := y)
  {
    b.(bounds := Shift(b.bounds, x - b.posX, y - b.posY), posX := x, posY := y)
  }

  /** Moving a rectangular body sideways with SetPosition leaves its cached
      right edge behind, whereas Integrate keeps it in step. */
  lemma SetPositionLeavesEdgesStale(b: Body, x: real, y: real)
    requires b.bounds.Rect? && EdgesCached(b.bounds.rect) && x != b.posX
    ensures !EdgesCached(SetPosition(b, x, y).bounds.rect)
  {
    ShiftLeavesEdgesStale(b.bounds.rect, x - b.posX, y - b.posY);
  }

  /** Setting the position back to where it was undoes a SetPosition. */
  lemma SetPositionUndo(b: Body, x: real, y: real)
    ensures SetPosition(SetPosition(b, x, y), b.posX, b.posY) == b
  {
    var m := SetPosition(b, x, y);
    var r := SetPosition(m, b.posX, b.posY);
    match b.bounds
    case Circ(c) =>
      assert r.bounds.circle == c;
    case Rect(rect) =>
      assert r.bounds.rect == rect;
  }

  /** PhysicsObject.Intersects: the overlap test of the two shapes. */
  function BodiesIntersect(a: Body, b: Body): (r: bool)
    ensures r == Intersects(b.bounds, a.bounds)
  {
    IntersectsSymmetric(a.bounds, b.bounds);
    Intersects(a.bounds, b.bounds)
  }

  /** RegisterListener: appended; the same listener may appear twice. */
  function RegisterListener(b: Body, l: ListenerId): (r: Body)
    ensures |r.listeners| == |b.listeners| + 1
    ensures r.listeners[..|b.listeners|] == b.listeners && r.listeners[|b.listeners|] == l
    ensures r == b.(listeners := r.listeners)
  {
    b.(listeners := b.listeners + [l])
  }

  /** UnregisterListener: the first registration of l is dropped. */
  function UnregisterListener(b: Body, l: ListenerId): (r: Body)
    ensures multiset(r.listeners) == multiset(b.listeners) - multiset{l}
    ensures l !in b.listeners ==> r == b
    ensures r == b.(listeners := r.listeners)
  {
    RemoveFirstMultiset(b.listeners, l);
    b.(listeners := RemoveFirst(b.listeners, l))
  }

  /** A listener registered once and then unregistered is gone again. */
  lemma RegisterThenUnregister(b: Body, l: ListenerId)
    requires l !in b.listeners
    ensures UnregisterListener(RegisterListener(b, l), l) == b
  {
    RemoveFirstUndoesAppend(b.listeners, l);
  }

  /** One call of CollisionListener.NotifyOfCollision(subject, other). */
  datatype Event = Event(listener: ListenerId, subject: BodyId, other: BodyId)

  /** The calls made to each listener, in registration order. */
  function Events(ls: seq<ListenerId>, subject: BodyId, other: BodyId): (es: seq<Event>)
    ensures |es| == |ls|
    ensures forall i :: 0 <= i < |ls| ==> es[i] == Event(ls[i], subject, other)
  {
    if |ls| == 0 then []
    else [Event(ls[0], subject, other)] + Events(ls[1..], subject, other)
  }

  /** NotifyOfCollision: the body records the collision and every listener
      is called once per registration with (this body, the other body). */
  function Notify(b: Body, self: BodyId, other: BodyId): (r: (Body, seq<Event>))
    ensures r.0.collided
    ensures r.0 == b.(collided := true)
    ensures |r.1| == |b.listeners|
    ensures forall i :: 0 <= i < |r.1| ==>
              r.1[i].listener == b.listeners[i] && r.1[i].subject == self && r.1[i].other == other
  {
    (b.(collided := true), Events(b.listeners, self, other))
  }

  /** The test at the start of Update: only Kinetic and Ghost bodies and
      bodies that are moving look for collisions themselves. A Passive or
      Static body at rest never starts a collision pass. */
  function NeedsCollisionPass(b: Body): (r: bool)
    ensures b.kind == Kinetic || b.kind == Ghost ==> r
    ensures b.kind == Passive || b.kind == Static ==> (r <==> (b.velX != 0.0 || b.velY != 0.0))
  {
    b.kind == Kinetic || b.kind == Ghost || b.velX != 0.0 || b.velY != 0.0
  }
}

=== FILE: bounds.dfy ===
/** CollisionBounds: a body's collision shape, either a circle or a
    rectangle, with the pairwise overlap dispatch. The variant is fixed when
    the value is built; nothing in the model changes it. */
module Bounds {
  import opened Shapes

  datatype Bounds = Circ(circle: Circle) | Rect(rect: Rectangle)

  /** What the shape constructors establish: a non-negative radius, or a
      well-formed rectangle. */
  predicate ShapeValid(b: Bounds)
  {
    match b
    case Circ(c) => 0.0 <= c.radius
    case Rect(r) => WellFormed(r)
  }

  function FromCircle(c: Circle): (b: Bounds)
    ensures b.Circ? && b.circle == c
  {
    Circ(c)
  }

  function FromRect(r: Rectangle): (b: Bounds)
    ensures b.Rect? && b.rect == r
  {
    Rect(r)
  }

  /** CollisionBounds.Intersects(CollisionBounds). A circle/rectangle pair,
      in either order, is decided by the circle's clamp test, so the
      rectangle-first order agrees with Rectangle.Intersects(Circle). */
  function Intersects(a: Bounds, b: Bounds): (hit: bool)
    ensures a.Rect? && b.Circ? ==> hit == RectIntersectsCircle(a.rect, b.circle)
    ensures a.Circ? && b.Circ? && a.circle.x == b.circle.x && a.circle.y == b.circle.y ==> hit
  {
    match (a, b)
    case (Circ(c1), Circ(c2)) => CircleIntersectsCircle(c1, c2)
    case (Circ(c), Rect(r)) => CircleIntersectsRect(c, r)
    case (Rect(r), Circ(c)) => CircleIntersectsRect(c, r)
    case (Rect(r1), Rect(r2)) => RectIntersectsRect(r1, r2)
  }

  /** CollisionBounds.Intersects(Circle), which agrees with the pairwise
      test on bounds wrapping the circle. */
  function IntersectsCircle(a: Bounds, c: Circle): (hit: bool)
    ensures hit == Intersects(a, FromCircle(c))
  {
    match a
    case Circ(own) => CircleIntersectsCircle(own, c)
    case Rect(own) => RectIntersectsCircle(own, c)
  }

  /** CollisionBounds.Intersects(Rectangle), which agrees with the pairwise
      test on bounds wrapping the rectangle. */
  function IntersectsRect(a: Bounds, r: Rectangle): (hit: bool)
    ensures hit == Intersects(a, FromRect(r))
  {
    match a
    case Circ(own) => CircleIntersectsRect(own, r)
    case Rect(own) => RectIntersectsRect(own, r)
  }

  /** The overlap test does not depend on the order of the pair, for all
      four combinations of shapes. */
  lemma IntersectsSymmetric(a: Bounds, b: Bounds)
    ensures Intersects(a, b) == Intersects(b, a)
  {
    match (a, b)
    case (Circ(c1), Circ(c2)) => CircleIntersectsCircleSymmetric(c1, c2);
    case (Circ(c), Rect(r)) =>
    case (Rect(r), Circ(c)) =>
    case (Rect(r1), Rect(r2)) => RectIntersectsRectSymmetric(r1, r2);
  }

  /** Both orders of a circle/rectangle pair evaluate the circle-side test. */
  lemma MixedPairUsesCircleTest(c: Circle, r: Rectangle)
    ensures Intersects(Circ(c), Rect(r)) == CircleIntersectsRect(c, r)
    ensures Intersects(Rect(r), Circ(c)) == CircleIntersectsRect(c, r)
  {
  }

  /** Same variant: what a physics step may change about a body's shape. */
  predicate SameKind(a: Bounds, b: Bounds)
  {
    a.Circ? <==> b.Circ?
  }

  /** The point the simulator tracks a body's position by: the circle's
      centre, or the rectangle's top-left corner. */
  function OriginX(b: Bounds): real
  {
    match b
    case Circ(c) => c.x
    case Rect(r) => r.x
  }

  function OriginY(b: Bounds): real
  {
    match b
    case Circ(c) => c.y
    case Rect(r) => r.y
  }

  /** The centre of the shape: the circle's centre or the middle of the
      rectangle. */
  function CentreX(b: Bounds): real
  {
    match b
    case Circ(c) => c.x
    case Rect(r) => r.x + r.width / 2.0
  }

  function CentreY(b: Bounds): real
  {
    match b
    case Circ(c) => c.y
    case Rect(r) => r.y + r.height / 2.0
  }

  /** Moves the origin by (dx, dy) and leaves every other field alone; for a
      rectangle the right/bottom cache is NOT refreshed. */
  function Shift(b: Bounds, dx: real, dy: real): (r: Bounds)
    ensures SameKind(r, b)
    ensures OriginX(r) == OriginX(b) + dx && OriginY(r) == OriginY(b) + dy
    ensures r.Circ? ==> r.circle.radius == b.circle.radius
    ensures r.Rect? ==> r.rect == b.rect.(x := r.rect.x, y := r.rect.y)
  {
    match b
    case Circ(c) => Circ(c.(x := c.x + dx, y := c.y + dy))
    case Rect(rect) => Rect(rect.(x := rect.x + dx, y := rect.y + dy))
  }

  /** Moves the origin by (dx, dy) and refreshes a rectangle's edge cache. */
  function ShiftRefreshed(b: Bounds, dx: real, dy: real): (r: Bounds)
    ensures SameKind(r, b)
    ensures OriginX(r) == OriginX(b) + dx && OriginY(r) == OriginY(b) + dy
    ensures r.Circ? ==> r.circle.radius == b.circle.radius
    ensures r.Rect? ==> r.rect.width == b.rect.width && r.rect.height == b.rect.height && EdgesCached(r.rect)
  {
    match b
    case Circ(c) => Circ(c.(x := c.x + dx, y := c.y + dy))
    case Rect(rect) =>
      var x := rect.x + dx;
      var y := rect.y + dy;
      Rect(rect.(x := x, y := y, right := x + rect.width, bottom := y + rect.height))
  }

  /** Shifting a well-formed rectangle sideways without the refresh leaves
      its right edge where it was, so the cache goes stale. */
  lemma ShiftLeavesEdgesStale(r: Rectangle, dx: real, dy: real)
    requires EdgesCached(r) && dx != 0.0
    ensures !EdgesCached(Shift(Rect(r), dx, dy).rect)
    ensures EdgesCached(ShiftRefreshed(Rect(r), dx, dy).rect)
  {
  }
}

=== FILE: collision.dfy ===
/** PhysicsModel: the world's friction and restitution, the list of
    registered bodies, and the collision pass each body runs against that
    list: detect, nudge apart, respond, notify.

    Bodies live in a heap from identities to values; the model's list holds
    identities, possibly more than once, as the Java list of references can. */
module Collision {
  import opened Numerics
  import opened Vectors
  import opened Shapes
  import opened Bounds
  import opened Seqs
  import opened Bodies

  datatype PhysicsModel = PhysicsModel(friction: real, restitution: real, objects: seq<BodyId>)

  type Heap = map<BodyId, Body>

  /** What the constructor and the setters keep: both coefficients in [0, 1]. */
  predicate CoefficientsInRange(m: PhysicsModel)
  {
    0.0 <= m.friction <= 1.0 && 0.0 <= m.restitution <= 1.0
  }

  /** No friction, perfectly elastic collisions, no bodies. */
  function NewModel(): (m: PhysicsModel)
    ensures CoefficientsInRange(m)
    ensures m.friction == 1.0 && m.restitution == 1.0 && m.objects == []
  {
    PhysicsModel(1.0, 1.0, [])
  }

  /** RegisterObject appends; registering twice lists the body twice. */
  function RegisterObject(m: PhysicsModel, id: BodyId): (r: PhysicsModel)
    ensures |r.objects| == |m.objects| + 1
    ensures r.objects[..|m.objects|] == m.objects && r.objects[|m.objects|] == id
    ensures r.friction == m.friction && r.restitution == m.restitution
  {
    m.(objects := m.objects + [id])
  }

  /** UnregisterObject drops the first registration only. */
  function UnregisterObject(m: PhysicsModel, id: BodyId): (r: PhysicsModel)
    ensures multiset(r.objects) == multiset(m.objects) - multiset{id}
    ensures id !in m.objects ==> r == m
    ensures r.friction == m.friction && r.restitution == m.restitution
  {
    RemoveFirstMultiset(m.objects, id);
    m.(objects := RemoveFirst(m.objects, id))
  }

  lemma RegisterThenUnregisterObject(m: PhysicsModel, id: BodyId)
    requires id !in m.objects
    ensures UnregisterObject(RegisterObject(m, id), id) == m
  {
    RemoveFirstUndoesAppend(m.objects, id);
  }

  /** SetFriction takes the fraction of speed lost per time unit, clamped to
      [0, 1], and stores the fraction retained. */
  function SetFriction(m: PhysicsModel, lost: real): (r: PhysicsModel)
    ensures 0.0 <= r.friction <= 1.0
    ensures 0.0 <= lost <= 1.0 ==> r.friction + lost == 1.0
    ensures lost < 0.0 ==> r.friction == 1.0
    ensures lost > 1.0 ==> r.friction == 0.0
    ensures r == m.(friction := r.friction)
    ensures CoefficientsInRange(m) ==> CoefficientsInRange(r)
  {
    m.(friction := 1.0 - Clamp(lost, 0.0, 1.0))
  }

  /** SetCoefficientOfRestitution clamps to [0, 1]. */
  function SetRestitution(m: PhysicsModel, coefficient: real): (r: PhysicsModel)
    ensures 0.0 <= r.restitution <= 1.0
    ensures 0.0 <= coefficient <= 1.0 ==> r.restitution == coefficient
    ensures coefficient < 0.0 ==> r.restitution == 0.0
    ensures coefficient > 1.0 ==> r.restitution == 1.0
    ensures r == m.(restitution := r.restitution)
    ensures CoefficientsInRange(m) ==> CoefficientsInRange(r)
  {
    m.(restitution := Clamp(coefficient, 0.0, 1.0))
  }

  /** Setting a coefficient that is already in range and reading it back
      gives it unchanged; setting it twice is setting it once. */
  lemma SettersIdempotent(m: PhysicsModel, lost: real, coefficient: real)
    ensures SetFriction(SetFriction(m, lost), lost) == SetFriction(m, lost)
    ensures SetRestitution(SetRestitution(m, coefficient), coefficient) == SetRestitution(m, coefficient)
    ensures SetFriction(m, 1.0 - SetFriction(m, lost).friction) == SetFriction(m, lost)
  {
  }

  // ------------------------------------------------------------ directions

  /** (dx, dy) divided by its length; the zero vector has none. */
  function Direction(dx: real, dy: real, sqrt: real -> real): (r: Outcome<(real, real)>)
    requires IsSqrt(sqrt)
    ensures r.Ok? <==> (dx != 0.0 || dy != 0.0)
  {
    if dx == 0.0 && dy == 0.0 then NaN
    else
      SqDistZero(dx, dy, 0.0, 0.0);
      SqNonNegative(dx);
      SqNonNegative(dy);
      SqrtOfPositive(sqrt, NormSq(dx, dy));
      var m := sqrt(NormSq(dx, dy));
      Ok((dx / m, dy / m))
  }

  /** The direction found has length 1. */
  lemma DirectionUnit(dx: real, dy: real, sqrt: real -> real)
    requires IsSqrt(sqrt)
    requires dx != 0.0 || dy != 0.0
    ensures var u := Direction(dx, dy, sqrt).value;
            NormSq(u.0, u.1) == 1.0
  {
    SqDistZero(dx, dy, 0.0, 0.0);
    SqNonNegative(dx);
    SqNonNegative(dy);
    var m := sqrt(NormSq(dx, dy));
    SqrtOfPositive(sqrt, NormSq(dx, dy));
    UnitByDivision(dx, dy, m);
  }

  /** The direction found is a positive multiple of the vector itself. */
  lemma DirectionParallel(dx: real, dy: real, sqrt: real -> real)
    requires IsSqrt(sqrt)
    requires dx != 0.0 || dy != 0.0
    ensures var u := Direction(dx, dy, sqrt).value;
            Mul(u.0, dy) == Mul(u.1, dx) && 0.0 < Dot(u.0, u.1, dx, dy)
  {
    SqDistZero(dx, dy, 0.0, 0.0);
    SqNonNegative(dx);
    SqNonNegative(dy);
    var m := sqrt(NormSq(dx, dy));
    SqrtOfPositive(sqrt, NormSq(dx, dy));
    var u := Direction(dx, dy, sqrt).value;
    assert u == (dx / m, dy / m);
    DivisionParallel(dx, dy, m);
  }

  lemma DivisionParallel(dx: real, dy: real, m: real)
    requires 0.0 < m && 0.0 < NormSq(dx, dy)
    ensures Mul(dx / m, dy) == Mul(dy / m, dx)
    ensures 0.0 < Dot(dx / m, dy / m, dx, dy)
  {
    assert Dot(dx / m, dy / m, dx, dy) == NormSq(dx, dy) / m;
  }

  /** PhysicsModel.ONE_OVER_SQRT_TWO. */
  function OneOverSqrtTwo(sqrt: real -> real): (k: real)
    requires IsSqrt(sqrt)
    ensures 0.0 < k
  {
    var s := sqrt(2.0);
    SqrtOfPositive(sqrt, 2.0);
    1.0 / s
  }

  /** Its square is one half. */
  lemma OneOverSqrtTwoSquared(sqrt: real -> real)
    requires IsSqrt(sqrt)
    ensures Sq(OneOverSqrtTwo(sqrt)) == 0.5
  {
    var s := sqrt(2.0);
    SqrtOfPositive(sqrt, 2.0);
    InverseSquare(s);
  }

  lemma InverseSquare(s: real)
    requires 0.0 < s
    ensures Sq(1.0 / s) * Sq(s) == 1.0
  {
    SqOfProduct(1.0 / s, s);
    assert 1.0 / s * s == 1.0;
  }

  // ---------------------------------------------------------------- normals

  /** The four unit vectors along the axes. */
  predicate AxisUnit(n: (real, real))
  {
    n == (1.0, 0.0) || n == (-1.0, 0.0) || n == (0.0, 1.0) || n == (0.0, -1.0)
  }

  lemma AxisUnitLength(n: (real, real))
    requires AxisUnit(n)
    ensures NormSq(n.0, n.1) == 1.0 && NormSq(-n.0, -n.1) == 1.0
    ensures AxisUnit((-n.0, -n.1))
  {
  }

  /** The normal the rectangle/rectangle response reflects about, from
      alpha's side: +x when alpha's right edge is at beta's left edge, -x
      when beta's right edge is at alpha's left edge, +y when alpha's bottom
      edge is at beta's top edge, -y otherwise. Edges are read from the
      cache and compared within EPSILON. */
  function RectNormal(a: Rectangle, b: Rectangle): (n: (real, real))
    ensures AxisUnit(n)
    ensures Abs(a.right - b.x) <= EPSILON ==> n == (1.0, 0.0)
    ensures Abs(a.right - b.x) > EPSILON && Abs(b.right - a.x) <= EPSILON ==> n == (-1.0, 0.0)
  {
    if Abs(a.right - b.x) <= EPSILON then (1.0, 0.0)
    else if Abs(b.right - a.x) <= EPSILON then (-1.0, 0.0)
    else if Abs(a.bottom - b.y) <= EPSILON then (0.0, 1.0)
    else (0.0, -1.0)
  }

  /** Two well-formed rectangles side by side, alpha on the left, get the
      +x normal; seen from the other one, the -x normal exactly when their
      widths add up to more than EPSILON. Otherwise the right one's right
      edge is within EPSILON of the left one's left edge and the first
      test wins. */
  lemma RectNormalSideBySide(a: Rectangle, b: Rectangle)
    requires WellFormed(a) && WellFormed(b)
    requires a.right == b.x
    ensures RectNormal(a, b) == (1.0, 0.0)
    ensures RectNormal(b, a) == (-1.0, 0.0) <==> a.width + b.width > EPSILON
  {
    assert b.right - a.x == a.width + b.width;
  }

  /** One axis of the circle/rectangle edge normal: +1 when the circle
      reaches the near edge lo within EPSILON, otherwise -1 when it reaches
      the far edge hi, otherwise 0. */
  function EdgeComponent(centre: real, radius: real, lo: real, hi: real): (c: real)
    ensures c == 0.0 || c == 1.0 || c == -1.0
    ensures c == 0.0 <==> Abs(centre - lo) - radius > EPSILON && Abs(hi - centre) - radius > EPSILON
    ensures c == 1.0 <==> Abs(centre - lo) - radius <= EPSILON
    ensures c == -1.0 <==> Abs(centre - lo) - radius > EPSILON && Abs(hi - centre) - radius <= EPSILON
  {
    if Abs(centre - lo) - radius <= EPSILON then 1.0
    else if Abs(hi - centre) - radius <= EPSILON then -1.0
    else 0.0
  }

  /** Mirroring the axis (centre and edges negated, so the far edge becomes
      the near one) negates the component, as long as the edges are too far
      apart for the circle to reach both. */
  lemma EdgeComponentMirror(centre: real, radius: real, lo: real, hi: real)
    requires hi - lo > 2.0 * (radius + EPSILON)
    ensures EdgeComponent(-centre, radius, -hi, -lo) == -EdgeComponent(centre, radius, lo, hi)
  {
    assert Abs(-centre - -hi) == Abs(hi - centre);
    assert Abs(-lo - -centre) == Abs(centre - lo);
  }

  /** No edge test passes. */
  predicate NoEdgeContact(c: Circle, r: Rectangle)
  {
    EdgeComponent(c.x, c.radius, r.x, r.right) == 0.0 && EdgeComponent(c.y, c.radius, r.y, r.bottom) == 0.0
  }

  /** The normal of a circle touching a rectangle, built from the edge
      tests; a corner contact is scaled by 1/sqrt(2). It is a unit vector
      unless no edge test passed, in which case it is zero. */
  function EdgeNormal(c: Circle, r: Rectangle, k: real): (n: (real, real))
    ensures NoEdgeContact(c, r) ==> n == (0.0, 0.0)
    ensures 0.0 < k ==> (0.0 < n.0 <==> Abs(c.x - r.x) - c.radius <= EPSILON)
    ensures 0.0 < k ==> (n.0 < 0.0 <==> Abs(c.x - r.x) - c.radius > EPSILON && Abs(r.right - c.x) - c.radius <= EPSILON)
    ensures 0.0 < k ==> (0.0 < n.1 <==> Abs(c.y - r.y) - c.radius <= EPSILON)
    ensures 0.0 < k ==> (n.1 < 0.0 <==> Abs(c.y - r.y) - c.radius > EPSILON && Abs(r.bottom - c.y) - c.radius <= EPSILON)
    ensures n.0 != 0.0 && n.1 != 0.0 ==> (n.0 == k || n.0 == -k) && (n.1 == k || n.1 == -k)
    ensures EdgeComponent(c.x, c.radius, r.x, r.right) == 0.0 || EdgeComponent(c.y, c.radius, r.y, r.bottom) == 0.0 ==>
              n == (EdgeComponent(c.x, c.radius, r.x, r.right), EdgeComponent(c.y, c.radius, r.y, r.bottom))
  {
    var nx := EdgeComponent(c.x, c.radius, r.x, r.right);
    var ny := EdgeComponent(c.y, c.radius, r.y, r.bottom);
    if nx != 0.0 && ny != 0.0 then (nx * k, ny * k)
    else (nx, ny)
  }

  /** When some edge test passes, the normal has length 1: a side normal,
      or a diagonal scaled by 1 / sqrt 2. */
  lemma EdgeNormalUnit(c: Circle, r: Rectangle, k: real)
    requires Sq(k) == 0.5
    requires !NoEdgeContact(c, r)
    ensures var n := EdgeNormal(c, r, k);
            NormSq(n.0, n.1) == 1.0
  {
    var nx := EdgeComponent(c.x, c.radius, r.x, r.right);
    var ny := EdgeComponent(c.y, c.radius, r.y, r.bottom);
    if nx != 0.0 && ny != 0.0 {
      CornerNormal(nx, ny, k);
    } else {
      SideNormal(nx, ny);
    }
  }

  lemma CornerNormal(nx: real, ny: real, k: real)
    requires nx == 1.0 || nx == -1.0
    requires ny == 1.0 || ny == -1.0
    requires Sq(k) == 0.5
    ensures NormSq(nx * k, ny * k) == 1.0
  {
    SqOfProduct(nx, k);
    SqOfProduct(ny, k);
  }

  lemma SideNormal(nx: real, ny: real)
    requires nx == 0.0 || nx == 1.0 || nx == -1.0
    requires ny == 0.0 || ny == 1.0 || ny == -1.0
    requires nx == 0.0 || ny == 0.0
    ensures (nx == 0.0 && ny == 0.0) || NormSq(nx, ny) == 1.0
  {
  }

  // --------------------------------------------------------------- response

  /** v - s n with s = e 2 (v . n) / (n . n): the reflection of v about n
      scaled by the restitution e. With no restitution, or a velocity along
      the surface, nothing changes. */
  function Reflected(vx: real, vy: real, nx: real, ny: real, e: real): (r: (real, real))
    requires NormSq(nx, ny) != 0.0
    ensures e == 0.0 ==> r == (vx, vy)
    ensures Dot(vx, vy, nx, ny) == 0.0 ==> r == (vx, vy)
  {
    var s := ReflectionScale(vx, vy, nx, ny, e);
    assert e == 0.0 || Dot(vx, vy, nx, ny) == 0.0 ==> s == 0.0;
    (vx - s * nx, vy - s * ny)
  }

  /** The component of the reflected velocity along n is the original one
      times 1 - 2e: reversed for e = 1, kept for e = 0. */
  lemma ReflectedScalesNormal(vx: real, vy: real, nx: real, ny: real, e: real)
    requires NormSq(nx, ny) != 0.0
    ensures var r := Reflected(vx, vy, nx, ny, e);
            Dot(r.0, r.1, nx, ny) == Mul(1.0 - 2.0 * e, Dot(vx, vy, nx, ny))
  {
    var s := ReflectionScale(vx, vy, nx, ny, e);
    ReflectionScaleTimesNormSq(vx, vy, nx, ny, e);
    ReflectedNormal(vx, vy, nx, ny, s, e);
  }

  /** The change of velocity is along the normal. */
  lemma ReflectedAlongNormal(vx: real, vy: real, nx: real, ny: real, e: real)
    requires NormSq(nx, ny) != 0.0
    ensures var r := Reflected(vx, vy, nx, ny, e);
            Mul(r.0 - vx, ny) == Mul(r.1 - vy, nx)
  {
    var s := ReflectionScale(vx, vy, nx, ny, e);
    assert Mul(-(s * nx), ny) == Mul(-(s * ny), nx);
  }

  /** With restitution 1 the reflection keeps the speed. */
  lemma ElasticReflectionKeepsSpeed(vx: real, vy: real, nx: real, ny: real)
    requires NormSq(nx, ny) != 0.0
    ensures NormSq(Reflected(vx, vy, nx, ny, 1.0).0, Reflected(vx, vy, nx, ny, 1.0).1) == NormSq(vx, vy)
  {
    var s := ReflectionScale(vx, vy, nx, ny, 1.0);
    ReflectionScaleTimesNormSq(vx, vy, nx, ny, 1.0);
    ReflectedLength(vx, vy, nx, ny, s);
  }

  /** Reflecting about n or about -n is the same. */
  lemma ReflectedSignFree(vx: real, vy: real, nx: real, ny: real, e: real)
    requires NormSq(nx, ny) != 0.0
    ensures NormSq(-nx, -ny) == NormSq(nx, ny)
    ensures Reflected(vx, vy, nx, ny, e) == Reflected(vx, vy, -nx, -ny, e)
  {
    NegatedNormal(vx, vy, nx, ny);
    var s := ReflectionScale(vx, vy, nx, ny, e);
    var s' := ReflectionScale(vx, vy, -nx, -ny, e);
    NegatedNormalScale(vx, vy, nx, ny, e);
    var r := Reflected(vx, vy, nx, ny, e);
    var r' := Reflected(vx, vy, -nx, -ny, e);
    ReflectedIs(vx, vy, nx, ny, e);
    ReflectedIs(vx, vy, -nx, -ny, e);
    assert r'.0 == r.0 by {
      StepSignFree(vx, s, s', nx);
    }
    assert r'.1 == r.1 by {
      StepSignFree(vy, s, s', ny);
    }
  }

  lemma StepSignFree(v: real, s: real, s': real, n: real)
    requires s' == -s
    ensures v - s' * -n == v - s * n
  {
    NegatedStep(s, n);
  }

  lemma NegatedNormal(vx: real, vy: real, nx: real, ny: real)
    ensures NormSq(-nx, -ny) == NormSq(nx, ny)
    ensures Dot(vx, vy, -nx, -ny) == -Dot(vx, vy, nx, ny)
  {
    assert Sq(-nx) == Sq(nx) && Sq(-ny) == Sq(ny);
    assert Mul(vx, -nx) == -Mul(vx, nx) && Mul(vy, -ny) == -Mul(vy, ny);
  }

  lemma NegatedNormalScale(vx: real, vy: real, nx: real, ny: real, e: real)
    requires NormSq(nx, ny) != 0.0
    ensures NormSq(-nx, -ny) != 0.0
    ensures ReflectionScale(vx, vy, -nx, -ny, e) == -ReflectionScale(vx, vy, nx, ny, e)
  {
    NegatedNormal(vx, vy, nx, ny);
    NegatedScale(e, Dot(vx, vy, nx, ny), NormSq(nx, ny));
  }

  lemma NegatedScale(e: real, d: real, q: real)
    requires q != 0.0
    ensures e * 2.0 * -d / q == -(e * 2.0 * d / q)
  {
  }

  lemma NegatedStep(s: real, n: real)
    ensures -s * -n == s * n
  {
  }

  function WithVelocity(b: Body, v: (real, real)): (r: Body)
    ensures r.velX == v.0 && r.velY == v.1
    ensures r == b.(velX := v.0, velY := v.1)
  {
    b.(velX := v.0, velY := v.1)
  }

  /** Only velocities change in a collision response. */
  predicate OnlyVelocity(before: Body, after: Body)
  {
    after == before.(velX := after.velX, velY := after.velY)
  }

  /** Momentum is conserved between the two bodies. */
  predicate MomentumConserved(a: Body, b: Body, a': Body, b': Body)
  {
    Mul(a.mass, a'.velX - a.velX) + Mul(b.mass, b'.velX - b.velX) == 0.0 &&
    Mul(a.mass, a'.velY - a.velY) + Mul(b.mass, b'.velY - b.velY) == 0.0
  }

  /** The reflection of a single body's velocity about n. */
  function Deflect(b: Body, nx: real, ny: real, e: real): (r: Body)
    requires NormSq(nx, ny) != 0.0
    ensures OnlyVelocity(b, r)
    ensures (r.velX, r.velY) == Reflected(b.velX, b.velY, nx, ny, e)
  {
    WithVelocity(b, Reflected(b.velX, b.velY, nx, ny, e))
  }

  /** The reflection used when alpha reacts: alpha is deflected about n,
      and, if `react`, beta's velocity takes the opposite change scaled by
      ma / mb. */
  function Bounce(a: Body, b: Body, nx: real, ny: real, e: real, react: bool): (r: (Body, Body))
    requires MassPositive(a) && MassPositive(b)
    requires NormSq(nx, ny) != 0.0
    ensures OnlyVelocity(a, r.0) && OnlyVelocity(b, r.1)
    ensures r.0 == Deflect(a, nx, ny, e)
    ensures !react ==> r.1 == b
  {
    var s := ReflectionScale(a.velX, a.velY, nx, ny, e);
    var a' := Deflect(a, nx, ny, e);
    if react then
      (a', WithVelocity(b, (Recoil(b.velX, s, a.mass, b.mass, nx), Recoil(b.velY, s, a.mass, b.mass, ny))))
    else (a', b)
  }

  /** One component of beta's velocity after taking alpha's reaction s n,
      scaled by ma / mb. */
  function Recoil(w: real, s: real, ma: real, mb: real, n: real): real
    requires mb != 0.0
  {
    w + s * ma / mb * n
  }

  /** When beta takes the reaction, momentum is conserved. */
  lemma BounceMomentum(a: Body, b: Body, nx: real, ny: real, e: real)
    requires MassPositive(a) && MassPositive(b)
    requires NormSq(nx, ny) != 0.0
    ensures var r := Bounce(a, b, nx, ny, e, true);
            MomentumConserved(a, b, r.0, r.1)
  {
    var s := ReflectionScale(a.velX, a.velY, nx, ny, e);
    var r := Bounce(a, b, nx, ny, e, true);
    ReflectedIs(a.velX, a.velY, nx, ny, e);
    PushMomentum(a.mass, b.mass, a.velX, r.0.velX, b.velX, r.1.velX, s, nx);
    PushMomentum(a.mass, b.mass, a.velY, r.0.velY, b.velY, r.1.velY, s, ny);
  }

  /** One axis of Bounce: alpha loses s n and beta gains s n ma / mb. */
  lemma PushMomentum(ma: real, mb: real, v: real, v': real, w: real, w': real, s: real, n: real)
    requires 0.0 < mb
    requires v' == v - s * n && w' == Recoil(w, s, ma, mb, n)
    ensures Mul(ma, v' - v) + Mul(mb, w' - w) == 0.0
  {
    assert v' - v == -(s * n);
    assert w' - w == s * ma / mb * n;
    Reaction(ma, mb, s, n);
  }

  lemma ReflectedIs(vx: real, vy: real, nx: real, ny: real, e: real)
    requires NormSq(nx, ny) != 0.0
    ensures Reflected(vx, vy, nx, ny, e)
         == (vx - ReflectionScale(vx, vy, nx, ny, e) * nx, vy - ReflectionScale(vx, vy, nx, ny, e) * ny)
  {
  }

  lemma Reaction(ma: real, mb: real, s: real, n: real)
    requires 0.0 < mb
    ensures Mul(ma, -(s * n)) + Mul(mb, s * ma / mb * n) == 0.0
  {
    assert mb * (s * ma / mb) == s * ma;
  }

  /** The size of the circle/circle impulse: e sqrt(|impact . n| ma mb),
      where impact is beta's velocity relative to alpha's. */
  function ImpulseSize(a: Body, b: Body, ux: real, uy: real, e: real, sqrt: real -> real): (mult: real)
    requires IsSqrt(sqrt)
    requires MassPositive(a) && MassPositive(b)
    ensures 0.0 <= e ==> 0.0 <= mult
  {
    var impact := Dot(b.velX - a.velX, b.velY - a.velY, ux, uy);
    var p := Mul(Mul(Abs(impact), a.mass), b.mass);
    MulMono(0.0, Abs(impact), a.mass);
    MulMono(0.0, Mul(Abs(impact), a.mass), b.mass);
    ScaledRoot(e, p, sqrt);
    e * sqrt(p)
  }

  /** The impulse size squares to e² |impact . n| ma mb. */
  lemma ImpulseSizeSquared(a: Body, b: Body, ux: real, uy: real, e: real, sqrt: real -> real)
    requires IsSqrt(sqrt)
    requires MassPositive(a) && MassPositive(b)
    ensures Sq(ImpulseSize(a, b, ux, uy, e, sqrt))
         == Mul(Sq(e), Mul(Mul(Abs(Dot(b.velX - a.velX, b.velY - a.velY, ux, uy)), a.mass), b.mass))
  {
    var impact := Dot(b.velX - a.velX, b.velY - a.velY, ux, uy);
    var p := Mul(Mul(Abs(impact), a.mass), b.mass);
    MulMono(0.0, Abs(impact), a.mass);
    MulMono(0.0, Mul(Abs(impact), a.mass), b.mass);
    ScaledRoot(e, p, sqrt);
  }

  /** e sqrt(p) squares to e² p, and is non-negative with e. */
  lemma ScaledRoot(e: real, p: real, sqrt: real -> real)
    requires IsSqrt(sqrt) && 0.0 <= p
    ensures 0.0 <= e ==> 0.0 <= e * sqrt(p)
    ensures Sq(e * sqrt(p)) == Mul(Sq(e), p)
  {
    assert 0.0 <= sqrt(p) && Sq(sqrt(p)) == p;
    if 0.0 <= e {
      MulMono(0.0, e, sqrt(p));
    }
    SqOfProduct(e, sqrt(p));
  }

  /** Adds j / m to a body's velocity. */
  function Push(b: Body, jx: real, jy: real): (r: Body)
    requires MassPositive(b)
    ensures OnlyVelocity(b, r)
  {
    b.(velX := b.velX + jx / b.mass, velY := b.velY + jy / b.mass)
  }

  /** The momentum a push adds is the impulse j. */
  lemma PushImpulse(b: Body, jx: real, jy: real)
    requires MassPositive(b)
    ensures var r := Push(b, jx, jy);
            Mul(b.mass, r.velX - b.velX) == jx && Mul(b.mass, r.velY - b.velY) == jy
  {
  }

  /** The circle/circle impulse on alpha: size ImpulseSize along the unit
      vector from beta's centre to alpha's. The source divides by the
      distance between the centres, so coincident centres give NaN. */
  function CircleImpulse(a: Body, b: Body, e: real, sqrt: real -> real): (j: Outcome<(real, real)>)
    requires IsSqrt(sqrt)
    requires MassPositive(a) && MassPositive(b)
    requires a.bounds.Circ? && b.bounds.Circ?
    ensures j.Ok? <==> (a.bounds.circle.x != b.bounds.circle.x || a.bounds.circle.y != b.bounds.circle.y)
  {
    var dx := a.bounds.circle.x - b.bounds.circle.x;
    var dy := a.bounds.circle.y - b.bounds.circle.y;
    match Direction(dx, dy, sqrt)
    case NaN => NaN
    case Ok(u) =>
      Ok(Along(u, ImpulseSize(a, b, u.0, u.1, e, sqrt)))
  }

  /** The direction u scaled by k. */
  function Along(u: (real, real), k: real): (real, real)
  {
    (u.0 * k, u.1 * k)
  }

  /** For a non-negative restitution the impulse on alpha points from
      beta's centre towards alpha's. */
  lemma CircleImpulseAlong(a: Body, b: Body, e: real, sqrt: real -> real)
    requires IsSqrt(sqrt)
    requires MassPositive(a) && MassPositive(b) && 0.0 <= e
    requires a.bounds.Circ? && b.bounds.Circ?
    requires a.bounds.circle.x != b.bounds.circle.x || a.bounds.circle.y != b.bounds.circle.y
    ensures var j := CircleImpulse(a, b, e, sqrt).value;
            AlongLine(j.0, j.1, a.bounds.circle.x - b.bounds.circle.x, a.bounds.circle.y - b.bounds.circle.y)
  {
    var dx := a.bounds.circle.x - b.bounds.circle.x;
    var dy := a.bounds.circle.y - b.bounds.circle.y;
    var u := Direction(dx, dy, sqrt).value;
    DirectionParallel(dx, dy, sqrt);
    var mult := ImpulseSize(a, b, u.0, u.1, e, sqrt);
    PushAlong(Along(u, mult).0, Along(u, mult).1, u.0, u.1, mult, dx, dy);
  }

  /** Circle/circle: a reacting alpha is pushed by the impulse and a
      reacting beta by its opposite, each divided by its own mass. */
  function CircleResponse(a: Body, b: Body, e: real, sqrt: real -> real): (r: Outcome<(Body, Body)>)
    requires IsSqrt(sqrt)
    requires MassPositive(a) && MassPositive(b)
    requires a.bounds.Circ? && b.bounds.Circ?
    ensures r.Ok? <==> CircleImpulse(a, b, e, sqrt).Ok?
    ensures r.Ok? ==> OnlyVelocity(a, r.value.0) && OnlyVelocity(b, r.value.1)
    ensures r.Ok? && !HasResponse(a.kind) ==> r.value.0 == a
    ensures r.Ok? && !HasResponse(b.kind) ==> r.value.1 == b
  {
    match CircleImpulse(a, b, e, sqrt)
    case NaN => NaN
    case Ok(j) =>
      Ok((if HasResponse(a.kind) then Push(a, j.0, j.1) else a,
          if HasResponse(b.kind) then Push(b, -j.0, -j.1) else b))
  }

  /** Momentum is conserved when both circles react. */
  lemma CircleResponseMomentum(a: Body, b: Body, e: real, sqrt: real -> real)
    requires IsSqrt(sqrt)
    requires MassPositive(a) && MassPositive(b)
    requires a.bounds.Circ? && b.bounds.Circ?
    requires HasResponse(a.kind) && HasResponse(b.kind)
    requires a.bounds.circle.x != b.bounds.circle.x || a.bounds.circle.y != b.bounds.circle.y
    ensures CircleResponse(a, b, e, sqrt).Ok?
    ensures var r := CircleResponse(a, b, e, sqrt).value;
            MomentumConserved(a, b, r.0, r.1)
  {
    var j := CircleImpulse(a, b, e, sqrt).value;
    assert CircleResponse(a, b, e, sqrt).value == (Push(a, j.0, j.1), Push(b, -j.0, -j.1));
    PushImpulse(a, j.0, j.1);
    PushImpulse(b, -j.0, -j.1);
  }

  /** Alpha's velocity changes along the line of centres, away from beta
      (for a non-negative restitution). */
  lemma CircleResponseAlongCentres(a: Body, b: Body, e: real, sqrt: real -> real)
    requires IsSqrt(sqrt)
    requires MassPositive(a) && MassPositive(b) && 0.0 <= e
    requires a.bounds.Circ? && b.bounds.Circ?
    requires HasResponse(a.kind)
    requires a.bounds.circle.x != b.bounds.circle.x || a.bounds.circle.y != b.bounds.circle.y
    ensures var r := CircleResponse(a, b, e, sqrt).value;
            AlongLine(r.0.velX - a.velX, r.0.velY - a.velY,
                      a.bounds.circle.x - b.bounds.circle.x, a.bounds.circle.y - b.bounds.circle.y)
  {
    var j := CircleImpulse(a, b, e, sqrt).value;
    CircleImpulseAlong(a, b, e, sqrt);
    assert CircleResponse(a, b, e, sqrt).value.0 == Push(a, j.0, j.1);
    PushedAlong(a, j.0, j.1, a.bounds.circle.x - b.bounds.circle.x, a.bounds.circle.y - b.bounds.circle.y);
  }

  /** The impulse is not an elastic exchange: a circle of mass 1 that hits
      a resting Static circle of mass 1 head-on at speed 10, with
      restitution 1, is slowed by sqrt 10 and keeps moving forward. */
  lemma HeadOnCircleKeepsGoing(a: Body, b: Body, sqrt: real -> real)
    requires IsSqrt(sqrt)
    requires a.bounds == Circ(Circle(0.0, 0.0, 5.0)) && b.bounds == Circ(Circle(10.0, 0.0, 5.0))
    requires a.mass == 1.0 && b.mass == 1.0
    requires a.velX == 10.0 && a.velY == 0.0 && b.velX == 0.0 && b.velY == 0.0
    requires a.kind == Kinetic && b.kind == Static
    ensures CircleResponse(a, b, 1.0, sqrt).Ok?
    ensures var r := CircleResponse(a, b, 1.0, sqrt).value;
            r.1 == b && r.0.velY == 0.0 && Sq(10.0 - r.0.velX) == 10.0 && 0.0 < r.0.velX < 10.0
  {
    SqrtOfHundred(sqrt);
    var u := Direction(-10.0, 0.0, sqrt).value;
    assert u == (-1.0, 0.0);
    var k := sqrt(10.0);
    assert ImpulseSize(a, b, u.0, u.1, 1.0, sqrt) == k;
    assert Sq(k) == 10.0 && 0.0 <= k;
    assert 0.0 < k < 10.0 by {
      SqMonotone(k, 10.0);
    }
    assert CircleImpulse(a, b, 1.0, sqrt) == Ok((-k, 0.0));
  }

  /** Two reacting mass-1 circles that meet head-on at speeds s and -s, with
      restitution 1, swap velocities exactly when the closing speed 2 s is 1:
      the impulse is sqrt(2 s), and a swap needs an impulse of 2 s. */
  lemma HeadOnEqualCirclesSwap(a: Body, b: Body, s: real, sqrt: real -> real)
    requires IsSqrt(sqrt)
    requires a.bounds == Circ(Circle(0.0, 0.0, 5.0)) && b.bounds == Circ(Circle(10.0, 0.0, 5.0))
    requires a.mass == 1.0 && b.mass == 1.0 && 0.0 < s
    requires a.velX == s && a.velY == 0.0 && b.velX == -s && b.velY == 0.0
    requires HasResponse(a.kind) && HasResponse(b.kind)
    ensures CircleResponse(a, b, 1.0, sqrt).Ok?
    ensures var r := CircleResponse(a, b, 1.0, sqrt).value;
            (r.0.velX == -s && r.1.velX == s) <==> s == 0.5
  {
    SqrtOfHundred(sqrt);
    var u := Direction(-10.0, 0.0, sqrt).value;
    assert u == (-1.0, 0.0);
    var k := sqrt(2.0 * s);
    assert ImpulseSize(a, b, u.0, u.1, 1.0, sqrt) == k;
    assert CircleImpulse(a, b, 1.0, sqrt) == Ok((-k, 0.0));
    var r := CircleResponse(a, b, 1.0, sqrt).value;
    assert r.0.velX == s - k && r.1.velX == -s + k;
    RootOfDouble(s, k);
  }

  /** sqrt 100 is 10. */
  lemma SqrtOfHundred(sqrt: real -> real)
    requires IsSqrt(sqrt)
    ensures sqrt(NormSq(-10.0, 0.0)) == 10.0
  {
    assert NormSq(-10.0, 0.0) == 100.0;
    var m := sqrt(100.0);
    SqMonotone(m, 10.0);
    SqMonotone(10.0, m);
  }

  /** For s > 0, the root k of 2 s equals 2 s exactly when s is 1/2. */
  lemma RootOfDouble(s: real, k: real)
    requires 0.0 < s && 0.0 <= k && Sq(k) == 2.0 * s
    ensures k == 2.0 * s <==> s == 0.5
  {
    if s == 0.5 {
      SqMonotone(k, 1.0);
      SqMonotone(1.0, k);
    }
    if k == 2.0 * s {
      assert Mul(2.0 * s, 2.0 * s - 1.0) == 0.0;
      if 2.0 * s - 1.0 > 0.0 {
        PosMul(2.0 * s, 2.0 * s - 1.0);
      } else if 2.0 * s - 1.0 < 0.0 {
        PosMul(2.0 * s, 1.0 - 2.0 * s);
      }
    }
  }

  /** The change (jx, jy) is parallel to d and does not point against it. */
  predicate AlongLine(jx: real, jy: real, dx: real, dy: real)
  {
    Mul(jx, dy) == Mul(jy, dx) && 0.0 <= Dot(jx, jy, dx, dy)
  }

  /** Pushing a body by an impulse along d changes its velocity along d. */
  lemma PushedAlong(a: Body, jx: real, jy: real, dx: real, dy: real)
    requires MassPositive(a)
    requires AlongLine(jx, jy, dx, dy)
    ensures var r := Push(a, jx, jy);
            AlongLine(r.velX - a.velX, r.velY - a.velY, dx, dy)
  {
    var k := 1.0 / a.mass;
    assert jx / a.mass == jx * k && jy / a.mass == jy * k;
    ScaledAlong(jx, jy, k, dx, dy);
  }

  /** Scaling by a non-negative factor keeps a vector along d. */
  lemma ScaledAlong(jx: real, jy: real, k: real, dx: real, dy: real)
    requires 0.0 <= k && AlongLine(jx, jy, dx, dy)
    ensures AlongLine(jx * k, jy * k, dx, dy)
  {
    assert Mul(jx * k, dy) == k * Mul(jx, dy);
    assert Mul(jy * k, dx) == k * Mul(jy, dx);
    assert Dot(jx * k, jy * k, dx, dy) == k * Dot(jx, jy, dx, dy);
    MulMono(0.0, k, Dot(jx, jy, dx, dy));
  }

  /** A change k u, with k >= 0 and u pointing along d, is along d. */
  lemma PushAlong(jx: real, jy: real, ux: real, uy: real, k: real, dx: real, dy: real)
    requires 0.0 <= k && jx == ux * k && jy == uy * k
    requires Mul(ux, dy) == Mul(uy, dx) && 0.0 < Dot(ux, uy, dx, dy)
    ensures Mul(jx, dy) == Mul(jy, dx)
    ensures 0.0 <= Dot(jx, jy, dx, dy)
  {
    assert Mul(ux * k, dy) == k * Mul(ux, dy);
    assert Mul(uy * k, dx) == k * Mul(uy, dx);
    assert Dot(ux * k, uy * k, dx, dy) == k * Dot(ux, uy, dx, dy);
    MulMono(0.0, k, Dot(ux, uy, dx, dy));
  }

  /** Rectangle/rectangle about alpha's normal n: a reacting alpha bounces
      off beta's normal -n, passing the reaction to beta if beta reacts; if
      only beta reacts, it is deflected about n. */
  function RectPairResponse(a: Body, b: Body, n: (real, real), e: real): (r: (Body, Body))
    requires MassPositive(a) && MassPositive(b)
    requires NormSq(n.0, n.1) == 1.0 && NormSq(-n.0, -n.1) == 1.0
    ensures OnlyVelocity(a, r.0) && OnlyVelocity(b, r.1)
    ensures !HasResponse(a.kind) ==> r.0 == a
    ensures !HasResponse(b.kind) ==> r.1 == b
  {
    if HasResponse(a.kind) then Bounce(a, b, -n.0, -n.1, e, HasResponse(b.kind))
    else if HasResponse(b.kind) then (a, Deflect(b, n.0, n.1, e))
    else (a, b)
  }

  /** Rectangle/rectangle, with the normal read off the touching edges. */
  function RectResponse(a: Body, b: Body, e: real): (r: (Body, Body))
    requires MassPositive(a) && MassPositive(b)
    requires a.bounds.Rect? && b.bounds.Rect?
    ensures OnlyVelocity(a, r.0) && OnlyVelocity(b, r.1)
    ensures !HasResponse(a.kind) ==> r.0 == a
    ensures !HasResponse(b.kind) ==> r.1 == b
  {
    var n := RectNormal(a.bounds.rect, b.bounds.rect);
    AxisUnitLength(n);
    RectPairResponse(a, b, n, e)
  }

  /** Momentum is conserved when both rectangles react. */
  lemma RectResponseMomentum(a: Body, b: Body, e: real)
    requires MassPositive(a) && MassPositive(b)
    requires a.bounds.Rect? && b.bounds.Rect?
    requires HasResponse(a.kind) && HasResponse(b.kind)
    ensures var r := RectResponse(a, b, e);
            MomentumConserved(a, b, r.0, r.1)
  {
    var n := RectNormal(a.bounds.rect, b.bounds.rect);
    AxisUnitLength(n);
    PairMomentum(a, b, n, e);
  }

  lemma PairMomentum(a: Body, b: Body, n: (real, real), e: real)
    requires MassPositive(a) && MassPositive(b)
    requires NormSq(n.0, n.1) == 1.0 && NormSq(-n.0, -n.1) == 1.0
    requires HasResponse(a.kind) && HasResponse(b.kind)
    ensures var r := RectPairResponse(a, b, n, e);
            MomentumConserved(a, b, r.0, r.1)
  {
    BounceMomentum(a, b, -n.0, -n.1, e);
  }

  /** A reacting alpha bounces: its velocity's component along the contact
      normal is multiplied by 1 - 2e and the other component is kept. */
  lemma RectResponseBounce(a: Body, b: Body, e: real)
    requires MassPositive(a) && MassPositive(b)
    requires a.bounds.Rect? && b.bounds.Rect?
    requires HasResponse(a.kind)
    ensures var n := RectNormal(a.bounds.rect, b.bounds.rect);
            var r := RectResponse(a, b, e);
            Dot(r.0.velX, r.0.velY, n.0, n.1) == Mul(1.0 - 2.0 * e, Dot(a.velX, a.velY, n.0, n.1)) &&
            (n.0 == 0.0 ==> r.0.velX == a.velX) && (n.1 == 0.0 ==> r.0.velY == a.velY)
  {
    var n := RectNormal(a.bounds.rect, b.bounds.rect);
    PairBounceAxis(a, b, n, e);
  }

  lemma PairBounceAxis(a: Body, b: Body, n: (real, real), e: real)
    requires MassPositive(a) && MassPositive(b)
    requires AxisUnit(n)
    requires HasResponse(a.kind)
    ensures AxisUnit((-n.0, -n.1)) && NormSq(n.0, n.1) == 1.0 && NormSq(-n.0, -n.1) == 1.0
    ensures var r := RectPairResponse(a, b, n, e);
            Dot(r.0.velX, r.0.velY, n.0, n.1) == Mul(1.0 - 2.0 * e, Dot(a.velX, a.velY, n.0, n.1)) &&
            (n.0 == 0.0 ==> r.0.velX == a.velX) && (n.1 == 0.0 ==> r.0.velY == a.velY)
  {
    AxisUnitLength(n);
    PairBounce(a, b, n, e);
    var r := RectPairResponse(a, b, n, e);
    BounceAxis(a.velX, a.velY, r.0.velX, r.0.velY, n, e);
  }

  lemma PairBounce(a: Body, b: Body, n: (real, real), e: real)
    requires MassPositive(a) && MassPositive(b)
    requires NormSq(n.0, n.1) == 1.0 && NormSq(-n.0, -n.1) == 1.0
    requires HasResponse(a.kind)
    ensures var r := RectPairResponse(a, b, n, e);
            (r.0.velX, r.0.velY) == Reflected(a.velX, a.velY, n.0, n.1, e)
  {
    ReflectedSignFree(a.velX, a.velY, n.0, n.1, e);
  }

  lemma BounceAxis(vx: real, vy: real, wx: real, wy: real, n: (real, real), e: real)
    requires AxisUnit(n)
    requires NormSq(n.0, n.1) == 1.0
    requires (wx, wy) == Reflected(vx, vy, n.0, n.1, e)
    ensures Dot(wx, wy, n.0, n.1) == Mul(1.0 - 2.0 * e, Dot(vx, vy, n.0, n.1))
    ensures n.0 == 0.0 ==> wx == vx
    ensures n.1 == 0.0 ==> wy == vy
  {
    ReflectedScalesNormal(vx, vy, n.0, n.1, e);
    ReflectedAlongNormal(vx, vy, n.0, n.1, e);
  }

  /** Circle/rectangle with the rectangle as alpha. A reacting alpha bounces
      off the line from its centre to the circle's centre, passing the
      reaction to beta if beta reacts; if only beta reacts, it is deflected
      about the rectangle's edge normal, which is zero, and the source's
      result NaN, when no edge test passes. */
  function RectCircleResponse(a: Body, b: Body, e: real, sqrt: real -> real): (r: Outcome<(Body, Body)>)
    requires IsSqrt(sqrt)
    requires MassPositive(a) && MassPositive(b)
    requires a.bounds.Rect? && b.bounds.Circ?
    ensures r.Ok? ==> OnlyVelocity(a, r.value.0) && OnlyVelocity(b, r.value.1)
    ensures r.Ok? && !HasResponse(a.kind) ==> r.value.0 == a
    ensures r.Ok? && !HasResponse(b.kind) ==> r.value.1 == b
    ensures HasResponse(a.kind) ==>
              (r.Ok? <==> (CentreX(b.bounds) != CentreX(a.bounds) || CentreY(b.bounds) != CentreY(a.bounds)))
    ensures !HasResponse(a.kind) && HasResponse(b.kind) ==>
              (r.Ok? <==> !NoEdgeContact(b.bounds.circle, a.bounds.rect))
  {
    if HasResponse(a.kind) then
      match Direction(CentreX(b.bounds) - CentreX(a.bounds), CentreY(b.bounds) - CentreY(a.bounds), sqrt)
      case NaN => NaN
      case Ok(d) =>
        DirectionUnit(CentreX(b.bounds) - CentreX(a.bounds), CentreY(b.bounds) - CentreY(a.bounds), sqrt);
        Ok(Bounce(a, b, d.0, d.1, e, HasResponse(b.kind)))
    else if HasResponse(b.kind) then
      var k := OneOverSqrtTwo(sqrt);
      var n := EdgeNormal(b.bounds.circle, a.bounds.rect, k);
      if NoEdgeContact(b.bounds.circle, a.bounds.rect) then NaN
      else
        OneOverSqrtTwoSquared(sqrt);
        EdgeNormalUnit(b.bounds.circle, a.bounds.rect, k);
        Ok((a, Deflect(b, n.0, n.1, e)))
    else Ok((a, b))
  }

  /** Momentum is conserved when a rectangle alpha and a circle beta both
      react. */
  lemma RectCircleMomentum(a: Body, b: Body, e: real, sqrt: real -> real)
    requires IsSqrt(sqrt)
    requires MassPositive(a) && MassPositive(b)
    requires a.bounds.Rect? && b.bounds.Circ?
    requires HasResponse(a.kind) && HasResponse(b.kind)
    requires RectCircleResponse(a, b, e, sqrt).Ok?
    ensures var r := RectCircleResponse(a, b, e, sqrt).value;
            MomentumConserved(a, b, r.0, r.1)
  {
    var d := Direction(CentreX(b.bounds) - CentreX(a.bounds), CentreY(b.bounds) - CentreY(a.bounds), sqrt).value;
    DirectionUnit(CentreX(b.bounds) - CentreX(a.bounds), CentreY(b.bounds) - CentreY(a.bounds), sqrt);
    BounceMomentum(a, b, d.0, d.1, e);
  }

  /** Circle/rectangle with the circle as alpha. A reacting alpha is
      deflected about the rectangle's edge normal (NaN when no edge test
      passes) and beta is left alone even if it reacts; if only beta
      reacts, it is deflected about the line from its centre to the
      circle's centre. */
  function CircleRectResponse(a: Body, b: Body, e: real, sqrt: real -> real): (r: Outcome<(Body, Body)>)
    requires IsSqrt(sqrt)
    requires a.bounds.Circ? && b.bounds.Rect?
    ensures r.Ok? ==> OnlyVelocity(a, r.value.0) && OnlyVelocity(b, r.value.1)
    ensures r.Ok? && !HasResponse(a.kind) ==> r.value.0 == a
    ensures r.Ok? && (HasResponse(a.kind) || !HasResponse(b.kind)) ==> r.value.1 == b
    ensures HasResponse(a.kind) ==> (r.Ok? <==> !NoEdgeContact(a.bounds.circle, b.bounds.rect))
    ensures !HasResponse(a.kind) && HasResponse(b.kind) ==>
              (r.Ok? <==> (CentreX(a.bounds) != CentreX(b.bounds) || CentreY(a.bounds) != CentreY(b.bounds)))
  {
    if HasResponse(a.kind) then
      var k := OneOverSqrtTwo(sqrt);
      var n := EdgeNormal(a.bounds.circle, b.bounds.rect, k);
      if NoEdgeContact(a.bounds.circle, b.bounds.rect) then NaN
      else
        OneOverSqrtTwoSquared(sqrt);
        EdgeNormalUnit(a.bounds.circle, b.bounds.rect, k);
        Ok((Deflect(a, n.0, n.1, e), b))
    else if HasResponse(b.kind) then
      match Direction(CentreX(a.bounds) - CentreX(b.bounds), CentreY(a.bounds) - CentreY(b.bounds), sqrt)
      case NaN => NaN
      case Ok(d) =>
        DirectionUnit(CentreX(a.bounds) - CentreX(b.bounds), CentreY(a.bounds) - CentreY(b.bounds), sqrt);
        Ok((a, Deflect(b, d.0, d.1, e)))
    else Ok((a, b))
  }

  /** A rectangle alpha that reacts is reflected about the unit direction of
      the line from its centre to the circle's centre, so its velocity
      changes only along that line; a circle beta that also reacts takes the
      opposite change scaled by ma / mb. */
  lemma RectCircleBounce(a: Body, b: Body, e: real, sqrt: real -> real)
    requires IsSqrt(sqrt)
    requires MassPositive(a) && MassPositive(b)
    requires a.bounds.Rect? && b.bounds.Circ?
    requires HasResponse(a.kind)
    requires RectCircleResponse(a, b, e, sqrt).Ok?
    ensures var o := (CentreX(b.bounds) - CentreX(a.bounds), CentreY(b.bounds) - CentreY(a.bounds));
            var d := Direction(o.0, o.1, sqrt).value;
            var r := RectCircleResponse(a, b, e, sqrt).value;
            NormSq(d.0, d.1) == 1.0
            && (r.0.velX, r.0.velY) == Reflected(a.velX, a.velY, d.0, d.1, e)
            && Mul(r.0.velX - a.velX, o.1) == Mul(r.0.velY - a.velY, o.0)
            && (HasResponse(b.kind) ==>
                  var s := ReflectionScale(a.velX, a.velY, d.0, d.1, e);
                  r.1.velX == Recoil(b.velX, s, a.mass, b.mass, d.0)
                  && r.1.velY == Recoil(b.velY, s, a.mass, b.mass, d.1))
  {
    var o := (CentreX(b.bounds) - CentreX(a.bounds), CentreY(b.bounds) - CentreY(a.bounds));
    DirectionUnit(o.0, o.1, sqrt);
    ReflectedAlongOffset(a.velX, a.velY, o.0, o.1, e, sqrt);
  }

  /** A circle beta that reacts against a rectangle alpha that does not is
      reflected about the rectangle's edge normal. */
  lemma RectCircleEdgeDeflect(a: Body, b: Body, e: real, sqrt: real -> real)
    requires IsSqrt(sqrt)
    requires MassPositive(a) && MassPositive(b)
    requires a.bounds.Rect? && b.bounds.Circ?
    requires !HasResponse(a.kind) && HasResponse(b.kind)
    requires RectCircleResponse(a, b, e, sqrt).Ok?
    ensures var n := EdgeNormal(b.bounds.circle, a.bounds.rect, OneOverSqrtTwo(sqrt));
            var r := RectCircleResponse(a, b, e, sqrt).value;
            NormSq(n.0, n.1) == 1.0
            && (r.1.velX, r.1.velY) == Reflected(b.velX, b.velY, n.0, n.1, e)
  {
    OneOverSqrtTwoSquared(sqrt);
    EdgeNormalUnit(b.bounds.circle, a.bounds.rect, OneOverSqrtTwo(sqrt));
  }

  /** A circle alpha that reacts is reflected about the rectangle's edge
      normal. */
  lemma CircleRectEdgeDeflect(a: Body, b: Body, e: real, sqrt: real -> real)
    requires IsSqrt(sqrt)
    requires a.bounds.Circ? && b.bounds.Rect?
    requires HasResponse(a.kind)
    requires CircleRectResponse(a, b, e, sqrt).Ok?
    ensures var n := EdgeNormal(a.bounds.circle, b.bounds.rect, OneOverSqrtTwo(sqrt));
            var r := CircleRectResponse(a, b, e, sqrt).value;
            NormSq(n.0, n.1) == 1.0
            && (r.0.velX, r.0.velY) == Reflected(a.velX, a.velY, n.0, n.1, e)
  {
    OneOverSqrtTwoSquared(sqrt);
    EdgeNormalUnit(a.bounds.circle, b.bounds.rect, OneOverSqrtTwo(sqrt));
  }

  /** A rectangle beta that reacts against a circle alpha that does not is
      reflected about the unit direction from its centre to the circle's
      centre, so its velocity changes only along that line. */
  lemma CircleRectBounce(a: Body, b: Body, e: real, sqrt: real -> real)
    requires IsSqrt(sqrt)
    requires a.bounds.Circ? && b.bounds.Rect?
    requires !HasResponse(a.kind) && HasResponse(b.kind)
    requires CircleRectResponse(a, b, e, sqrt).Ok?
    ensures var o := (CentreX(a.bounds) - CentreX(b.bounds), CentreY(a.bounds) - CentreY(b.bounds));
            var d := Direction(o.0, o.1, sqrt).value;
            var r := CircleRectResponse(a, b, e, sqrt).value;
            NormSq(d.0, d.1) == 1.0
            && (r.1.velX, r.1.velY) == Reflected(b.velX, b.velY, d.0, d.1, e)
            && Mul(r.1.velX - b.velX, o.1) == Mul(r.1.velY - b.velY, o.0)
  {
    var o := (CentreX(a.bounds) - CentreX(b.bounds), CentreY(a.bounds) - CentreY(b.bounds));
    DirectionUnit(o.0, o.1, sqrt);
    ReflectedAlongOffset(b.velX, b.velY, o.0, o.1, e, sqrt);
  }

  /** Reflecting about the unit direction of o changes a velocity only
      along o itself. */
  lemma ReflectedAlongOffset(vx: real, vy: real, ox: real, oy: real, e: real, sqrt: real -> real)
    requires IsSqrt(sqrt)
    requires ox != 0.0 || oy != 0.0
    ensures var d := Direction(ox, oy, sqrt).value;
            NormSq(d.0, d.1) != 0.0
            && var w := Reflected(vx, vy, d.0, d.1, e);
               Mul(w.0 - vx, oy) == Mul(w.1 - vy, ox)
  {
    DirectionUnit(ox, oy, sqrt);
    DirectionParallel(ox, oy, sqrt);
    var d := Direction(ox, oy, sqrt).value;
    ReflectedIs(vx, vy, d.0, d.1, e);
    var w := Reflected(vx, vy, d.0, d.1, e);
    ScaledParallel(vx, vy, w.0, w.1, ReflectionScale(vx, vy, d.0, d.1, e), d.0, d.1, ox, oy);
  }

  /** Moving v by -s d, with d parallel to o, moves it parallel to o. */
  lemma ScaledParallel(vx: real, vy: real, wx: real, wy: real, s: real, dx: real, dy: real, ox: real, oy: real)
    requires wx == vx - s * dx && wy == vy - s * dy
    requires Mul(dx, oy) == Mul(dy, ox)
    ensures Mul(wx - vx, oy) == Mul(wy - vy, ox)
  {
    assert Mul(wx - vx, oy) == -s * Mul(dx, oy);
    assert Mul(wy - vy, ox) == -s * Mul(dy, ox);
  }

  /** PhysicsModel.CollisionResponse: dispatch on the two shapes. */
  function Response(a: Body, b: Body, e: real, sqrt: real -> real): (r: Outcome<(Body, Body)>)
    requires IsSqrt(sqrt)
    requires MassPositive(a) && MassPositive(b)
    ensures r.Ok? ==> OnlyVelocity(a, r.value.0) && OnlyVelocity(b, r.value.1)
    ensures r.Ok? && !HasResponse(a.kind) ==> r.value.0 == a
    ensures r.Ok? && !HasResponse(b.kind) ==> r.value.1 == b
  {
    match (a.bounds, b.bounds)
    case (Circ(_), Circ(_)) => CircleResponse(a, b, e, sqrt)
    case (Rect(_), Rect(_)) => Ok(RectResponse(a, b, e))
    case (Rect(_), Circ(_)) => RectCircleResponse(a, b, e, sqrt)
    case (Circ(_), Rect(_)) => CircleRectResponse(a, b, e, sqrt)
  }

  // ------------------------------------------------------------------ nudge

  /** The variant and the size of a shape, which no collision changes. */
  predicate SameShape(a: Bounds, b: Bounds)
  {
    match (a, b)
    case (Circ(c1), Circ(c2)) => c1.radius == c2.radius
    case (Rect(r1), Rect(r2)) => r1.width == r2.width && r1.height == r2.height
    case _ => false
  }

  predicate SameCentres(self: Bounds, other: Bounds)
  {
    self.Circ? && other.Circ? && self.circle.x == other.circle.x && self.circle.y == other.circle.y
  }

  /** The Nudge overloads: move `self` so that it just touches `other`,
      which does not move. Two circles with the same centre have no
      direction to move in; the source divides by their zero distance. */
  function NudgeBounds(self: Bounds, other: Bounds, sqrt: real -> real): (r: Outcome<Bounds>)
    requires IsSqrt(sqrt)
    ensures r.Ok? <==> !SameCentres(self, other)
    ensures r.Ok? ==> SameShape(self, r.value)
  {
    match (self, other)
    case (Circ(c1), Circ(c2)) =>
      if c1.x == c2.x && c1.y == c2.y then NaN else Ok(Circ(NudgeCircle(c1, c2, sqrt)))
    case (Circ(c), Rect(rect)) => Ok(Circ(NudgeCircleFromRect(c, rect, sqrt)))
    case (Rect(rect), Circ(c)) => Ok(Rect(NudgeRectFromCircle(rect, c, sqrt)))
    case (Rect(r1), Rect(r2)) => Ok(Rect(NudgeRect(r1, r2)))
  }

  /** A nudged circle still overlaps what it was nudged against: it ends up
      touching it. */
  lemma NudgedCircleStillTouches(self: Bounds, other: Bounds, sqrt: real -> real)
    requires IsSqrt(sqrt)
    requires self.Circ? && 0.0 <= self.circle.radius
    requires other.Rect? ==> WellFormed(other.rect)
    requires !SameCentres(self, other)
    ensures Intersects(NudgeBounds(self, other, sqrt).value, other)
  {
    match other
    case Circ(c2) =>
      NudgeCircleTouches(self.circle, c2, sqrt);
    case Rect(rect) =>
      if Contains(rect, self.circle.x, self.circle.y) {
        assert NudgeCircleFromRect(self.circle, rect, sqrt) == self.circle;
      } else {
        NudgeFromRectTouches(self.circle, rect, sqrt);
      }
  }

  /** Gives a body a new shape and moves its tracked position by as much as
      the shape's origin moved. */
  function Relocate(b: Body, nb: Bounds): (r: Body)
    ensures r.bounds == nb
    ensures OffsetX(r) == OffsetX(b) && OffsetY(r) == OffsetY(b)
    ensures r == b.(bounds := nb, posX := r.posX, posY := r.posY)
  {
    b.(bounds := nb, posX := b.posX + (OriginX(nb) - OriginX(b.bounds)),
                     posY := b.posY + (OriginY(nb) - OriginY(b.bounds)))
  }

  /** Only the shape and the tracked position change in the nudge phase. */
  predicate OnlyPlacement(before: Body, after: Body)
  {
    after == before.(bounds := after.bounds, posX := after.posX, posY := after.posY)
    && SameShape(before.bounds, after.bounds)
  }

  /** The nudge phase of PhysicsModel.Collide. A reacting alpha is nudged
      against beta and nothing else moves. Otherwise a reacting beta is
      nudged against alpha, except for two circles, where the source nudges
      alpha's circle instead and moves neither body's tracked position. */
  function NudgePhase(a: Body, b: Body, sqrt: real -> real): (r: Outcome<(Body, Body)>)
    requires IsSqrt(sqrt)
    ensures r.Ok? ==> OnlyPlacement(a, r.value.0) && OnlyPlacement(b, r.value.1)
    ensures HasResponse(a.kind) ==> (r.Ok? <==> !SameCentres(a.bounds, b.bounds))
    ensures r.Ok? && HasResponse(a.kind) ==>
              r.value.1 == b && OffsetX(r.value.0) == OffsetX(a) && OffsetY(r.value.0) == OffsetY(a)
    ensures r.Ok? && !HasResponse(a.kind) && !(a.bounds.Circ? && b.bounds.Circ?) ==>
              r.value.0 == a && OffsetX(r.value.1) == OffsetX(b) && OffsetY(r.value.1) == OffsetY(b)
    ensures !HasResponse(a.kind) && !HasResponse(b.kind) ==> r == Ok((a, b))
    ensures r.Ok? && HasResponse(a.kind) ==>
              NudgeBounds(a.bounds, b.bounds, sqrt).Ok?
              && r.value.0.bounds == NudgeBounds(a.bounds, b.bounds, sqrt).value
    ensures r.Ok? && !HasResponse(a.kind) && HasResponse(b.kind) && a.bounds.Circ? && b.bounds.Circ? ==>
              NudgeBounds(a.bounds, b.bounds, sqrt).Ok?
              && r.value.0.bounds == NudgeBounds(a.bounds, b.bounds, sqrt).value && r.value.1 == b
    ensures r.Ok? && !HasResponse(a.kind) && HasResponse(b.kind) && !(a.bounds.Circ? && b.bounds.Circ?) ==>
              NudgeBounds(b.bounds, a.bounds, sqrt).Ok?
              && r.value.1.bounds == NudgeBounds(b.bounds, a.bounds, sqrt).value
  {
    if HasResponse(a.kind) then
      match NudgeBounds(a.bounds, b.bounds, sqrt)
      case NaN => NaN
      case Ok(nb) => Ok((Relocate(a, nb), b))
    else if HasResponse(b.kind) then
      if a.bounds.Circ? && b.bounds.Circ? then
        match NudgeBounds(a.bounds, b.bounds, sqrt)
        case NaN => NaN
        case Ok(nb) => Ok((a.(bounds := nb), b))
      else
        match NudgeBounds(b.bounds, a.bounds, sqrt)
        case NaN => NaN
        case Ok(nb) => Ok((a, Relocate(b, nb)))
    else Ok((a, b))
  }

  /** When a non-reacting (Static) circle meets a reacting circle, it is the
      Static circle's shape that is moved, to touch the other one, while its
      tracked position stays and the reacting circle does not move. */
  lemma StaticCircleIsNudged(a: Body, b: Body, sqrt: real -> real)
    requires IsSqrt(sqrt)
    requires a.bounds.Circ? && b.bounds.Circ? && !SameCentres(a.bounds, b.bounds)
    requires !HasResponse(a.kind) && HasResponse(b.kind)
    ensures NudgePhase(a, b, sqrt).Ok?
    ensures var r := NudgePhase(a, b, sqrt).value;
            r.1 == b && r.0.posX == a.posX && r.0.posY == a.posY &&
            r.0.bounds == Circ(NudgeCircle(a.bounds.circle, b.bounds.circle, sqrt)) &&
            SqDist(r.0.bounds.circle.x, r.0.bounds.circle.y, b.bounds.circle.x, b.bounds.circle.y)
              == Sq(a.bounds.circle.radius + b.bounds.circle.radius)
  {
  }

  /** A shape nudged against an overlapping one still overlaps it: it ends
      touching it, for all four pairs of shapes. */
  lemma NudgedTouches(self: Bounds, other: Bounds, sqrt: real -> real)
    requires IsSqrt(sqrt)
    requires ShapeValid(self) && ShapeValid(other)
    requires Intersects(self, other)
    requires !SameCentres(self, other)
    ensures Intersects(NudgeBounds(self, other, sqrt).value, other)
  {
    match (self, other)
    case (Circ(_), _) =>
      NudgedCircleStillTouches(self, other, sqrt);
    case (Rect(rect), Circ(c)) =>
      NudgeRectFromCircleKeepsNearest(rect, c, sqrt);
    case (Rect(r1), Rect(r2)) =>
      NudgeRectTouches(r1, r2);
  }

  /** After the nudge phase an overlapping pair still overlaps: whichever
      body was nudged ends touching the other. */
  lemma NudgePhaseTouches(a: Body, b: Body, sqrt: real -> real)
    requires IsSqrt(sqrt)
    requires ShapeValid(a.bounds) && ShapeValid(b.bounds)
    requires Intersects(a.bounds, b.bounds)
    requires NudgePhase(a, b, sqrt).Ok?
    ensures var p := NudgePhase(a, b, sqrt).value;
            Intersects(p.0.bounds, p.1.bounds)
  {
    var p := NudgePhase(a, b, sqrt).value;
    if HasResponse(a.kind) || (HasResponse(b.kind) && a.bounds.Circ? && b.bounds.Circ?) {
      NudgedTouches(a.bounds, b.bounds, sqrt);
    } else if HasResponse(b.kind) {
      IntersectsSymmetric(a.bounds, b.bounds);
      NudgedTouches(b.bounds, a.bounds, sqrt);
      IntersectsSymmetric(p.1.bounds, p.0.bounds);
    }
  }

  // ---------------------------------------------------------------- collide

  /** What Collide leaves behind: both bodies, whether they overlapped, and
      the listener calls made, in order. */
  datatype Contact = Contact(alpha: Body, beta: Body, hit: bool, events: seq<Event>)

  /** What a collision never changes about a body, and what it may change
      only for reacting bodies: velocity and position stay for the others,
      a Ghost keeps its shape too, and a reacting body's position moves with
      its shape. */
  predicate Persists(b: Body, b': Body)
  {
    b'.kind == b.kind && b'.mass == b.mass && b'.listeners == b.listeners && b'.color == b.color
    && SameShape(b.bounds, b'.bounds)
    && (!HasResponse(b.kind) ==> b'.velX == b.velX && b'.velY == b.velY && b'.posX == b.posX && b'.posY == b.posY)
    && (b.kind == Ghost ==> b'.bounds == b.bounds)
    && (HasResponse(b.kind) ==> OffsetX(b') == OffsetX(b) && OffsetY(b') == OffsetY(b))
  }

  /** PhysicsModel.Collide(alpha, beta). Overlapping bodies are, unless
      either is a Ghost, nudged apart and, if either reacts, given a
      collision response; then both are notified, alpha first. */
  function Collide(a: Body, b: Body, aId: BodyId, bId: BodyId, e: real, sqrt: real -> real): (r: Outcome<Contact>)
    requires IsSqrt(sqrt)
    requires MassPositive(a) && MassPositive(b)
    ensures !Intersects(a.bounds, b.bounds) ==> r == Ok(Contact(a, b, false, []))
    ensures r.Ok? ==> (r.value.hit <==> Intersects(a.bounds, b.bounds))
    ensures r.Ok? ==> Persists(a, r.value.alpha) && Persists(b, r.value.beta)
    ensures r.Ok? && r.value.hit ==>
              r.value.alpha.collided && r.value.beta.collided &&
              r.value.events == Events(a.listeners, aId, bId) + Events(b.listeners, bId, aId)
  {
    if !Intersects(a.bounds, b.bounds) then Ok(Contact(a, b, false, []))
    else
      var moved :=
        if a.kind == Ghost || b.kind == Ghost then Ok((a, b))
        else
          match NudgePhase(a, b, sqrt)
          case NaN => NaN
          case Ok(p) =>
            if HasResponse(a.kind) || HasResponse(b.kind) then Response(p.0, p.1, e, sqrt)
            else Ok(p);
      match moved
      case NaN => NaN
      case Ok(p) =>
        var (a', ea) := Notify(p.0, aId, bId);
        var (b', eb) := Notify(p.1, bId, aId);
        Ok(Contact(a', b', true, ea + eb))
  }

  /** A pair involving a Ghost is only notified: nothing but the collision
      flags changes. */
  lemma CollideWithGhost(a: Body, b: Body, aId: BodyId, bId: BodyId, e: real, sqrt: real -> real)
    requires IsSqrt(sqrt)
    requires MassPositive(a) && MassPositive(b)
    requires Intersects(a.bounds, b.bounds)
    requires a.kind == Ghost || b.kind == Ghost
    ensures Collide(a, b, aId, bId, e, sqrt)
         == Ok(Contact(a.(collided := true), b.(collided := true), true,
                       Events(a.listeners, aId, bId) + Events(b.listeners, bId, aId)))
  {
  }

  /** Two overlapping bodies neither of which reacts (Static against Static
      or Ghost) are notified and otherwise left where they are. */
  lemma CollideWithoutResponse(a: Body, b: Body, aId: BodyId, bId: BodyId, e: real, sqrt: real -> real)
    requires IsSqrt(sqrt)
    requires MassPositive(a) && MassPositive(b)
    requires Intersects(a.bounds, b.bounds)
    requires !HasResponse(a.kind) && !HasResponse(b.kind)
    ensures Collide(a, b, aId, bId, e, sqrt)
         == Ok(Contact(a.(collided := true), b.(collided := true), true,
                       Events(a.listeners, aId, bId) + Events(b.listeners, bId, aId)))
  {
  }

  /** An overlapping pair without a Ghost goes through the whole of
      Collide: the nudge phase, then, if either body reacts, the collision
      response on the nudged pair; the result is then flagged and both
      bodies notified, alpha first. A NaN from either phase is the result. */
  lemma CollideRuns(a: Body, b: Body, aId: BodyId, bId: BodyId, e: real, sqrt: real -> real)
    requires IsSqrt(sqrt)
    requires MassPositive(a) && MassPositive(b)
    requires Intersects(a.bounds, b.bounds)
    requires a.kind != Ghost && b.kind != Ghost
    ensures Collide(a, b, aId, bId, e, sqrt)
         == match NudgePhase(a, b, sqrt)
            case NaN => NaN
            case Ok(p) =>
              match (if HasResponse(a.kind) || HasResponse(b.kind) then Response(p.0, p.1, e, sqrt) else Ok(p))
              case NaN => NaN
              case Ok(q) =>
                Ok(Contact(q.0.(collided := true), q.1.(collided := true), true,
                           Events(a.listeners, aId, bId) + Events(b.listeners, bId, aId)))
  {
  }

  /** A reacting circle alpha that hits a reacting rectangle beta bounces,
      but beta gets no reaction: its velocity is kept. */
  lemma CircleHitsRectNoReaction(a: Body, b: Body, aId: BodyId, bId: BodyId, e: real, sqrt: real -> real)
    requires IsSqrt(sqrt)
    requires MassPositive(a) && MassPositive(b)
    requires a.bounds.Circ? && b.bounds.Rect?
    requires HasResponse(a.kind) && HasResponse(b.kind)
    requires Collide(a, b, aId, bId, e, sqrt).Ok?
    ensures Collide(a, b, aId, bId, e, sqrt).value.beta
         == b.(collided := Intersects(a.bounds, b.bounds) || b.collided)
  {
  }

  /** Two reacting circles exchange momentum: the total is conserved. */
  lemma CollideCirclesConservesMomentum(a: Body, b: Body, aId: BodyId, bId: BodyId, e: real, sqrt: real -> real)
    requires IsSqrt(sqrt)
    requires MassPositive(a) && MassPositive(b)
    requires a.bounds.Circ? && b.bounds.Circ?
    requires HasResponse(a.kind) && HasResponse(b.kind)
    requires Collide(a, b, aId, bId, e, sqrt).Ok?
    ensures var c := Collide(a, b, aId, bId, e, sqrt).value;
            MomentumConserved(a, b, c.alpha, c.beta)
  {
    if Intersects(a.bounds, b.bounds) {
      var np := NudgePhase(a, b, sqrt);
      assert np.Ok?;
      var p := np.value;
      assert p.0.bounds.Circ? && p.1.bounds.Circ?;
      var resp := CircleResponse(p.0, p.1, e, sqrt);
      assert Response(p.0, p.1, e, sqrt) == resp;
      assert resp.Ok?;
      CircleResponseMomentum(p.0, p.1, e, sqrt);
      var c := Collide(a, b, aId, bId, e, sqrt).value;
      assert c.alpha == resp.value.0.(collided := true);
      assert c.beta == resp.value.1.(collided := true);
      MomentumCarries(a, b, p.0, p.1, resp.value.0, resp.value.1, c.alpha, c.beta);
    }
  }

  /** Two reacting rectangles exchange momentum: the total is conserved. */
  lemma CollideRectsConservesMomentum(a: Body, b: Body, aId: BodyId, bId: BodyId, e: real, sqrt: real -> real)
    requires IsSqrt(sqrt)
    requires MassPositive(a) && MassPositive(b)
    requires a.bounds.Rect? && b.bounds.Rect?
    requires HasResponse(a.kind) && HasResponse(b.kind)
    requires Collide(a, b, aId, bId, e, sqrt).Ok?
    ensures var c := Collide(a, b, aId, bId, e, sqrt).value;
            MomentumConserved(a, b, c.alpha, c.beta)
  {
    if Intersects(a.bounds, b.bounds) {
      var np := NudgePhase(a, b, sqrt);
      assert np.Ok?;
      var p := np.value;
      assert p.0.bounds.Rect? && p.1.bounds.Rect?;
      var resp := RectResponse(p.0, p.1, e);
      assert Response(p.0, p.1, e, sqrt) == Ok(resp);
      RectResponseMomentum(p.0, p.1, e);
      var c := Collide(a, b, aId, bId, e, sqrt).value;
      assert c.alpha == resp.0.(collided := true);
      assert c.beta == resp.1.(collided := true);
      MomentumCarries(a, b, p.0, p.1, resp.0, resp.1, c.alpha, c.beta);
    }
  }

  /** Momentum conserved between nudged copies of two bodies is conserved
      between the originals, since the nudge changes neither mass nor
      velocity, and the collision flags do not matter either. */
  lemma MomentumCarries(a: Body, b: Body, p: Body, q: Body, p': Body, q': Body, a': Body, b': Body)
    requires p.mass == a.mass && p.velX == a.velX && p.velY == a.velY
    requires q.mass == b.mass && q.velX == b.velX && q.velY == b.velY
    requires a'.velX == p'.velX && a'.velY == p'.velY && b'.velX == q'.velX && b'.velY == q'.velY
    requires MomentumConserved(p, q, p', q')
    ensures MomentumConserved(a, b, a', b')
  {
  }

  // ------------------------------------------------------------------- pass

  /** Every listed identity has a body. */
  predicate Registered(heap: Heap, ids: seq<BodyId>)
  {
    forall i :: 0 <= i < |ids| ==> ids[i] in heap
  }

  /** Every body has the positive mass its constructor gave it. */
  predicate HeapValid(heap: Heap)
  {
    forall id :: id in heap ==> MassPositive(heap[id])
  }

  /** The bodies after a pass, and the listener calls made, in order. */
  datatype Sweep = Sweep(heap: Heap, events: seq<Event>)

  /** The bodies a pass may change, and how: all keep what Persists keeps. */
  predicate SweepKeeps(heap: Heap, heap': Heap, self: BodyId, ids: seq<BodyId>)
  {
    heap'.Keys == heap.Keys
    && (forall id :: id in heap ==> Persists(heap[id], heap'[id]))
    && (forall id :: id in heap && id != self && id !in ids ==> heap'[id] == heap[id])
  }

  /** PhysicsModel.PerformCollisionFor: Collide(self, other) for every
      listed body other than self itself, in list order, with self carrying
      the changes of each collision into the next. */
  function Pass(heap: Heap, self: BodyId, ids: seq<BodyId>, e: real, sqrt: real -> real): (r: Outcome<Sweep>)
    requires IsSqrt(sqrt)
    requires self in heap && Registered(heap, ids) && HeapValid(heap)
    ensures r.Ok? ==> SweepKeeps(heap, r.value.heap, self, ids) && HeapValid(r.value.heap)
    decreases |ids|
  {
    if |ids| == 0 then Ok(Sweep(heap, []))
    else if ids[0] == self then Pass(heap, self, ids[1..], e, sqrt)
    else
      var other := ids[0];
      match Collide(heap[self], heap[other], self, other, e, sqrt)
      case NaN => NaN
      case Ok(c) =>
        var heap' := heap[self := c.alpha][other := c.beta];
        assert Registered(heap', ids[1..]) by {
          assert forall i :: 0 <= i < |ids| - 1 ==> ids[1..][i] == ids[i + 1];
        }
        assert HeapValid(heap');
        match Pass(heap', self, ids[1..], e, sqrt)
        case NaN => NaN
        case Ok(rest) =>
          SweepStep(heap, rest.heap, self, ids, c.alpha, c.beta);
          Ok(Sweep(rest.heap, c.events + rest.events))
  }

  /** One step of a pass: a collision of self with ids[0] whose results
      persist, followed by a pass over the rest, keeps what a sweep keeps. */
  lemma SweepStep(heap: Heap, final: Heap, self: BodyId, ids: seq<BodyId>, alpha: Body, beta: Body)
    requires |ids| > 0 && self in heap && ids[0] in heap && ids[0] != self
    requires Persists(heap[self], alpha) && Persists(heap[ids[0]], beta)
    requires SweepKeeps(heap[self := alpha][ids[0] := beta], final, self, ids[1..])
    ensures SweepKeeps(heap, final, self, ids)
  {
    var heap' := heap[self := alpha][ids[0] := beta];
    forall id | id in heap
      ensures Persists(heap[id], final[id])
    {
      PersistsTransitive(heap[id], heap'[id], final[id]);
    }
    forall id | id in heap && id != self && id !in ids
      ensures final[id] == heap[id]
    {
      assert id !in ids[1..];
    }
  }

  /** The pass over a single other body is one call of Collide(self, other),
      whose two results are written back and whose listener calls are the
      pass's. */
  lemma PassOne(heap: Heap, self: BodyId, other: BodyId, e: real, sqrt: real -> real)
    requires IsSqrt(sqrt)
    requires self in heap && other in heap && other != self && HeapValid(heap)
    ensures Registered(heap, [other])
    ensures Pass(heap, self, [other], e, sqrt)
         == match Collide(heap[self], heap[other], self, other, e, sqrt)
            case NaN => NaN
            case Ok(c) => Ok(Sweep(heap[self := c.alpha][other := c.beta], c.events))
  {
    assert [other][1..] == [];
    match Collide(heap[self], heap[other], self, other, e, sqrt)
    case NaN =>
    case Ok(c) =>
      assert c.events + [] == c.events;
  }

  /** The listener calls ev, made before those of the outcome o. */
  function Prepend(ev: seq<Event>, o: Outcome<Sweep>): Outcome<Sweep>
  {
    match o
    case NaN => NaN
    case Ok(sw) => Ok(Sweep(sw.heap, ev + sw.events))
  }

  /** A pass over ys run on the bodies an earlier outcome left behind; a NaN
      outcome stays NaN. */
  function Then(first: Outcome<Sweep>, self: BodyId, ys: seq<BodyId>, e: real, sqrt: real -> real): Outcome<Sweep>
    requires IsSqrt(sqrt)
    requires first.Ok? ==> self in first.value.heap && Registered(first.value.heap, ys) && HeapValid(first.value.heap)
  {
    match first
    case NaN => NaN
    case Ok(f) => Prepend(f.events, Pass(f.heap, self, ys, e, sqrt))
  }

  /** Calls made before a two-part pass can be put before its first part. */
  lemma PrependThen(ev: seq<Event>, o: Outcome<Sweep>, self: BodyId, ys: seq<BodyId>, e: real, sqrt: real -> real)
    requires IsSqrt(sqrt)
    requires o.Ok? ==> self in o.value.heap && Registered(o.value.heap, ys) && HeapValid(o.value.heap)
    ensures Prepend(ev, Then(o, self, ys, e, sqrt)) == Then(Prepend(ev, o), self, ys, e, sqrt)
  {
    match o
    case NaN =>
    case Ok(f) =>
      PrependTwice(ev, f.events, Pass(f.heap, self, ys, e, sqrt));
  }

  lemma PrependTwice(ev: seq<Event>, fe: seq<Event>, o: Outcome<Sweep>)
    ensures Prepend(ev, Prepend(fe, o)) == Prepend(ev + fe, o)
  {
    match o
    case NaN =>
    case Ok(sw) =>
      assert ev + (fe + sw.events) == (ev + fe) + sw.events;
  }

  /** A pass over xs + ys is the pass over xs followed by the pass over ys,
      started from the bodies the first left behind, with the listener calls
      of the two in order. With PassOne this determines every pass: entries
      are visited one by one, in list order. */
  lemma {:induction false} PassAppend(heap: Heap, self: BodyId, xs: seq<BodyId>, ys: seq<BodyId>, e: real, sqrt: real -> real)
    requires IsSqrt(sqrt)
    requires self in heap && Registered(heap, xs + ys) && HeapValid(heap)
    ensures Registered(heap, xs) && Registered(heap, ys)
    ensures Pass(heap, self, xs + ys, e, sqrt) == Then(Pass(heap, self, xs, e, sqrt), self, ys, e, sqrt)
    decreases |xs|
  {
    assert Registered(heap, xs) && Registered(heap, ys) by {
      assert forall i :: 0 <= i < |xs| ==> xs[i] == (xs + ys)[i];
      assert forall i :: 0 <= i < |ys| ==> ys[i] == (xs + ys)[|xs| + i];
    }
    if |xs| == 0 {
      assert xs + ys == ys;
      match Pass(heap, self, ys, e, sqrt)
      case NaN =>
      case Ok(second) =>
        assert [] + second.events == second.events;
    } else {
      var zs := xs + ys;
      assert zs[0] == xs[0];
      assert zs[1..] == xs[1..] + ys;
      assert Registered(heap, xs[1..] + ys) by {
        assert forall i :: 0 <= i < |zs| - 1 ==> zs[1..][i] == zs[i + 1];
      }
      if xs[0] == self {
        PassAppend(heap, self, xs[1..], ys, e, sqrt);
      } else {
        var other := xs[0];
        match Collide(heap[self], heap[other], self, other, e, sqrt)
        case NaN =>
        case Ok(c) =>
          var heap' := heap[self := c.alpha][other := c.beta];
          assert Registered(heap', xs[1..] + ys);
          PassAppend(heap', self, xs[1..], ys, e, sqrt);
          assert Pass(heap, self, zs, e, sqrt) == Prepend(c.events, Pass(heap', self, xs[1..] + ys, e, sqrt));
          assert Pass(heap, self, xs, e, sqrt) == Prepend(c.events, Pass(heap', self, xs[1..], e, sqrt));
          PrependThen(c.events, Pass(heap', self, xs[1..], e, sqrt), self, ys, e, sqrt);
      }
    }
  }

  /** Persists is transitive. */
  lemma PersistsTransitive(a: Body, b: Body, c: Body)
    requires Persists(a, b) && Persists(b, c)
    ensures Persists(a, c)
  {
  }

  /** Listing self changes nothing: a pass is the same over the list with
      every occurrence of self removed. */
  lemma {:induction false} PassSkipsSelf(heap: Heap, self: BodyId, ids: seq<BodyId>, e: real, sqrt: real -> real)
    requires IsSqrt(sqrt)
    requires self in heap && Registered(heap, ids) && HeapValid(heap)
    ensures Registered(heap, Without(ids, self))
    ensures Pass(heap, self, ids, e, sqrt) == Pass(heap, self, Without(ids, self), e, sqrt)
    decreases |ids|
  {
    var w := Without(ids, self);
    assert Registered(heap, w) by {
      forall i | 0 <= i < |w|
        ensures w[i] in heap
      {
        assert w[i] in w;
        var j :| 0 <= j < |ids| && ids[j] == w[i];
      }
    }
    if |ids| > 0 {
      assert ids == [ids[0]] + ids[1..];
      var rest := Without(ids[1..], self);
      assert Registered(heap, ids[1..]) by {
        assert forall i :: 0 <= i < |ids| - 1 ==> ids[1..][i] == ids[i + 1];
      }
      if ids[0] == self {
        assert w == rest;
        PassSkipsSelf(heap, self, ids[1..], e, sqrt);
      } else {
        assert w == [ids[0]] + rest;
        assert w[1..] == rest;
        var other := ids[0];
        match Collide(heap[self], heap[other], self, other, e, sqrt)
        case NaN =>
        case Ok(c) =>
          var heap' := heap[self := c.alpha][other := c.beta];
          assert Registered(heap', ids[1..]) by {
            assert forall i :: 0 <= i < |ids| - 1 ==> ids[1..][i] == ids[i + 1];
          }
          PassSkipsSelf(heap', self, ids[1..], e, sqrt);
      }
    }
  }

  /** Self overlaps none of the listed bodies. */
  predicate NoContact(heap: Heap, self: BodyId, ids: seq<BodyId>)
    requires self in heap && Registered(heap, ids)
  {
    forall i :: 0 <= i < |ids| && ids[i] != self ==> !Intersects(heap[self].bounds, heap[ids[i]].bounds)
  }

  /** A pass that finds no overlap changes nothing and calls no listener. */
  lemma {:induction false} PassWithoutContact(heap: Heap, self: BodyId, ids: seq<BodyId>, e: real, sqrt: real -> real)
    requires IsSqrt(sqrt)
    requires self in heap && Registered(heap, ids) && HeapValid(heap)
    requires NoContact(heap, self, ids)
    ensures Pass(heap, self, ids, e, sqrt) == Ok(Sweep(heap, []))
    decreases |ids|
  {
    if |ids| > 0 {
      assert Registered(heap, ids[1..]) by {
        assert forall i :: 0 <= i < |ids| - 1 ==> ids[1..][i] == ids[i + 1];
      }
      assert NoContact(heap, self, ids[1..]) by {
        assert forall i :: 0 <= i < |ids| - 1 ==> ids[1..][i] == ids[i + 1];
      }
      PassWithoutContact(heap, self, ids[1..], e, sqrt);
      if ids[0] != self {
        var other := ids[0];
        assert !Intersects(heap[self].bounds, heap[other].bounds);
        assert Collide(heap[self], heap[other], self, other, e, sqrt)
            == Ok(Contact(heap[self], heap[other], false, []));
        assert heap[self := heap[self]][other := heap[other]] == heap;
        var ev: seq<Event> := [];
        assert ev + ev == ev;
      }
    }
  }

  // ----------------------------------------------------------------- update

  /** PhysicsObject.Update for the body `self`: clear its collision flag,
      run the collision pass if it is Kinetic, a Ghost or moving, then
      integrate its motion. `retained` is the model's friction raised to the
      power dt, which the caller computes. */
  function Update(m: PhysicsModel, heap: Heap, self: BodyId, dt: real, retained: real, sqrt: real -> real): (r: Outcome<Sweep>)
    requires IsSqrt(sqrt)
    requires self in heap && Registered(heap, m.objects) && HeapValid(heap)
    ensures r.Ok? ==> r.value.heap.Keys == heap.Keys && HeapValid(r.value.heap)
    ensures r.Ok? ==> forall id :: id in heap && id != self && id !in m.objects ==> r.value.heap[id] == heap[id]
    ensures r.Ok? ==> r.value.heap[self].accX == 0.0 && r.value.heap[self].accY == 0.0
    ensures r.Ok? ==> forall id :: id in heap && id != self ==> Persists(heap[id], r.value.heap[id])
  {
    var cleared := heap[self := heap[self].(collided := false)];
    assert Registered(cleared, m.objects);
    var swept :=
      if NeedsCollisionPass(cleared[self]) then Pass(cleared, self, m.objects, m.restitution, sqrt)
      else Ok(Sweep(cleared, []));
    match swept
    case NaN => NaN
    case Ok(sw) =>
      var moved := Integrate(sw.heap[self], dt, retained);
      UpdateFrame(heap, sw.heap, self, m.objects, moved);
      Ok(Sweep(sw.heap[self := moved], sw.events))
  }

  /** The frame of an update: a sweep from the heap with self's flag
      cleared, then self replaced by a body of positive mass. */
  lemma UpdateFrame(heap: Heap, final: Heap, self: BodyId, ids: seq<BodyId>, moved: Body)
    requires self in heap && MassPositive(moved)
    requires SweepKeeps(heap[self := heap[self].(collided := false)], final, self, ids) && HeapValid(final)
    ensures final[self := moved].Keys == heap.Keys && HeapValid(final[self := moved])
    ensures forall id :: id in heap && id != self && id !in ids ==> final[self := moved][id] == heap[id]
    ensures forall id :: id in heap && id != self ==> Persists(heap[id], final[self := moved][id])
  {
  }

  /** A Kinetic body, a Ghost or a moving body runs the collision pass over
      the model's list, with its own flag cleared first, and then
      integrates the body as the pass left it. */
  lemma UpdateRunsPass(m: PhysicsModel, heap: Heap, self: BodyId, dt: real, retained: real, sqrt: real -> real)
    requires IsSqrt(sqrt)
    requires self in heap && Registered(heap, m.objects) && HeapValid(heap)
    requires NeedsCollisionPass(heap[self])
    ensures Registered(heap[self := heap[self].(collided := false)], m.objects)
    ensures HeapValid(heap[self := heap[self].(collided := false)])
    ensures Update(m, heap, self, dt, retained, sqrt)
         == match Pass(heap[self := heap[self].(collided := false)], self, m.objects, m.restitution, sqrt)
            case NaN => NaN
            case Ok(sw) => Ok(Sweep(sw.heap[self := Integrate(sw.heap[self], dt, retained)], sw.events))
  {
    var cleared := heap[self := heap[self].(collided := false)];
    assert Registered(cleared, m.objects);
    assert NeedsCollisionPass(cleared[self]);
  }

  /** A moving body that overlaps the one other body the model lists
      collides with it during its update: both end with their collision
      flag set, and the listeners of self, then those of the other body, are
      called. */
  lemma UpdateHitsOverlap(m: PhysicsModel, heap: Heap, self: BodyId, other: BodyId, dt: real, retained: real, sqrt: real -> real)
    requires IsSqrt(sqrt)
    requires self in heap && other in heap && other != self && HeapValid(heap)
    requires m.objects == [other]
    requires NeedsCollisionPass(heap[self])
    requires Intersects(heap[self].bounds, heap[other].bounds)
    ensures Registered(heap, m.objects)
    ensures var r := Update(m, heap, self, dt, retained, sqrt);
            r.Ok? ==>
              r.value.heap[self].collided && r.value.heap[other].collided &&
              r.value.events == Events(heap[self].listeners, self, other) + Events(heap[other].listeners, other, self)
  {
    var cleared := heap[self := heap[self].(collided := false)];
    assert Registered(heap, m.objects);
    UpdateRunsPass(m, heap, self, dt, retained, sqrt);
    PassOne(cleared, self, other, m.restitution, sqrt);
    assert cleared[other] == heap[other];
    var col := Collide(cleared[self], cleared[other], self, other, m.restitution, sqrt);
    match col
    case NaN =>
    case Ok(c) =>
      assert c.hit;
      var sw := Sweep(cleared[self := c.alpha][other := c.beta], c.events);
      assert Pass(cleared, self, m.objects, m.restitution, sqrt) == Ok(sw);
      assert sw.heap[self] == c.alpha;
  }

  /** A step that touches nothing is a plain integration of the body, with
      its collision flag cleared and no listener called. */
  lemma UpdateWithoutContact(m: PhysicsModel, heap: Heap, self: BodyId, dt: real, retained: real, sqrt: real -> real)
    requires IsSqrt(sqrt)
    requires self in heap && Registered(heap, m.objects) && HeapValid(heap)
    requires NoContact(heap, self, m.objects)
    ensures Update(m, heap, self, dt, retained, sqrt)
         == Ok(Sweep(heap[self := Integrate(heap[self].(collided := false), dt, retained)], []))
  {
    var cleared := heap[self := heap[self].(collided := false)];
    assert NoContact(cleared, self, m.objects);
    PassWithoutContact(cleared, self, m.objects, m.restitution, sqrt);
    assert cleared[self := Integrate(cleared[self], dt, retained)]
        == heap[self := Integrate(heap[self].(collided := false), dt, retained)];
  }

  /** A Passive or Static body at rest runs no collision pass: its update
      only integrates it, whatever it overlaps. */
  lemma RestingBodyOnlyIntegrates(m: PhysicsModel, heap: Heap, self: BodyId, dt: real, retained: real, sqrt: real -> real)
    requires IsSqrt(sqrt)
    requires self in heap && Registered(heap, m.objects) && HeapValid(heap)
    requires heap[self].kind == Passive || heap[self].kind == Static
    requires heap[self].velX == 0.0 && heap[self].velY == 0.0
    ensures Update(m, heap, self, dt, retained, sqrt)
         == Ok(Sweep(heap[self := Integrate(heap[self].(collided := false), dt, retained)], []))
  {
    var cleared := heap[self := heap[self].(collided := false)];
    assert !NeedsCollisionPass(cleared[self]);
    assert cleared[self := Integrate(cleared[self], dt, retained)]
        == heap[self := Integrate(heap[self].(collided := false), dt, retained)];
  }
}

=== FILE: motors.dfy ===
/** Motor: a mechanical device that pushes its robot's body along a heading
    for an ordered length of time. The heading's cosine and sine are
    supplied by the caller: the device's rotation cache is not modelled. */
module Motors {
  import opened Numerics
  import opened Bodies

  /** The scaled maximum power, the time the motor still has to run, and
      the ordered fraction of maximum power. */
  datatype Motor = Motor(maxPower: real, countdown: real, power: real)

  /** The constructor keeps a thousandth of the magnitude of the maximum
      power; the motor starts switched off. */
  function NewMotor(maxPower: real): (m: Motor)
    ensures m.maxPower >= 0.0
    ensures m.maxPower * 1000.0 == Abs(maxPower)
    ensures m.countdown == 0.0 && m.power == 0.0
  {
    Motor(if maxPower < 0.0 then maxPower * -0.001 else maxPower * 0.001, 0.0, 0.0)
  }

  /** Activate: power is clamped to [-1, 1] and the running time to at
      least 0. */
  function Activate(m: Motor, power: real, time: real): (r: Motor)
    ensures -1.0 <= r.power <= 1.0
    ensures -1.0 <= power <= 1.0 ==> r.power == power
    ensures power < -1.0 ==> r.power == -1.0
    ensures power > 1.0 ==> r.power == 1.0
    ensures r.countdown >= 0.0
    ensures time >= 0.0 ==> r.countdown == time
    ensures time < 0.0 ==> r.countdown == 0.0
    ensures r.maxPower == m.maxPower
  {
    m.(power := if power < -1.0 then -1.0 else if power > 1.0 then 1.0 else power,
       countdown := if time < 0.0 then 0.0 else time)
  }

  /** Only the last activation counts. */
  lemma ActivateOverrides(m: Motor, p1: real, t1: real, p2: real, t2: real)
    ensures Activate(Activate(m, p1, t1), p2, t2) == Activate(m, p2, t2)
  {
  }

  /** How long the motor pushes during a tick of length dt: none of it when
      switched off, the whole tick while time remains, and otherwise the
      time that was left. */
  function OnTime(m: Motor, dt: real): (t: real)
    ensures m.countdown >= 0.0 && dt >= 0.0 ==> t == Min(m.countdown, dt)
    ensures m.countdown == 0.0 ==> t == 0.0
  {
    if m.countdown == 0.0 then 0.0
    else if m.countdown >= dt then dt
    else m.countdown
  }

  /** The countdown half of Update. */
  function Tick(m: Motor, dt: real): (r: Motor)
    ensures m.countdown >= 0.0 ==> r.countdown >= 0.0
    ensures m.countdown >= 0.0 && dt >= 0.0 ==> r.countdown <= m.countdown
    ensures m.countdown >= 0.0 && dt >= 0.0 ==> m.countdown - r.countdown == OnTime(m, dt)
    ensures m.countdown == 0.0 ==> r == m
    ensures r == m.(countdown := r.countdown)
  {
    if m.countdown == 0.0 then m
    else if m.countdown >= dt then m.(countdown := m.countdown - dt)
    else m.(countdown := 0.0)
  }

  /** The force the motor applies in a tick: along (cos, sin), scaled by
      the ordered power, the maximum power and the time it was on. */
  function Thrust(m: Motor, dt: real, cos: real, sin: real): (f: (real, real))
    ensures m.countdown != 0.0 ==> f.0 == Mul(Mul(cos, m.power * m.maxPower), OnTime(m, dt))
    ensures m.countdown != 0.0 ==> f.1 == Mul(Mul(sin, m.power * m.maxPower), OnTime(m, dt))
  {
    var mult := m.power * m.maxPower;
    if m.countdown >= dt then (cos * mult * dt, sin * mult * dt)
    else (cos * mult * m.countdown, sin * mult * m.countdown)
  }

  /** Motor.Update: a motor that is off does nothing; otherwise it applies
      its thrust to the body and counts down. */
  function Update(m: Motor, b: Body, dt: real, cos: real, sin: real): (r: (Motor, Body))
    requires MassPositive(b)
    ensures r.0 == Tick(m, dt)
    ensures m.countdown == 0.0 ==> r == (m, b)
    ensures Mul(b.mass, r.1.accX - b.accX) == Mul(Mul(cos, m.power * m.maxPower), OnTime(m, dt))
    ensures Mul(b.mass, r.1.accY - b.accY) == Mul(Mul(sin, m.power * m.maxPower), OnTime(m, dt))
    ensures r.1 == b.(accX := r.1.accX, accY := r.1.accY)
  {
    if m.countdown == 0.0 then (m, b)
    else
      var f := Thrust(m, dt, cos, sin);
      (Tick(m, dt), ApplyForce(b, f.0, f.1))
  }

  /** Sum of a run of tick lengths. */
  function Total(dts: seq<real>): (s: real)
    ensures (forall i :: 0 <= i < |dts| ==> dts[i] >= 0.0) ==> s >= 0.0
  {
    if |dts| == 0 then 0.0 else dts[0] + Total(dts[1..])
  }

  /** The motor after a run of ticks. */
  function Run(m: Motor, dts: seq<real>): (r: Motor)
    ensures r == m.(countdown := r.countdown)
    decreases |dts|
  {
    if |dts| == 0 then m else Run(Tick(m, dts[0]), dts[1..])
  }

  /** Over a run of ticks the motor is on for exactly the elapsed time or
      the ordered time, whichever is smaller: the countdown falls by that
      much and never goes negative. */
  lemma {:induction false} RunUsesOrderedTime(m: Motor, dts: seq<real>)
    requires m.countdown >= 0.0
    requires forall i :: 0 <= i < |dts| ==> dts[i] >= 0.0
    ensures Run(m, dts).countdown >= 0.0
    ensures m.countdown - Run(m, dts).countdown == Min(Total(dts), m.countdown)
    decreases |dts|
  {
    if |dts| > 0 {
      var m' := Tick(m, dts[0]);
      assert forall i :: 0 <= i < |dts| - 1 ==> dts[1..][i] == dts[i + 1];
      RunUsesOrderedTime(m', dts[1..]);
      assert Total(dts[1..]) >= 0.0;
    }
  }

  /** A motor that has run down stays off, whatever the ticks. */
  lemma {:induction false} StoppedStaysStopped(m: Motor, dts: seq<real>)
    requires m.countdown == 0.0
    ensures Run(m, dts) == m
    decreases |dts|
  {
    if |dts| > 0 {
      StoppedStaysStopped(Tick(m, dts[0]), dts[1..]);
    }
  }
}

=== FILE: numerics.dfy ===
/** Numeric vocabulary shared by the whole model.

    Every Java `double` of the simulator is an exact `real` here; rounding,
    NaN and the infinities are not modelled. `Math.sqrt` is not something
    Dafny can compute, so the operations that need it take the square root
    as a parameter: any function satisfying `IsSqrt`.

    Products that the proofs reason about are written with `Sq` and `Mul`,
    and each algebraic step is a small lemma of its own, so that the solver
    only ever has to combine them linearly. */
module Numerics {

  /** PhysicsModel.EPSILON: the tolerance of every "almost equal" test. */
  const EPSILON: real := 0.001

  /** Double.MAX_VALUE, exactly (2^53 - 1) * 2^971. The ray casts and the
      sensors use it only as the "nothing was hit" distance. */
  const DOUBLE_MAX: real := 179769313486231570814527423731704356798070567525844996598917476803157260780028538760589558632766878171540458953514382464234321326889464182768467546703537516986049910576551282076245490090389328944075868508455133942304583236903222948165808559332123348274797826204144723168738177180919299881250404026184124858368.0

  /** The result of a computation that in the source divides by a value
      that can be zero. `NaN` stands for the non-finite doubles such a
      division spreads through the simulation. */
  datatype Outcome<T> = Ok(value: T) | NaN

  /** The square-root oracle: non-negative, and squares back to its argument. */
  ghost predicate IsSqrt(sqrt: real -> real)
  {
    forall x :: 0.0 <= x ==> 0.0 <= sqrt(x) && Sq(sqrt(x)) == x
  }

  function Sq(x: real): real
  {
    x * x
  }

  function Mul(a: real, b: real): real
  {
    a * b
  }

  /** Squared distance between two points. */
  function SqDist(x1: real, y1: real, x2: real, y2: real): real
  {
    Sq(x1 - x2) + Sq(y1 - y2)
  }

  function Abs(x: real): (r: real)
    ensures 0.0 <= r
    ensures r == x || r == -x
  {
    if x < 0.0 then -x else x
  }

  function Min(a: real, b: real): (r: real)
    ensures r <= a && r <= b
    ensures r == a || r == b
  {
    if a < b then a else b
  }

  /** The `v < lo ? lo : v > hi ? hi : v` idiom of the Java source. */
  function Clamp(v: real, lo: real, hi: real): (r: real)
    ensures lo <= hi ==> lo <= r <= hi
    ensures lo <= v <= hi ==> r == v
    ensures v < lo ==> r == lo
  {
    if v < lo then lo else if v > hi then hi else v
  }

  lemma SqNonNegative(x: real)
    ensures 0.0 <= Sq(x)
  {
    if x != 0.0 {
      SqPositive(x);
    }
  }

  lemma PosMul(a: real, b: real)
    requires 0.0 < a && 0.0 < b
    ensures 0.0 < Mul(a, b)
  {
  }

  lemma MulMono(a: real, b: real, c: real)
    requires 0.0 <= c && a <= b
    ensures Mul(a, c) <= Mul(b, c)
  {
    assert b * c - a * c == (b - a) * c;
  }

  lemma MulStrict(a: real, b: real, c: real)
    requires 0.0 < c && a < b
    ensures Mul(a, c) < Mul(b, c)
  {
    assert b * c - a * c == (b - a) * c;
    PosMul(b - a, c);
  }

  lemma SqPositiveAbove(x: real)
    requires 0.0 < x
    ensures 0.0 < Sq(x)
  {
    PosMul(x, x);
  }

  lemma SqPositiveBelow(x: real)
    requires x < 0.0
    ensures 0.0 < Sq(x)
  {
    PosMul(-x, -x);
    assert Mul(-x, -x) == Sq(x);
  }

  lemma SqPositive(x: real)
    requires x != 0.0
    ensures 0.0 < Sq(x)
  {
    if x < 0.0 {
      SqPositiveBelow(x);
    } else {
      SqPositiveAbove(x);
    }
  }

  /** A square root of a positive number is positive. */
  lemma SqrtOfPositive(sqrt: real -> real, x: real)
    requires IsSqrt(sqrt)
    requires 0.0 < x
    ensures 0.0 < sqrt(x)
  {
    assert Sq(sqrt(x)) == x;
  }

  /** The only non-negative square root of 1 is 1. */
  lemma SqrtOfOne(sqrt: real -> real)
    requires IsSqrt(sqrt)
    ensures sqrt(1.0) == 1.0
  {
    var s := sqrt(1.0);
    assert Sq(s) == 1.0;
    SqMonotone(s, 1.0);
    SqMonotone(1.0, s);
  }

  /** Dividing both components of a non-zero (dx, dy) by the same positive
      m keeps its direction: the quotient is parallel to (dx, dy) and
      points the same way. */
  lemma SharedDivisor(dx: real, dy: real, m: real)
    requires 0.0 < m && 0.0 < Sq(dx) + Sq(dy)
    ensures Mul(dx / m, dy) == Mul(dy / m, dx)
    ensures 0.0 < Mul(dx / m, dx) + Mul(dy / m, dy)
  {
    assert Mul(dx / m, dx) + Mul(dy / m, dy) == (Sq(dx) + Sq(dy)) / m;
  }

  lemma SqDistSymmetric(x1: real, y1: real, x2: real, y2: real)
    ensures SqDist(x1, y1, x2, y2) == SqDist(x2, y2, x1, y1)
  {
    assert Sq(x1 - x2) == Sq(x2 - x1);
    assert Sq(y1 - y2) == Sq(y2 - y1);
  }

  /** The only point at squared distance zero is the point itself. */
  lemma SqDistZero(x1: real, y1: real, x2: real, y2: real)
    ensures SqDist(x1, y1, x2, y2) == 0.0 <==> x1 == x2 && y1 == y2
  {
    SqNonNegative(x1 - x2);
    SqNonNegative(y1 - y2);
    if x1 != x2 {
      SqPositive(x1 - x2);
    }
    if y1 != y2 {
      SqPositive(y1 - y2);
    }
  }

  lemma SqUp(a: real, b: real)
    requires 0.0 <= a <= b
    ensures Sq(a) <= Sq(b)
  {
    MulMono(a, b, a);
    MulMono(a, b, b);
    assert Mul(b, a) == Mul(a, b);
    assert Sq(a) == Mul(a, a);
    assert Sq(b) == Mul(b, b);
  }

  lemma SqStrictUp(a: real, b: real)
    requires 0.0 <= a < b
    ensures Sq(a) < Sq(b)
  {
    MulMono(a, b, a);
    MulStrict(a, b, b);
    assert Mul(b, a) == Mul(a, b);
    assert Sq(a) == Mul(a, a);
    assert Sq(b) == Mul(b, b);
  }

  /** For non-negative numbers, comparing squares is comparing the numbers. */
  lemma SqMonotone(a: real, b: real)
    requires 0.0 <= a && 0.0 <= b
    ensures Sq(a) <= Sq(b) <==> a <= b
  {
    if a <= b {
      SqUp(a, b);
    } else {
      SqStrictUp(b, a);
    }
  }

  lemma SqOfProduct(a: real, b: real)
    ensures Sq(a * b) == Mul(Sq(a), Sq(b))
  {
  }

  lemma CancelSum(a: real, b: real, k: real)
    requires 0.0 < k
    requires Mul(a, k) + Mul(b, k) == k
    ensures a + b == 1.0
  {
    assert (a + b - 1.0) * k == 0.0;
  }

  lemma SumFactor(a: real, b: real, k: real)
    requires a + b == 1.0
    ensures Mul(a, k) + Mul(b, k) == k
  {
    assert a * k + b * k == (a + b) * k;
  }

  /** (u, v) = (dx, dy) / m, where m is the length of (dx, dy), is a unit vector. */
  lemma UnitLength(dx: real, dy: real, m: real, u: real, v: real)
    requires 0.0 < m
    requires Sq(m) == Sq(dx) + Sq(dy)
    requires u * m == dx && v * m == dy
    ensures Sq(u) + Sq(v) == 1.0
  {
    SqOfProduct(u, m);
    SqOfProduct(v, m);
    SqPositive(m);
    CancelSum(Sq(u), Sq(v), Sq(m));
  }

  /** Dividing a vector by its length gives a unit vector. */
  lemma UnitByDivision(dx: real, dy: real, m: real)
    requires 0.0 < m
    requires Sq(m) == Sq(dx) + Sq(dy)
    ensures Sq(dx / m) + Sq(dy / m) == 1.0
  {
    UnitLength(dx, dy, m, dx / m, dy / m);
  }

  /** Scaling a unit vector by len gives a vector of length |len|. */
  lemma ScaledUnit(u: real, v: real, len: real)
    requires Sq(u) + Sq(v) == 1.0
    ensures Sq(u * len) + Sq(v * len) == Sq(len)
  {
    SqOfProduct(u, len);
    SqOfProduct(v, len);
    SumFactor(Sq(u), Sq(v), Sq(len));
  }

  /** Scaling (dx, dy) by len / m, where m is its length, gives a vector of
      length |len|; this is the arithmetic behind every "nudge" of the model. */
  lemma ScaledLength(dx: real, dy: real, m: real, len: real)
    requires 0.0 < m
    requires Sq(m) == Sq(dx) + Sq(dy)
    ensures Sq(dx / m * len) + Sq(dy / m * len) == Sq(len)
  {
    UnitByDivision(dx, dy, m);
    ScaledUnit(dx / m, dy / m, len);
  }
}

=== FILE: rays.dfy ===
/** Ray: an origin and a unit heading, used by the distance and colour
    sensors to find what lies in front of a robot.

    Against a rectangle the ray runs the slab test: each axis narrows the
    interval of ray parameters [entry, exit] during which the ray is inside
    that axis's span; an empty interval is a miss and otherwise the entry is
    the distance. The source writes the same steps twice (Intersects and
    DistanceTo); here both share `SlabAxis`. Double.MAX_VALUE is the
    "no hit" distance and the initial exit. */
module Rays {
  import opened Numerics
  import opened Shapes
  import opened Bounds

  datatype Ray = Ray(originX: real, originY: real, headingX: real, headingY: real)

  /** Heading components within EPSILON of zero are snapped to zero. */
  function Snap(h: real): (r: real)
    ensures Abs(h) <= EPSILON ==> r == 0.0
    ensures EPSILON < Abs(h) ==> r == h
  {
    if Abs(h) <= EPSILON then 0.0 else h
  }

  /** The constructor divides by the length of the snapped heading. */
  predicate CanBuildRay(headingX: real, headingY: real)
  {
    Snap(headingX) != 0.0 || Snap(headingY) != 0.0
  }

  lemma DivSign(a: real, d: real)
    requires 0.0 < d
    ensures 0.0 < a / d <==> 0.0 < a
    ensures a / d < 0.0 <==> a < 0.0
  {
    assert a / d * d == a;
    if 0.0 < a / d {
      PosMul(a / d, d);
    }
    if a / d < 0.0 {
      PosMul(-(a / d), d);
    }
    if 0.0 < a {
      assert a / d == a * (1.0 / d);
    }
  }

  /** The constructor: snap, then divide both components by the length of
      the snapped heading, so the result is the unit heading that points
      the same way as the snapped one; a snapped heading that is already a
      unit is kept as it is. */
  function NewRay(x: real, y: real, headingX: real, headingY: real, sqrt: real -> real): (r: Ray)
    requires IsSqrt(sqrt)
    requires CanBuildRay(headingX, headingY)
    ensures r.originX == x && r.originY == y
    ensures Sq(r.headingX) + Sq(r.headingY) == 1.0
    ensures r.headingX == 0.0 <==> Abs(headingX) <= EPSILON
    ensures r.headingY == 0.0 <==> Abs(headingY) <= EPSILON
    ensures 0.0 < r.headingX <==> EPSILON < headingX
    ensures 0.0 < r.headingY <==> EPSILON < headingY
    ensures Mul(r.headingX, Snap(headingY)) == Mul(r.headingY, Snap(headingX))
    ensures 0.0 < Mul(r.headingX, Snap(headingX)) + Mul(r.headingY, Snap(headingY))
    ensures Sq(Snap(headingX)) + Sq(Snap(headingY)) == 1.0 ==>
              r.headingX == Snap(headingX) && r.headingY == Snap(headingY)
  {
    var hx := Snap(headingX);
    var hy := Snap(headingY);
    SqDistZero(hx, hy, 0.0, 0.0);
    SqNonNegative(hx);
    SqNonNegative(hy);
    var divisor := sqrt(Sq(hx) + Sq(hy));
    SqrtOfPositive(sqrt, Sq(hx) + Sq(hy));
    UnitByDivision(hx, hy, divisor);
    DivSign(hx, divisor);
    DivSign(hy, divisor);
    SharedDivisor(hx, hy, divisor);
    SqrtOfOne(sqrt);
    Ray(x, y, hx / divisor, hy / divisor)
  }

  /** A heading built from (cos a, sin a) always satisfies the constructor:
      both components cannot be within EPSILON of zero at once. */
  lemma UnitHeadingBuildable(c: real, s: real)
    requires Sq(c) + Sq(s) == 1.0
    ensures CanBuildRay(c, s)
  {
    if Abs(c) <= EPSILON && Abs(s) <= EPSILON {
      SqMonotone(Abs(c), EPSILON);
      SqMonotone(Abs(s), EPSILON);
      assert false;
    }
  }

  // ------------------------------------------------------------ rectangles

  /** The interval of ray parameters still in play: Miss once it is empty. */
  datatype Span = Miss | Span(entry: real, exit: real)

  /** One slab step. A heading component below EPSILON with the origin
      outside the span is an immediate miss. A heading component of exactly
      zero with the origin inside the span leaves the interval unchanged:
      in the source the two divisions by zero give infinities (or NaN),
      and every comparison with them keeps the current bounds. */
  function SlabAxis(o: real, h: real, lo: real, hi: real, s: Span): (r: Span)
    ensures r.Span? ==> s.Span? && s.entry <= r.entry && r.exit <= s.exit && r.entry <= r.exit
    ensures Abs(h) < EPSILON && (o < lo || o > hi) ==> r.Miss?
    ensures r.Span? && h != 0.0 ==> r.exit <= Far(o, h, lo, hi)
  {
    if s.Miss? then Miss
    else if Abs(h) < EPSILON && (o < lo || o > hi) then Miss
    else if h == 0.0 then (if s.entry > s.exit then Miss else s)
    else
      var near := Near(o, h, lo, hi);
      var far := Far(o, h, lo, hi);
      var entry := if near > s.entry then near else s.entry;
      var exit := if far < s.exit then far else s.exit;
      if entry > exit then Miss else Span(entry, exit)
  }

  /** The ray parameters at which the ray crosses lo and hi, in order. */
  function Near(o: real, h: real, lo: real, hi: real): real
    requires h != 0.0
  {
    var a := (lo - o) / h;
    var b := (hi - o) / h;
    if a > b then b else a
  }

  function Far(o: real, h: real, lo: real, hi: real): real
    requires h != 0.0
  {
    var a := (lo - o) / h;
    var b := (hi - o) / h;
    if a > b then a else b
  }

  const FULL_SPAN: Span := Span(0.0, DOUBLE_MAX)

  /** Both slab steps, starting from [0, Double.MAX_VALUE]. */
  function RectSpan(ray: Ray, rect: Rectangle): (r: Span)
    ensures r.Span? ==> 0.0 <= r.entry <= r.exit <= DOUBLE_MAX
  {
    SlabAxis(ray.originY, ray.headingY, rect.y, rect.bottom,
      SlabAxis(ray.originX, ray.headingX, rect.x, rect.right, FULL_SPAN))
  }

  /** Ray.Intersects(Rectangle). Two ways to miss come before any
      crossing is compared: the EPSILON shortcut, a heading component below
      EPSILON with the origin outside that axis's span; and a rectangle
      wholly behind the origin along some axis, because the interval starts
      at 0. */
  function IntersectsRect(ray: Ray, rect: Rectangle): (hit: bool)
    ensures Abs(ray.headingX) < EPSILON && (ray.originX < rect.x || ray.originX > rect.right) ==> !hit
    ensures Abs(ray.headingY) < EPSILON && (ray.originY < rect.y || ray.originY > rect.bottom) ==> !hit
    ensures ray.headingX != 0.0 && Far(ray.originX, ray.headingX, rect.x, rect.right) < 0.0 ==> !hit
    ensures ray.headingY != 0.0 && Far(ray.originY, ray.headingY, rect.y, rect.bottom) < 0.0 ==> !hit
  {
    RectSpan(ray, rect).Span?
  }

  /** Ray.DistanceTo(Rectangle): the entry parameter, or the sentinel. */
  function DistanceToRect(ray: Ray, rect: Rectangle): (d: real)
    ensures 0.0 <= d <= DOUBLE_MAX
    ensures !IntersectsRect(ray, rect) ==> d == DOUBLE_MAX
  {
    var s := RectSpan(ray, rect);
    if s.Span? then s.entry else DOUBLE_MAX
  }

  /** The point the ray reaches at parameter t. */
  function PointX(ray: Ray, t: real): real
  {
    ray.originX + Mul(t, ray.headingX)
  }

  function PointY(ray: Ray, t: real): real
  {
    ray.originY + Mul(t, ray.headingY)
  }

  /** The ray parameter t lies in the slab [lo, hi] along one axis. */
  predicate InSlab(o: real, h: real, lo: real, hi: real, t: real)
  {
    lo <= o + Mul(t, h) <= hi
  }

  lemma MulSignPos(x: real, h: real)
    requires 0.0 < h
    ensures 0.0 <= Mul(x, h) <==> 0.0 <= x
  {
    if 0.0 < x {
      PosMul(x, h);
    } else if x < 0.0 {
      PosMul(-x, h);
    }
  }

  lemma MulSignNeg(x: real, h: real)
    requires h < 0.0
    ensures 0.0 <= Mul(x, h) <==> x <= 0.0
  {
    if 0.0 < x {
      PosMul(x, -h);
    } else if x < 0.0 {
      PosMul(-x, -h);
    }
  }

  /** Where o + t h stands relative to a bound c, read off the crossing
      parameter (c - o) / h. */
  lemma CrossingOrder(o: real, h: real, c: real, t: real)
    requires h != 0.0
    ensures 0.0 < h ==> ((c - o) / h <= t <==> c <= o + Mul(t, h))
    ensures 0.0 < h ==> (t <= (c - o) / h <==> o + Mul(t, h) <= c)
    ensures h < 0.0 ==> ((c - o) / h <= t <==> o + Mul(t, h) <= c)
    ensures h < 0.0 ==> (t <= (c - o) / h <==> c <= o + Mul(t, h))
  {
    var q := (c - o) / h;
    assert Mul(t - q, h) == o + Mul(t, h) - c by {
      assert q * h == c - o;
    }
    assert Mul(q - t, h) == c - (o + Mul(t, h));
    if 0.0 < h {
      MulSignPos(t - q, h);
      MulSignPos(q - t, h);
    } else {
      MulSignNeg(t - q, h);
      MulSignNeg(q - t, h);
    }
  }

  /** For a non-zero heading, the slab parameters are exactly [Near, Far]. */
  lemma InSlabIffBetween(o: real, h: real, lo: real, hi: real, t: real)
    requires h != 0.0 && lo <= hi
    ensures InSlab(o, h, lo, hi, t) <==> Near(o, h, lo, hi) <= t <= Far(o, h, lo, hi)
  {
    CrossingOrder(o, h, lo, t);
    CrossingOrder(o, h, hi, t);
    assert 0.0 < h ==> (lo - o) / h <= (hi - o) / h by {
      if 0.0 < h {
        CrossingOrder(o, h, lo, (hi - o) / h);
        CrossingOrder(o, h, hi, (hi - o) / h);
      }
    }
    assert h < 0.0 ==> (hi - o) / h <= (lo - o) / h by {
      if h < 0.0 {
        CrossingOrder(o, h, hi, (lo - o) / h);
        CrossingOrder(o, h, lo, (lo - o) / h);
      }
    }
  }

  /** Soundness of one slab step: every parameter left in play is inside
      this slab (the bounds must be ordered, as a well-formed rectangle's
      are). */
  lemma SlabSound(o: real, h: real, lo: real, hi: real, s: Span, t: real)
    requires lo <= hi
    requires SlabAxis(o, h, lo, hi, s).Span?
    requires SlabAxis(o, h, lo, hi, s).entry <= t <= SlabAxis(o, h, lo, hi, s).exit
    ensures InSlab(o, h, lo, hi, t)
  {
    if h == 0.0 {
      assert Mul(t, h) == 0.0;
    } else {
      InSlabIffBetween(o, h, lo, hi, t);
    }
  }

  /** Completeness of one slab step: a parameter in play that lies in the
      slab stays in play, provided the EPSILON shortcut cannot fire wrongly
      (the heading component is zero, or at least EPSILON, or the origin
      lies within the slab). */
  lemma SlabComplete(o: real, h: real, lo: real, hi: real, s: Span, t: real)
    requires lo <= hi
    requires s.Span? && s.entry <= t <= s.exit
    requires InSlab(o, h, lo, hi, t)
    requires h == 0.0 || EPSILON <= Abs(h) || lo <= o <= hi
    ensures SlabAxis(o, h, lo, hi, s).Span?
    ensures SlabAxis(o, h, lo, hi, s).entry <= t <= SlabAxis(o, h, lo, hi, s).exit
  {
    if h == 0.0 {
      assert Mul(t, h) == 0.0;
    } else {
      InSlabIffBetween(o, h, lo, hi, t);
    }
  }

  /** A hit is a real hit: at the returned distance the ray is inside the
      rectangle. */
  lemma DistanceToRectSound(ray: Ray, rect: Rectangle)
    requires WellFormed(rect)
    requires IntersectsRect(ray, rect)
    ensures Contains(rect, PointX(ray, DistanceToRect(ray, rect)), PointY(ray, DistanceToRect(ray, rect)))
  {
    var s1 := SlabAxis(ray.originX, ray.headingX, rect.x, rect.right, FULL_SPAN);
    var s2 := SlabAxis(ray.originY, ray.headingY, rect.y, rect.bottom, s1);
    var t := s2.entry;
    SlabSound(ray.originX, ray.headingX, rect.x, rect.right, FULL_SPAN, t);
    SlabSound(ray.originY, ray.headingY, rect.y, rect.bottom, s1, t);
  }

  /** Every parameter t in [0, Double.MAX_VALUE] at which the ray is inside
      the rectangle is found, and the distance is no larger than t; the
      heading components must each be zero or at least EPSILON (or the
      origin within that axis's span) for the shortcut not to fire. With
      DistanceToRectSound: the distance is the first parameter at which the
      ray is in the rectangle. */
  lemma DistanceToRectMinimal(ray: Ray, rect: Rectangle, t: real)
    requires WellFormed(rect)
    requires 0.0 <= t <= DOUBLE_MAX
    requires Contains(rect, PointX(ray, t), PointY(ray, t))
    requires ray.headingX == 0.0 || EPSILON <= Abs(ray.headingX) || rect.x <= ray.originX <= rect.right
    requires ray.headingY == 0.0 || EPSILON <= Abs(ray.headingY) || rect.y <= ray.originY <= rect.bottom
    ensures IntersectsRect(ray, rect)
    ensures DistanceToRect(ray, rect) <= t
  {
    var s1 := SlabAxis(ray.originX, ray.headingX, rect.x, rect.right, FULL_SPAN);
    SlabComplete(ray.originX, ray.headingX, rect.x, rect.right, FULL_SPAN, t);
    SlabComplete(ray.originY, ray.headingY, rect.y, rect.bottom, s1, t);
  }

  /** A ray starting inside the rectangle is at distance 0. */
  lemma OriginInsideDistanceZero(ray: Ray, rect: Rectangle)
    requires WellFormed(rect)
    requires Contains(rect, ray.originX, ray.originY)
    ensures IntersectsRect(ray, rect)
    ensures DistanceToRect(ray, rect) == 0.0
  {
    assert PointX(ray, 0.0) == ray.originX && PointY(ray, 0.0) == ray.originY;
    DistanceToRectMinimal(ray, rect, 0.0);
  }

  /** The sentinel is returned exactly on a miss, apart from a hit whose
      entry is Double.MAX_VALUE itself; a hit's distance is bounded by the
      exit parameter of each slab. */
  lemma DistanceToRectSentinel(ray: Ray, rect: Rectangle)
    ensures DistanceToRect(ray, rect) == DOUBLE_MAX
        <==> !IntersectsRect(ray, rect) || RectSpan(ray, rect).entry == DOUBLE_MAX
    ensures IntersectsRect(ray, rect) && ray.headingX != 0.0 ==>
              DistanceToRect(ray, rect) <= Far(ray.originX, ray.headingX, rect.x, rect.right)
    ensures IntersectsRect(ray, rect) && ray.headingY != 0.0 ==>
              DistanceToRect(ray, rect) <= Far(ray.originY, ray.headingY, rect.y, rect.bottom)
  {
  }

  // --------------------------------------------------------------- circles

  /** Ray.Intersects(Circle): a test on the line through the origin (the
      direction is ignored). With headingX exactly zero the source divides
      by zero and the comparison with the resulting infinity or NaN is
      false. A circle whose centre lies on that line is always hit. */
  function IntersectsCircle(ray: Ray, c: Circle): (hit: bool)
    ensures ray.headingX == 0.0 ==> !hit
    ensures ray.headingX != 0.0 && Mul(c.y - ray.originY, ray.headingX) == Mul(c.x - ray.originX, ray.headingY) ==> hit
  {
    if ray.headingX == 0.0 then false
    else
      var yDiff := ray.originY + ray.headingY * (c.x - ray.originX) / ray.headingX - c.y;
      SqNonNegative(c.radius);
      assert Mul(c.y - ray.originY, ray.headingX) == Mul(c.x - ray.originX, ray.headingY) ==>
        ray.headingY * (c.x - ray.originX) / ray.headingX == c.y - ray.originY;
      Sq(yDiff) <= Sq(c.radius)
  }

  /** The half-way parameter b and the discriminant of the ray/circle
      quadratic. */
  function CircleB(ray: Ray, c: Circle): real
  {
    -(ray.originX - c.x) * ray.headingX - (ray.originY - c.y) * ray.headingY
  }

  function CircleDet(ray: Ray, c: Circle): real
  {
    var b := CircleB(ray, c);
    Sq(b) - Sq(ray.originX - c.x) - Sq(ray.originY - c.y) + Sq(c.radius)
  }

  /** Ray.DistanceTo(Circle): the sentinel when the line pre-check fails or
      the discriminant is not positive; otherwise the nearer root b - s if
      it is not negative, and the farther root b + s if it is. */
  function DistanceToCircle(ray: Ray, c: Circle, sqrt: real -> real): (d: real)
    requires IsSqrt(sqrt)
    ensures !IntersectsCircle(ray, c) ==> d == DOUBLE_MAX
    ensures IntersectsCircle(ray, c) && CircleDet(ray, c) <= 0.0 ==> d == DOUBLE_MAX
    ensures IntersectsCircle(ray, c) && 0.0 < CircleDet(ray, c) ==>
              Sq(d - CircleB(ray, c)) == CircleDet(ray, c)
    ensures IntersectsCircle(ray, c) && 0.0 < CircleDet(ray, c)
            && 0.0 <= CircleB(ray, c) - sqrt(CircleDet(ray, c)) ==>
              d == CircleB(ray, c) - sqrt(CircleDet(ray, c))
    ensures IntersectsCircle(ray, c) && 0.0 < CircleDet(ray, c)
            && CircleB(ray, c) - sqrt(CircleDet(ray, c)) < 0.0 ==>
              d == CircleB(ray, c) + sqrt(CircleDet(ray, c))
  {
    if IntersectsCircle(ray, c) then
      var b := CircleB(ray, c);
      var det := CircleDet(ray, c);
      if det <= 0.0 then DOUBLE_MAX
      else
        var s := sqrt(det);
        assert Sq(-s) == Sq(s);
        var cache := b - s;
        if cache < 0.0 then b + s else cache
    else
      DOUBLE_MAX
  }

  /** For a unit heading, the ray is on the circle at parameter t exactly
      when (t - b)^2 equals the discriminant. */
  lemma OnCircleIffRoot(ray: Ray, c: Circle, t: real)
    requires Sq(ray.headingX) + Sq(ray.headingY) == 1.0
    ensures SqDist(PointX(ray, t), PointY(ray, t), c.x, c.y) == Sq(c.radius)
        <==> Sq(t - CircleB(ray, c)) == CircleDet(ray, c)
  {
    var xd := ray.originX - c.x;
    var yd := ray.originY - c.y;
    var hx := ray.headingX;
    var hy := ray.headingY;
    var b := CircleB(ray, c);
    assert PointX(ray, t) - c.x == xd + t * hx;
    assert PointY(ray, t) - c.y == yd + t * hy;
    assert Sq(xd + t * hx) + Sq(yd + t * hy)
        == Sq(xd) + Sq(yd) - 2.0 * t * b + Mul(Sq(t), Sq(hx) + Sq(hy));
    assert Sq(t - b) == Sq(t) - 2.0 * t * b + Sq(b);
  }

  /** A hit distance is where the ray meets the circle. */
  lemma DistanceToCircleOnCircle(ray: Ray, c: Circle, sqrt: real -> real)
    requires IsSqrt(sqrt)
    requires Sq(ray.headingX) + Sq(ray.headingY) == 1.0
    requires IntersectsCircle(ray, c) && 0.0 < CircleDet(ray, c)
    ensures var d := DistanceToCircle(ray, c, sqrt);
      SqDist(PointX(ray, d), PointY(ray, d), c.x, c.y) == Sq(c.radius)
  {
    OnCircleIffRoot(ray, c, DistanceToCircle(ray, c, sqrt));
  }

  lemma SqEqualCases(u: real, s: real)
    requires 0.0 <= s
    requires Sq(u) == Sq(s)
    ensures u == s || u == -s
  {
    if u < 0.0 {
      SqMonotone(-u, s);
      assert Sq(-u) == Sq(u);
    } else {
      SqMonotone(u, s);
    }
  }

  /** A non-negative hit distance is the first point ahead of the origin
      where the ray meets the circle. */
  lemma DistanceToCircleNearest(ray: Ray, c: Circle, sqrt: real -> real, t: real)
    requires IsSqrt(sqrt)
    requires Sq(ray.headingX) + Sq(ray.headingY) == 1.0
    requires IntersectsCircle(ray, c) && 0.0 < CircleDet(ray, c)
    requires 0.0 <= t
    requires SqDist(PointX(ray, t), PointY(ray, t), c.x, c.y) == Sq(c.radius)
    ensures DistanceToCircle(ray, c, sqrt) <= t
  {
    var b := CircleB(ray, c);
    var s := sqrt(CircleDet(ray, c));
    OnCircleIffRoot(ray, c, t);
    assert Sq(s) == CircleDet(ray, c);
    SqEqualCases(t - b, s);
  }

  /** If the ray meets the circle anywhere ahead of its origin, the hit
      distance is not negative. With DistanceToCircleNearest this makes it
      the first point ahead of the origin on the circle, so a circle around
      the origin is reported at its exit point rather than behind it. */
  lemma DistanceToCircleAhead(ray: Ray, c: Circle, sqrt: real -> real, t: real)
    requires IsSqrt(sqrt)
    requires Sq(ray.headingX) + Sq(ray.headingY) == 1.0
    requires IntersectsCircle(ray, c) && 0.0 < CircleDet(ray, c)
    requires 0.0 <= t
    requires SqDist(PointX(ray, t), PointY(ray, t), c.x, c.y) == Sq(c.radius)
    ensures 0.0 <= DistanceToCircle(ray, c, sqrt)
  {
    var b := CircleB(ray, c);
    var s := sqrt(CircleDet(ray, c));
    OnCircleIffRoot(ray, c, t);
    assert Sq(s) == CircleDet(ray, c);
    SqEqualCases(t - b, s);
  }

  // ----------------------------------------------------------------- bounds

  /** Ray.Intersects(CollisionBounds). */
  function IntersectsBounds(ray: Ray, b: Bounds): (r: bool)
    ensures b.Circ? ==> r == IntersectsCircle(ray, b.circle)
    ensures b.Rect? ==> r == IntersectsRect(ray, b.rect)
  {
    match b
    case Circ(c) => IntersectsCircle(ray, c)
    case Rect(rect) => IntersectsRect(ray, rect)
  }

  /** Ray.DistanceTo(CollisionBounds). */
  function DistanceTo(ray: Ray, b: Bounds, sqrt: real -> real): (d: real)
    requires IsSqrt(sqrt)
    ensures b.Circ? ==> d == DistanceToCircle(ray, b.circle, sqrt)
    ensures b.Rect? ==> d == DistanceToRect(ray, b.rect)
  {
    match b
    case Circ(c) => DistanceToCircle(ray, c, sqrt)
    case Rect(rect) => DistanceToRect(ray, rect)
  }
}

=== FILE: sensors.dfy ===
/** Sensors: the polling timer every sensor shares, the bumper that latches
    collisions, and the distance and colour sensors that cast a ray from
    the robot's centre and look for the nearest body in front of it. The
    heading's cosine and sine are supplied by the caller: the sensors'
    rotation caches are not modelled. */
module Sensors {
  import opened Numerics
  import opened Bounds
  import opened Rays
  import opened Bodies
  import opened Collision

  // ------------------------------------------------------------------ timer

  /** Sensor: the polling interval and the time left until the next poll. */
  datatype Timer = Timer(interval: real, timeLeft: real)

  /** A negative interval becomes 0; the first poll is due at once. */
  function NewTimer(interval: real): (t: Timer)
    ensures t.interval >= 0.0
    ensures interval >= 0.0 ==> t.interval == interval
    ensures t.timeLeft == 0.0
  {
    Timer(if interval < 0.0 then 0.0 else interval, 0.0)
  }

  /** Sensor.Update: dt is taken off the time left; if that runs out the
      timer is rewound to the interval and the sensor polls, otherwise dt
      is taken off a second time. The boolean says whether it polled. */
  function Tick(t: Timer, dt: real): (r: (Timer, bool))
    ensures r.1 <==> t.timeLeft - dt <= 0.0
    ensures r.1 ==> r.0.timeLeft == t.interval
    ensures !r.1 ==> r.0.timeLeft == t.timeLeft - 2.0 * dt
    ensures r.0.interval == t.interval
    ensures dt >= 0.0 && t.timeLeft <= t.interval ==> r.0.timeLeft <= r.0.interval
  {
    var left := t.timeLeft - dt;
    if left <= 0.0 then (t.(timeLeft := t.interval), true)
    else (t.(timeLeft := left - dt), false)
  }

  /** The first update of a new sensor polls, unless time runs backwards. */
  lemma FirstTickPolls(interval: real, dt: real)
    requires dt >= 0.0
    ensures Tick(NewTimer(interval), dt).1
  {
  }

  /** Whether each of a run of updates polled. */
  function Ticks(t: Timer, dts: seq<real>): (r: (Timer, seq<bool>))
    ensures |r.1| == |dts|
    ensures r.0.interval == t.interval
    decreases |dts|
  {
    if |dts| == 0 then (t, [])
    else
      var step := Tick(t, dts[0]);
      var rest := Ticks(step.0, dts[1..]);
      (rest.0, [step.1] + rest.1)
  }

  /** A sensor with interval 0 polls on every update. */
  lemma {:induction false} ZeroIntervalPollsEveryTick(t: Timer, dts: seq<real>)
    requires t.interval == 0.0 && t.timeLeft <= 0.0
    requires forall i :: 0 <= i < |dts| ==> dts[i] >= 0.0
    ensures forall i :: 0 <= i < |dts| ==> Ticks(t, dts).1[i]
    decreases |dts|
  {
    if |dts| > 0 {
      var step := Tick(t, dts[0]);
      assert forall i :: 0 <= i < |dts| - 1 ==> dts[1..][i] == dts[i + 1];
      ZeroIntervalPollsEveryTick(step.0, dts[1..]);
      var rest := Ticks(step.0, dts[1..]);
      assert Ticks(t, dts).1 == [true] + rest.1;
    }
  }

  /** The time left never exceeds the interval when time moves forward. */
  lemma {:induction false} TimeLeftWithinInterval(t: Timer, dts: seq<real>)
    requires t.timeLeft <= t.interval
    requires forall i :: 0 <= i < |dts| ==> dts[i] >= 0.0
    ensures Ticks(t, dts).0.timeLeft <= t.interval
    decreases |dts|
  {
    if |dts| > 0 {
      assert forall i :: 0 <= i < |dts| - 1 ==> dts[1..][i] == dts[i + 1];
      TimeLeftWithinInterval(Tick(t, dts[0]).0, dts[1..]);
    }
  }

  // ----------------------------------------------------------------- bumper

  /** BumperSensor: the timer, the latch set by collision notices, and the
      last reading. */
  datatype Bumper = Bumper(timer: Timer, latch: bool, data: bool)

  /** The constructor subscribes the sensor, as listener `me`, to its
      robot's body. */
  function NewBumper(interval: real, b: Body, me: ListenerId): (r: (Bumper, Body))
    ensures r.0 == Bumper(NewTimer(interval), false, false)
    ensures |r.1.listeners| == |b.listeners| + 1 && r.1.listeners[|b.listeners|] == me
    ensures r.1 == b.(listeners := r.1.listeners)
  {
    (Bumper(NewTimer(interval), false, false), RegisterListener(b, me))
  }

  /** NotifyOfCollision: a collision with anything but a Ghost sets the
      latch. */
  function Notice(s: Bumper, other: Body): (r: Bumper)
    ensures r.latch <==> s.latch || other.kind != Ghost
    ensures r == s.(latch := r.latch)
  {
    if other.kind != Ghost then s.(latch := true) else s
  }

  /** Poll: a latched collision is reported once and the latch cleared;
      otherwise the body's flag from the last update is reported. */
  function Poll(s: Bumper, b: Body): (r: Bumper)
    ensures r.data <==> s.latch || b.collided
    ensures !r.latch
    ensures r.timer == s.timer
  {
    if s.latch then s.(data := s.latch, latch := false)
    else s.(data := b.collided)
  }

  /** A non-Ghost collision noticed between two polls is reported by the
      next poll even if the body's own flag has been cleared since. */
  lemma NoticeThenPoll(s: Bumper, other: Body, b: Body)
    requires other.kind != Ghost
    ensures Poll(Notice(s, other), b).data
    ensures !Poll(Poll(Notice(s, other), b), b.(collided := false)).data
  {
  }

  /** Update of a bumper: the timer decides whether to poll. */
  function BumperUpdate(s: Bumper, b: Body, dt: real): (r: Bumper)
    ensures r.timer == Tick(s.timer, dt).0
    ensures Tick(s.timer, dt).1 ==> !r.latch && (r.data <==> s.latch || b.collided)
    ensures !Tick(s.timer, dt).1 ==> r.latch == s.latch && r.data == s.data
  {
    var step := Tick(s.timer, dt);
    if step.1 then Poll(s.(timer := step.0), b) else s.(timer := step.0)
  }

  /** Every body an event names as the other party is known. */
  predicate OthersKnown(es: seq<Event>, heap: Heap)
  {
    forall i :: 0 <= i < |es| ==> es[i].other in heap
  }

  /** The bumper `me` receiving its share of a sequence of listener calls. */
  function Deliver(s: Bumper, me: ListenerId, es: seq<Event>, heap: Heap): (r: Bumper)
    requires OthersKnown(es, heap)
    ensures r.timer == s.timer && r.data == s.data
    decreases |es|
  {
    if |es| == 0 then s
    else
      assert OthersKnown(es[1..], heap) by {
        assert forall i :: 0 <= i < |es| - 1 ==> es[1..][i] == es[i + 1];
      }
      var s' := if es[0].listener == me then Notice(s, heap[es[0].other]) else s;
      Deliver(s', me, es[1..], heap)
  }

  /** The latch is set after the calls exactly when it was set before or
      one of the calls to this bumper names a body that is not a Ghost. */
  lemma {:induction false} DeliverLatches(s: Bumper, me: ListenerId, es: seq<Event>, heap: Heap)
    requires OthersKnown(es, heap)
    ensures Deliver(s, me, es, heap).latch <==>
              s.latch || exists i :: 0 <= i < |es| && es[i].listener == me && heap[es[i].other].kind != Ghost
    decreases |es|
  {
    if |es| > 0 {
      assert OthersKnown(es[1..], heap) by {
        assert forall i :: 0 <= i < |es| - 1 ==> es[1..][i] == es[i + 1];
      }
      var s' := if es[0].listener == me then Notice(s, heap[es[0].other]) else s;
      DeliverLatches(s', me, es[1..], heap);
      if exists i :: 0 <= i < |es| && es[i].listener == me && heap[es[i].other].kind != Ghost {
        var i :| 0 <= i < |es| && es[i].listener == me && heap[es[i].other].kind != Ghost;
        if i > 0 {
          assert es[1..][i - 1] == es[i];
        }
      }
    }
  }

  /** A bumper subscribed to a body that collides with a non-Ghost body
      latches the collision once the collision's listener calls reach it. */
  lemma BumperSeesCollision(s: Bumper, me: ListenerId, a: Body, b: Body, aId: BodyId, bId: BodyId,
                            e: real, sqrt: real -> real, heap: Heap)
    requires IsSqrt(sqrt)
    requires MassPositive(a) && MassPositive(b)
    requires aId in heap && bId in heap && heap[bId].kind == b.kind
    requires me in a.listeners && b.kind != Ghost
    requires Intersects(a.bounds, b.bounds)
    requires Collide(a, b, aId, bId, e, sqrt).Ok?
    ensures OthersKnown(Collide(a, b, aId, bId, e, sqrt).value.events, heap)
    ensures Deliver(s, me, Collide(a, b, aId, bId, e, sqrt).value.events, heap).latch
  {
    var es := Collide(a, b, aId, bId, e, sqrt).value.events;
    var first := Events(a.listeners, aId, bId);
    assert es == first + Events(b.listeners, bId, aId);
    assert OthersKnown(es, heap);
    var j :| 0 <= j < |a.listeners| && a.listeners[j] == me;
    assert es[j] == first[j] == Event(me, aId, bId);
    DeliverLatches(s, me, es, heap);
  }

  // ------------------------------------------------------- nearest-hit scans

  /** Double.MAX_VALUE is the "nothing in front" reading. */
  const NOTHING_DETECTED: real := DOUBLE_MAX

  /** The colour reported when nothing is in front. */
  const NO_OBJECT_DETECTED_COLOR := Color(0, 0, 0, 0)

  /** Entry i counts as a hit: eligible, and a distance the scan accepts. */
  predicate Hit(ds: seq<real>, ok: seq<bool>, i: int)
    requires |ds| == |ok| && 0 <= i < |ds|
  {
    ok[i] && 0.0 <= ds[i] && ds[i] < DOUBLE_MAX
  }

  /** The scan shared by both sensors: a running minimum starting at
      Double.MAX_VALUE, replaced only by a strictly smaller non-negative
      distance of an eligible entry. Returns the minimum and the index of
      the first entry attaining it, or -1. */
  method NearestHit(ds: seq<real>, ok: seq<bool>) returns (best: real, index: int)
    requires |ds| == |ok|
    ensures -1 <= index < |ds|
    ensures index == -1 <==> forall i :: 0 <= i < |ds| ==> !Hit(ds, ok, i)
    ensures index == -1 ==> best == NOTHING_DETECTED
    ensures index >= 0 ==> Hit(ds, ok, index) && best == ds[index]
    ensures forall i :: 0 <= i < |ds| && ok[i] && 0.0 <= ds[i] ==> best <= ds[i]
    ensures index >= 0 ==> forall i :: 0 <= i < index && ok[i] && 0.0 <= ds[i] ==> best < ds[i]
  {
    best := DOUBLE_MAX;
    index := -1;
    var k := 0;
    while k < |ds|
      invariant 0 <= k <= |ds|
      invariant -1 <= index < k
      invariant index == -1 <==> forall i :: 0 <= i < k ==> !Hit(ds, ok, i)
      invariant index == -1 ==> best == DOUBLE_MAX
      invariant best <= DOUBLE_MAX
      invariant index >= 0 ==> Hit(ds, ok, index) && best == ds[index]
      invariant forall i :: 0 <= i < k && ok[i] && 0.0 <= ds[i] ==> best <= ds[i]
      invariant index >= 0 ==> forall i :: 0 <= i < index && ok[i] && 0.0 <= ds[i] ==> best < ds[i]
    {
      if ok[k] && ds[k] < best && ds[k] >= 0.0 {
        assert Hit(ds, ok, k);
        best := ds[k];
        index := k;
      } else if index == -1 {
        assert !Hit(ds, ok, k);
      }
      k := k + 1;
    }
  }

  /** Every listed identity has a body. */
  predicate Listed(heap: Heap, ids: seq<BodyId>)
  {
    forall i :: 0 <= i < |ids| ==> ids[i] in heap
  }

  /** A scan looks at every body but the robot's own and the Ghosts. */
  function Eligibility(heap: Heap, self: BodyId, ids: seq<BodyId>): (ok: seq<bool>)
    requires Listed(heap, ids)
    ensures |ok| == |ids|
    ensures forall i :: 0 <= i < |ids| ==> (ok[i] <==> ids[i] != self && heap[ids[i]].kind != Ghost)
  {
    seq(|ids|, i requires 0 <= i < |ids| => ids[i] != self && heap[ids[i]].kind != Ghost)
  }

  /** Ray.DistanceTo of every listed body. */
  function Distances(ray: Ray, heap: Heap, ids: seq<BodyId>, sqrt: real -> real): (ds: seq<real>)
    requires IsSqrt(sqrt) && Listed(heap, ids)
    ensures |ds| == |ids|
    ensures forall i :: 0 <= i < |ids| ==> ds[i] == DistanceTo(ray, heap[ids[i]].bounds, sqrt)
  {
    seq(|ids|, i requires 0 <= i < |ids| => DistanceTo(ray, heap[ids[i]].bounds, sqrt))
  }

  /** The sensor's ray starts at the centre of the robot's shape and points
      along the unit heading (cos, sin). */
  function SensorRay(b: Body, cos: real, sin: real, sqrt: real -> real): (ray: Ray)
    requires IsSqrt(sqrt) && Sq(cos) + Sq(sin) == 1.0
    ensures ray.originX == CentreX(b.bounds) && ray.originY == CentreY(b.bounds)
    ensures b.bounds.Rect? ==> ray.originX == b.bounds.rect.x + b.bounds.rect.width / 2.0
    ensures b.bounds.Circ? ==> ray.originX == b.bounds.circle.x && ray.originY == b.bounds.circle.y
    ensures Sq(ray.headingX) + Sq(ray.headingY) == 1.0
    ensures Mul(ray.headingX, Snap(sin)) == Mul(ray.headingY, Snap(cos))
    ensures 0.0 < Mul(ray.headingX, Snap(cos)) + Mul(ray.headingY, Snap(sin))
    ensures EPSILON < Abs(cos) && EPSILON < Abs(sin) ==> ray.headingX == cos && ray.headingY == sin
  {
    UnitHeadingBuildable(cos, sin);
    NewRay(CentreX(b.bounds), CentreY(b.bounds), cos, sin, sqrt)
  }

  /** DistanceSensor.Poll: the distance to the nearest eligible body in
      front of the robot, or Double.MAX_VALUE. */
  method DistancePoll(heap: Heap, self: BodyId, ids: seq<BodyId>, cos: real, sin: real, sqrt: real -> real)
    returns (data: real)
    requires IsSqrt(sqrt) && Sq(cos) + Sq(sin) == 1.0
    requires self in heap && Listed(heap, ids)
    ensures var ds := Distances(SensorRay(heap[self], cos, sin, sqrt), heap, ids, sqrt);
            var ok := Eligibility(heap, self, ids);
            && (forall i :: 0 <= i < |ids| && ok[i] && 0.0 <= ds[i] ==> data <= ds[i])
            && ((forall i :: 0 <= i < |ids| ==> !Hit(ds, ok, i)) ==> data == NOTHING_DETECTED)
            && (data == NOTHING_DETECTED || exists i :: 0 <= i < |ids| && Hit(ds, ok, i) && data == ds[i])
  {
    var ray := SensorRay(heap[self], cos, sin, sqrt);
    var ds := Distances(ray, heap, ids, sqrt);
    var ok := Eligibility(heap, self, ids);
    var index;
    data, index := NearestHit(ds, ok);
  }

  /** ColorSensor.Poll: the colour of the first listed eligible body at the
      smallest distance in front of the robot, or the no-object colour. */
  method ColorPoll(heap: Heap, self: BodyId, ids: seq<BodyId>, cos: real, sin: real, sqrt: real -> real)
    returns (data: Color)
    requires IsSqrt(sqrt) && Sq(cos) + Sq(sin) == 1.0
    requires self in heap && Listed(heap, ids)
    ensures var ds := Distances(SensorRay(heap[self], cos, sin, sqrt), heap, ids, sqrt);
            var ok := Eligibility(heap, self, ids);
            && ((forall i :: 0 <= i < |ids| ==> !Hit(ds, ok, i)) ==> data == NO_OBJECT_DETECTED_COLOR)
            && ((exists i :: 0 <= i < |ids| && Hit(ds, ok, i)) ==>
                  exists i :: 0 <= i < |ids| && Hit(ds, ok, i) && data == heap[ids[i]].color
                    && (forall j :: 0 <= j < |ids| && ok[j] && 0.0 <= ds[j] ==> ds[i] <= ds[j])
                    && (forall j :: 0 <= j < i && ok[j] && 0.0 <= ds[j] ==> ds[i] < ds[j]))
  {
    var ray := SensorRay(heap[self], cos, sin, sqrt);
    var ds := Distances(ray, heap, ids, sqrt);
    var ok := Eligibility(heap, self, ids);
    var best, index := NearestHit(ds, ok);
    if index >= 0 {
      data := heap[ids[index]].color;
    } else {
      data := NO_OBJECT_DETECTED_COLOR;
    }
  }
}

=== FILE: seqs.dfy ===
/** Sequence helpers for the Java lists of the simulator: ArrayList.add
    appends, ArrayList.remove(Object) drops the first equal element only. */
module Seqs {

  /** Position of the first occurrence of x in s. */
  function IndexOf<T(==)>(s: seq<T>, x: T): (i: nat)
    requires x in s
    ensures i < |s| && s[i] == x
    ensures x !in s[..i]
  {
    if s[0] == x then 0
    else
      assert s == [s[0]] + s[1..];
      var j := IndexOf(s[1..], x);
      assert s[..j + 1] == [s[0]] + s[1..][..j];
      j + 1
  }

  /** List.remove(Object): the first occurrence of x is dropped, if any. */
  function RemoveFirst<T(==)>(s: seq<T>, x: T): (r: seq<T>)
    ensures x !in s ==> r == s
    ensures x in s ==> |r| == |s| - 1
  {
    if |s| == 0 then s
    else if s[0] == x then s[1..]
    else [s[0]] + RemoveFirst(s[1..], x)
  }

  /** As a bag, the result is the input less one copy of x. */
  lemma {:induction false} RemoveFirstMultiset<T>(s: seq<T>, x: T)
    ensures multiset(RemoveFirst(s, x)) == multiset(s) - multiset{x}
  {
    if |s| > 0 {
      assert s == [s[0]] + s[1..];
      if s[0] != x {
        RemoveFirstMultiset(s[1..], x);
      }
    }
  }

  /** Exactly the element at the first occurrence is the one dropped: the
      part before it and the part after it are kept in order. */
  lemma {:induction false} RemoveFirstAtFirstIndex<T>(s: seq<T>, x: T)
    requires x in s
    ensures RemoveFirst(s, x) == s[..IndexOf(s, x)] + s[IndexOf(s, x) + 1..]
  {
    if s[0] != x {
      assert s == [s[0]] + s[1..];
      assert x in s[1..];
      RemoveFirstAtFirstIndex(s[1..], x);
      var j := IndexOf(s[1..], x);
      assert IndexOf(s, x) == j + 1;
      assert s[..j + 1] == [s[0]] + s[1..][..j];
      assert s[j + 2..] == s[1..][j + 1..];
    }
  }

  /** Removing an element that was just appended, and is not otherwise
      present, gives back the original list. */
  lemma {:induction false} RemoveFirstUndoesAppend<T>(s: seq<T>, x: T)
    requires x !in s
    ensures RemoveFirst(s + [x], x) == s
  {
    if |s| > 0 {
      assert (s + [x])[1..] == s[1..] + [x];
      assert x !in s[1..];
      RemoveFirstUndoesAppend(s[1..], x);
      assert s == [s[0]] + s[1..];
    }
  }

  /** The elements of s other than x, in their original order. */
  function Without<T(==,!new)>(s: seq<T>, x: T): (r: seq<T>)
    ensures x !in r
    ensures forall y :: y in r <==> y in s && y != x
    ensures forall y :: y != x ==> multiset(r)[y] == multiset(s)[y]
    ensures |r| <= |s|
  {
    if |s| == 0 then []
    else
      assert s == [s[0]] + s[1..];
      var rest := Without(s[1..], x);
      if s[0] == x then rest else [s[0]] + rest
  }
}

=== FILE: shapes.dfy ===
/** The two collision shapes, Circle and Rectangle, with their overlap
    tests and the "nudge" moves that push one shape out of another until
    the two just touch.

    Both Java classes refer to each other, so they share one module. A
    rectangle carries its cached right and bottom edges as ordinary fields;
    `EdgesCached` says when the cache agrees with x + width and y + height. */
module Shapes {
  import opened Numerics

  datatype Circle = Circle(x: real, y: real, radius: real)

  datatype Rectangle = Rectangle(x: real, y: real, width: real, height: real, right: real, bottom: real)

  /** The right/bottom cache agrees with the position and size. */
  predicate EdgesCached(r: Rectangle)
  {
    r.right == r.x + r.width && r.bottom == r.y + r.height
  }

  /** What the constructor and the setters establish: a sound cache and a
      non-negative size. */
  predicate WellFormed(r: Rectangle)
  {
    EdgesCached(r) && 0.0 <= r.width && 0.0 <= r.height
  }

  /** The point (px, py) lies in the closed rectangle spanned by the edges. */
  predicate Contains(r: Rectangle, px: real, py: real)
  {
    r.x <= px <= r.right && r.y <= py <= r.bottom
  }

  // ---------------------------------------------------------------- Circle

  /** The no-argument constructor. */
  function DefaultCircle(): (c: Circle)
    ensures c.x == 0.0 && c.y == 0.0 && c.radius == 0.0
  {
    Circle(0.0, 0.0, 0.0)
  }

  /** A negative radius is clamped to 0. */
  function NewCircle(x: real, y: real, radius: real): (c: Circle)
    ensures c.x == x && c.y == y
    ensures 0.0 <= c.radius
    ensures radius < 0.0 ==> c.radius == 0.0
    ensures 0.0 <= radius ==> c.radius == radius
  {
    Circle(x, y, if radius < 0.0 then 0.0 else radius)
  }

  /** Circle.Intersects(Circle): the centres are at most the summed radii
      apart. Circles with the same centre overlap whatever their radii; in
      particular every circle overlaps itself. */
  function CircleIntersectsCircle(a: Circle, b: Circle): (hit: bool)
    ensures a.x == b.x && a.y == b.y ==> hit
  {
    SqNonNegative(a.radius + b.radius);
    SqDist(b.x, b.y, a.x, a.y) <= Sq(a.radius + b.radius)
  }

  lemma CircleIntersectsCircleSymmetric(a: Circle, b: Circle)
    ensures CircleIntersectsCircle(a, b) == CircleIntersectsCircle(b, a)
  {
    assert Sq(b.x - a.x) == Sq(a.x - b.x);
    assert Sq(b.y - a.y) == Sq(a.y - b.y);
    assert Sq(a.radius + b.radius) == Sq(b.radius + a.radius);
  }

  /** The closest point of the rectangle to (px, py): each coordinate
      clamped to the rectangle's edges. */
  function NearestX(r: Rectangle, px: real): real
  {
    Clamp(px, r.x, r.right)
  }

  function NearestY(r: Rectangle, py: real): real
  {
    Clamp(py, r.y, r.bottom)
  }

  /** Circle.Intersects(Rectangle): the nearest point of the rectangle is
      within the radius of the centre. A circle whose centre lies in the
      rectangle overlaps it whatever its radius, since the nearest point is
      the centre itself. */
  function CircleIntersectsRect(c: Circle, r: Rectangle): (hit: bool)
    ensures Contains(r, c.x, c.y) ==> hit
  {
    SqNonNegative(c.radius);
    SqDist(c.x, c.y, NearestX(r, c.x), NearestY(r, c.y)) <= Sq(c.radius)
  }

  /** Rectangle.Intersects(Circle) evaluates the same test from the
      rectangle's side, and decides exactly as Circle.Intersects(Rectangle). */
  function RectIntersectsCircle(r: Rectangle, c: Circle): (hit: bool)
    ensures hit == CircleIntersectsRect(c, r)
  {
    var px := Clamp(c.x, r.x, r.right);
    var py := Clamp(c.y, r.y, r.bottom);
    Sq(c.x - px) + Sq(c.y - py) <= Sq(c.radius)
  }

  /** Clamping to [lo, hi] gives the point of the interval closest to v. */
  lemma ClampNearest(v: real, lo: real, hi: real, p: real)
    requires lo <= p <= hi
    ensures Sq(v - Clamp(v, lo, hi)) <= Sq(v - p)
  {
    var c := Clamp(v, lo, hi);
    if v < lo {
      SqMonotone(lo - v, p - v);
      assert Sq(v - c) == Sq(lo - v);
      assert Sq(v - p) == Sq(p - v);
    } else if v > hi {
      SqMonotone(v - hi, v - p);
    } else {
      SqNonNegative(v - p);
    }
  }

  /** The clamp test means what it is meant to: the circle overlaps the
      (well-formed) rectangle exactly when some point of the rectangle lies
      within the radius of the centre. */
  lemma CircleIntersectsRectIffNearPoint(c: Circle, r: Rectangle)
    requires WellFormed(r)
    ensures CircleIntersectsRect(c, r)
        <==> exists px, py :: Contains(r, px, py) && SqDist(c.x, c.y, px, py) <= Sq(c.radius)
  {
    var nx := NearestX(r, c.x);
    var ny := NearestY(r, c.y);
    assert Contains(r, nx, ny);
    forall px, py | Contains(r, px, py)
      ensures SqDist(c.x, c.y, nx, ny) <= SqDist(c.x, c.y, px, py)
    {
      ClampNearest(c.x, r.x, r.right, px);
      ClampNearest(c.y, r.y, r.bottom, py);
    }
  }

  /** Circle.Nudge(Circle): moves this circle along the line of centres
      until the two just touch. The source divides by the centre distance,
      so the centres must differ. The other circle is not changed. */
  function NudgeCircle(c: Circle, other: Circle, sqrt: real -> real): (r: Circle)
    requires IsSqrt(sqrt)
    requires c.x != other.x || c.y != other.y
    ensures r.radius == c.radius
    ensures SqDist(r.x, r.y, other.x, other.y) == Sq(c.radius + other.radius)
  {
    var xDiff := c.x - other.x;
    var yDiff := c.y - other.y;
    SqDistZero(c.x, c.y, other.x, other.y);
    SqNonNegative(xDiff);
    SqNonNegative(yDiff);
    var mag := sqrt(SqDist(c.x, c.y, other.x, other.y));
    SqrtOfPositive(sqrt, SqDist(c.x, c.y, other.x, other.y));
    RescaledDistance(other.x, other.y, xDiff, yDiff, mag, c.radius + other.radius);
    Circle(Rescaled(other.x, xDiff, mag, c.radius + other.radius),
           Rescaled(other.y, yDiff, mag, c.radius + other.radius),
           c.radius)
  }

  /** The point o + diff * (sum / mag): o's offset diff rescaled from length
      mag to length sum. */
  function Rescaled(o: real, diff: real, mag: real, sum: real): real
    requires mag != 0.0
  {
    o + diff / mag * sum
  }

  /** The nudge moves the circle along the line through the two centres and
      keeps it on its own side of the other centre: the new offset from the
      other centre is the old offset scaled by (r1 + r2) / distance, so it
      is parallel to the old one and, for a positive radii sum, points the
      same way. */
  lemma NudgeCircleAlongCentres(c: Circle, other: Circle, sqrt: real -> real)
    requires IsSqrt(sqrt)
    requires c.x != other.x || c.y != other.y
    ensures var r := NudgeCircle(c, other, sqrt);
            Mul(r.x - other.x, c.y - other.y) == Mul(r.y - other.y, c.x - other.x)
    ensures var r := NudgeCircle(c, other, sqrt);
            0.0 < c.radius + other.radius ==>
              0.0 < Mul(r.x - other.x, c.x - other.x) + Mul(r.y - other.y, c.y - other.y)
    ensures var r := NudgeCircle(c, other, sqrt);
            c.radius + other.radius == 0.0 ==> r.x == other.x && r.y == other.y
  {
    var r := NudgeCircle(c, other, sqrt);
    var k := NudgeFactor(c, other, sqrt);
    SqDistZero(c.x, c.y, other.x, other.y);
    ParallelOffset(r.x - other.x, r.y - other.y, c.x - other.x, c.y - other.y, k, c.radius + other.radius);
  }

  /** An offset (px, py) that is (xd, yd) scaled by k is parallel to it;
      it points the same way when k is positive and vanishes when k is 0. */
  lemma ParallelOffset(px: real, py: real, xd: real, yd: real, k: real, sum: real)
    requires px == Mul(xd, k) && py == Mul(yd, k)
    requires 0.0 < Sq(xd) + Sq(yd)
    requires 0.0 < sum ==> 0.0 < k
    requires sum == 0.0 ==> k == 0.0
    ensures Mul(px, yd) == Mul(py, xd)
    ensures 0.0 < sum ==> 0.0 < Mul(px, xd) + Mul(py, yd)
    ensures sum == 0.0 ==> px == 0.0 && py == 0.0
  {
    ScaledOffset(px, py, xd, yd, k, Sq(xd) + Sq(yd));
    if 0.0 < sum {
      PosMul(k, Sq(xd) + Sq(yd));
    }
  }

  /** The factor by which the nudge rescales the offset between the centres:
      (r1 + r2) / distance, positive exactly when the radii sum is. */
  lemma NudgeFactor(c: Circle, other: Circle, sqrt: real -> real) returns (k: real)
    requires IsSqrt(sqrt)
    requires c.x != other.x || c.y != other.y
    ensures NudgeCircle(c, other, sqrt).x - other.x == Mul(c.x - other.x, k)
    ensures NudgeCircle(c, other, sqrt).y - other.y == Mul(c.y - other.y, k)
    ensures 0.0 < c.radius + other.radius ==> 0.0 < k
    ensures c.radius + other.radius == 0.0 ==> k == 0.0
  {
    var d := SqDist(c.x, c.y, other.x, other.y);
    SqDistZero(c.x, c.y, other.x, other.y);
    SqNonNegative(c.x - other.x);
    SqNonNegative(c.y - other.y);
    var mag := sqrt(d);
    SqrtOfPositive(sqrt, d);
    var sum := c.radius + other.radius;
    k := sum / mag;
    RescaledOffset(other.x, c.x - other.x, mag, sum);
    RescaledOffset(other.y, c.y - other.y, mag, sum);
  }

  /** Rescaling both coordinates of an offset of length mag gives a point
      at distance sum. */
  lemma RescaledDistance(ox: real, oy: real, dx: real, dy: real, mag: real, sum: real)
    requires 0.0 < mag && Sq(mag) == Sq(dx) + Sq(dy)
    ensures SqDist(Rescaled(ox, dx, mag, sum), Rescaled(oy, dy, mag, sum), ox, oy) == Sq(sum)
  {
    ScaledLength(dx, dy, mag, sum);
    RescaledOffset(ox, dx, mag, sum);
    RescaledOffset(oy, dy, mag, sum);
  }

  lemma RescaledOffset(o: real, diff: real, mag: real, sum: real)
    requires 0.0 < mag
    ensures Rescaled(o, diff, mag, sum) - o == diff / mag * sum
    ensures Rescaled(o, diff, mag, sum) - o == diff * (sum / mag)
    ensures Rescaled(o, diff, mag, sum) - o == Mul(diff, sum / mag)
  {
  }

  lemma ScaledOffset(px: real, py: real, xd: real, yd: real, k: real, d: real)
    requires px == xd * k && py == yd * k
    requires d == Sq(xd) + Sq(yd)
    ensures Mul(px, yd) == Mul(py, xd)
    ensures Mul(px, xd) + Mul(py, yd) == Mul(k, d)
  {
  }

  /** After the nudge the two circles touch, so they still count as
      intersecting. */
  lemma NudgeCircleTouches(c: Circle, other: Circle, sqrt: real -> real)
    requires IsSqrt(sqrt)
    requires c.x != other.x || c.y != other.y
    ensures CircleIntersectsCircle(NudgeCircle(c, other, sqrt), other)
    ensures CircleIntersectsCircle(other, NudgeCircle(c, other, sqrt))
  {
    var r := NudgeCircle(c, other, sqrt);
    assert SqDist(other.x, other.y, r.x, r.y) == SqDist(r.x, r.y, other.x, other.y) by {
      assert Sq(other.x - r.x) == Sq(r.x - other.x);
      assert Sq(other.y - r.y) == Sq(r.y - other.y);
    }
    CircleIntersectsCircleSymmetric(r, other);
  }

  /** The factor radius / |(dX, dY)| by which both circle/rectangle nudges
      rescale the offset between a centre and its nearest point. Scaling a
      non-zero offset by it gives an offset of length |radius|. */
  function NudgeRatio(dX: real, dY: real, radius: real, sqrt: real -> real): (mult: real)
    requires IsSqrt(sqrt)
    requires dX != 0.0 || dY != 0.0
    ensures 0.0 <= radius ==> 0.0 <= mult
    ensures Sq(Mul(dX, mult)) + Sq(Mul(dY, mult)) == Sq(radius)
  {
    SqDistZero(dX, dY, 0.0, 0.0);
    SqNonNegative(dX);
    SqNonNegative(dY);
    var m := sqrt(Sq(dX) + Sq(dY));
    SqrtOfPositive(sqrt, Sq(dX) + Sq(dY));
    assert dX * (radius / m) == dX / m * radius;
    assert dY * (radius / m) == dY / m * radius;
    ScaledLength(dX, dY, m, radius);
    radius / m
  }

  /** The coordinate v moved by d * mult - d: its offset d from a fixed
      point is scaled by mult. */
  function Stretch(v: real, d: real, mult: real): real
  {
    v + (d * mult - d)
  }

  lemma StretchOffset(v: real, p: real, mult: real)
    ensures Stretch(v, v - p, mult) - p == Mul(v - p, mult)
  {
  }

  /** A point p carried along with a coordinate o stretched by p's offset
      from q ends at that offset times mult from q. */
  lemma StretchCarries(o: real, p: real, q: real, mult: real)
    ensures p + (Stretch(o, p - q, mult) - o) - q == Mul(p - q, mult)
  {
  }

  /** Both coordinates carried as in StretchCarries, so the point ends at
      the scaled distance from (qx, qy). */
  lemma CarriedDistance(px: real, py: real, qx: real, qy: real, ox: real, oy: real, mult: real, radius: real)
    requires Sq(Mul(px - qx, mult)) + Sq(Mul(py - qy, mult)) == Sq(radius)
    ensures SqDist(px + (Stretch(ox, px - qx, mult) - ox), py + (Stretch(oy, py - qy, mult) - oy), qx, qy) == Sq(radius)
  {
    StretchCarries(ox, px, qx, mult);
    StretchCarries(oy, py, qy, mult);
  }

  /** Circle.Nudge(Rectangle). With the centre inside the rectangle the
      nearest point is the centre and nothing moves; otherwise the centre
      moves along the line from the nearest point until it is exactly one
      radius away from it. */
  function NudgeCircleFromRect(c: Circle, rect: Rectangle, sqrt: real -> real): (r: Circle)
    requires IsSqrt(sqrt)
    ensures r.radius == c.radius
    ensures NearestX(rect, c.x) == c.x && NearestY(rect, c.y) == c.y ==> r == c
    ensures !(NearestX(rect, c.x) == c.x && NearestY(rect, c.y) == c.y) ==>
              SqDist(r.x, r.y, NearestX(rect, c.x), NearestY(rect, c.y)) == Sq(c.radius)
  {
    var px := NearestX(rect, c.x);
    var py := NearestY(rect, c.y);
    var dX := c.x - px;
    var dY := c.y - py;
    if dX != 0.0 || dY != 0.0 then
      var mult := NudgeRatio(dX, dY, c.radius, sqrt);
      StretchOffset(c.x, px, mult);
      StretchOffset(c.y, py, mult);
      Circle(Stretch(c.x, dX, mult), Stretch(c.y, dY, mult), c.radius)
    else
      c
  }

  /** The nudge away from a rectangle leaves the circle touching it: its new
      nearest point is the old one, exactly one radius away. */
  lemma NudgeFromRectTouches(c: Circle, rect: Rectangle, sqrt: real -> real)
    requires IsSqrt(sqrt)
    requires WellFormed(rect) && 0.0 <= c.radius
    requires !Contains(rect, c.x, c.y)
    ensures NearestX(rect, NudgeCircleFromRect(c, rect, sqrt).x) == NearestX(rect, c.x)
    ensures NearestY(rect, NudgeCircleFromRect(c, rect, sqrt).y) == NearestY(rect, c.y)
    ensures CircleIntersectsRect(NudgeCircleFromRect(c, rect, sqrt), rect)
  {
    var r := NudgeCircleFromRect(c, rect, sqrt);
    var px := NearestX(rect, c.x);
    var py := NearestY(rect, c.y);
    assert !(px == c.x && py == c.y);
    assert SqDist(r.x, r.y, px, py) == Sq(c.radius);
    NudgeFromRectKeepsNearest(c, rect, sqrt);
  }

  /** The nudged centre has the same nearest point as the old one. */
  lemma NudgeFromRectKeepsNearest(c: Circle, rect: Rectangle, sqrt: real -> real)
    requires IsSqrt(sqrt)
    requires WellFormed(rect) && 0.0 <= c.radius
    requires !Contains(rect, c.x, c.y)
    ensures NearestX(rect, NudgeCircleFromRect(c, rect, sqrt).x) == NearestX(rect, c.x)
    ensures NearestY(rect, NudgeCircleFromRect(c, rect, sqrt).y) == NearestY(rect, c.y)
  {
    var r := NudgeCircleFromRect(c, rect, sqrt);
    var px := NearestX(rect, c.x);
    var py := NearestY(rect, c.y);
    var dX := c.x - px;
    var dY := c.y - py;
    assert dX != 0.0 || dY != 0.0;
    var mult := NudgeRatio(dX, dY, c.radius, sqrt);
    SameSideOfClamp(c.x, rect.x, rect.right, mult, r.x);
    SameSideOfClamp(c.y, rect.y, rect.bottom, mult, r.y);
  }

  /** Moving a point from its clamp along its own offset, by a non-negative
      factor, keeps the clamp point. */
  lemma SameSideOfClamp(v: real, lo: real, hi: real, mult: real, moved: real)
    requires lo <= hi && 0.0 <= mult
    requires moved == Stretch(v, v - Clamp(v, lo, hi), mult)
    ensures Clamp(moved, lo, hi) == Clamp(v, lo, hi)
  {
    var c := Clamp(v, lo, hi);
    if v < lo {
      MulMono(v - c, 0.0, mult);
      assert (v - c) * mult <= 0.0;
    } else if v > hi {
      MulMono(0.0, v - c, mult);
      assert (v - c) * mult >= 0.0;
    }
  }

  // ------------------------------------------------------------- Rectangle

  /** Negative sizes are clamped to 0 and the edge cache is established. */
  function NewRect(x: real, y: real, width: real, height: real): (r: Rectangle)
    ensures WellFormed(r)
    ensures r.x == x && r.y == y
    ensures 0.0 <= width ==> r.width == width
    ensures width < 0.0 ==> r.width == 0.0
    ensures 0.0 <= height ==> r.height == height
    ensures height < 0.0 ==> r.height == 0.0
  {
    var w := if width < 0.0 then 0.0 else width;
    var h := if height < 0.0 then 0.0 else height;
    Rectangle(x, y, w, h, x + w, y + h)
  }

  function SetX(r: Rectangle, x: real): (r': Rectangle)
    ensures r'.x == x && r'.y == r.y && r'.width == r.width && r'.height == r.height
    ensures r'.right == x + r.width && r'.bottom == r.bottom
    ensures WellFormed(r) ==> WellFormed(r')
  {
    r.(x := x, right := x + r.width)
  }

  function SetY(r: Rectangle, y: real): (r': Rectangle)
    ensures r'.x == r.x && r'.y == y && r'.width == r.width && r'.height == r.height
    ensures r'.bottom == y + r.height && r'.right == r.right
    ensures WellFormed(r) ==> WellFormed(r')
  {
    r.(y := y, bottom := y + r.height)
  }

  function SetWidth(r: Rectangle, width: real): (r': Rectangle)
    ensures r'.x == r.x && r'.y == r.y && r'.height == r.height && r'.bottom == r.bottom
    ensures 0.0 <= r'.width && (0.0 <= width ==> r'.width == width)
    ensures width < 0.0 ==> r'.width == 0.0
    ensures r'.right == r.x + r'.width
    ensures WellFormed(r) ==> WellFormed(r')
  {
    var w := if width < 0.0 then 0.0 else width;
    r.(width := w, right := r.x + w)
  }

  function SetHeight(r: Rectangle, height: real): (r': Rectangle)
    ensures r'.x == r.x && r'.y == r.y && r'.width == r.width && r'.right == r.right
    ensures 0.0 <= r'.height && (0.0 <= height ==> r'.height == height)
    ensures height < 0.0 ==> r'.height == 0.0
    ensures r'.bottom == r.y + r'.height
    ensures WellFormed(r) ==> WellFormed(r')
  {
    var h := if height < 0.0 then 0.0 else height;
    r.(height := h, bottom := r.y + h)
  }

  /** Rectangle.Intersects(Rectangle): neither lies wholly to one side of
      the other; touching edges count. A rectangle holding the other's
      top-left corner overlaps it. */
  function RectIntersectsRect(a: Rectangle, b: Rectangle): (hit: bool)
    ensures WellFormed(b) && Contains(a, b.x, b.y) ==> hit
  {
    !(a.x > b.right || a.right < b.x || a.y > b.bottom || a.bottom < b.y)
  }

  lemma RectIntersectsRectSymmetric(a: Rectangle, b: Rectangle)
    ensures RectIntersectsRect(a, b) == RectIntersectsRect(b, a)
  {
  }

  /** The edge test means what it is meant to: two well-formed rectangles
      intersect exactly when they have a point in common. Hence the test is
      reflexive, and rectangles that only share an edge intersect. */
  lemma RectIntersectsIffCommonPoint(a: Rectangle, b: Rectangle)
    requires WellFormed(a) && WellFormed(b)
    ensures RectIntersectsRect(a, b) <==> exists px, py :: Contains(a, px, py) && Contains(b, px, py)
  {
    if RectIntersectsRect(a, b) {
      var px := if a.x < b.x then b.x else a.x;
      var py := if a.y < b.y then b.y else a.y;
      assert Contains(a, px, py) && Contains(b, px, py);
    }
  }

  lemma RectIntersectsSelf(a: Rectangle)
    requires WellFormed(a)
    ensures RectIntersectsRect(a, a)
  {
    RectIntersectsIffCommonPoint(a, a);
    assert Contains(a, a.x, a.y);
  }

  lemma SharedEdgeIntersects(a: Rectangle, b: Rectangle)
    requires WellFormed(a) && WellFormed(b)
    requires a.right == b.x && a.y == b.y
    ensures RectIntersectsRect(a, b)
  {
    RectIntersectsIffCommonPoint(a, b);
    assert Contains(a, a.right, a.y) && Contains(b, a.right, a.y);
  }

  /** Rectangle.Nudge(Circle). With the circle's centre inside the
      rectangle nothing moves; otherwise the rectangle is shifted so that
      its (old) nearest point to the centre ends up exactly one radius from
      the centre, and the edge cache is refreshed. */
  function NudgeRectFromCircle(rect: Rectangle, c: Circle, sqrt: real -> real): (r: Rectangle)
    requires IsSqrt(sqrt)
    ensures r.width == rect.width && r.height == rect.height
    ensures NearestX(rect, c.x) == c.x && NearestY(rect, c.y) == c.y ==> r == rect
    ensures !(NearestX(rect, c.x) == c.x && NearestY(rect, c.y) == c.y) ==>
              EdgesCached(r)
              && SqDist(NearestX(rect, c.x) + (r.x - rect.x), NearestY(rect, c.y) + (r.y - rect.y), c.x, c.y)
                 == Sq(c.radius)
  {
    var px := NearestX(rect, c.x);
    var py := NearestY(rect, c.y);
    var dX := px - c.x;
    var dY := py - c.y;
    if dX != 0.0 || dY != 0.0 then
      var mult := NudgeRatio(dX, dY, c.radius, sqrt);
      var x := Stretch(rect.x, dX, mult);
      var y := Stretch(rect.y, dY, mult);
      CarriedDistance(px, py, c.x, c.y, rect.x, rect.y, mult, c.radius);
      rect.(x := x, y := y, right := x + rect.width, bottom := y + rect.height)
    else
      rect
  }

  /** The nudge away from a circle keeps the rectangle on its side: the
      nearest point of the moved rectangle to the centre is the old nearest
      point carried along, so the rectangle ends just touching the circle
      and never jumps over the centre. */
  lemma NudgeRectFromCircleKeepsNearest(rect: Rectangle, c: Circle, sqrt: real -> real)
    requires IsSqrt(sqrt)
    requires WellFormed(rect) && 0.0 <= c.radius
    ensures var r := NudgeRectFromCircle(rect, c, sqrt);
            NearestX(r, c.x) == NearestX(rect, c.x) + (r.x - rect.x)
            && NearestY(r, c.y) == NearestY(rect, c.y) + (r.y - rect.y)
    ensures CircleIntersectsRect(c, NudgeRectFromCircle(rect, c, sqrt))
  {
    var r := NudgeRectFromCircle(rect, c, sqrt);
    var px := NearestX(rect, c.x);
    var py := NearestY(rect, c.y);
    if px == c.x && py == c.y {
      assert Contains(r, c.x, c.y);
    } else {
      var mult := NudgeRatio(px - c.x, py - c.y, c.radius, sqrt);
      var x := Stretch(rect.x, px - c.x, mult);
      var y := Stretch(rect.y, py - c.y, mult);
      assert r == rect.(x := x, y := y, right := x + rect.width, bottom := y + rect.height);
      NearestCarried(rect, r, c.x, c.y, mult);
      SqDistSymmetric(NearestX(r, c.x), NearestY(r, c.y), c.x, c.y);
    }
  }

  /** A rectangle moved by Stretch along the offset of its nearest point
      from (cx, cy), with a non-negative factor, has as nearest point the
      old one moved by the same amount. */
  lemma NearestCarried(rect: Rectangle, r: Rectangle, cx: real, cy: real, mult: real)
    requires WellFormed(rect) && 0.0 <= mult
    requires r.x == Stretch(rect.x, NearestX(rect, cx) - cx, mult) && r.right == r.x + rect.width
    requires r.y == Stretch(rect.y, NearestY(rect, cy) - cy, mult) && r.bottom == r.y + rect.height
    ensures NearestX(r, cx) == NearestX(rect, cx) + (r.x - rect.x)
    ensures NearestY(r, cy) == NearestY(rect, cy) + (r.y - rect.y)
  {
    ClampAfterStretch(cx, rect.x, rect.width, mult);
    ClampAfterStretch(cy, rect.y, rect.height, mult);
  }

  /** Shifting the span [lo, lo + width] by (mult - 1) times the offset of
      its clamp point p from v, for mult >= 0, moves the clamp point of v
      by the same amount: the span stays on the same side of v. */
  lemma ClampAfterStretch(v: real, lo: real, width: real, mult: real)
    requires 0.0 <= width && 0.0 <= mult
    ensures var p := Clamp(v, lo, lo + width);
            var lo' := Stretch(lo, p - v, mult);
            Clamp(v, lo', lo' + width) == p + (lo' - lo)
  {
    var p := Clamp(v, lo, lo + width);
    var d := p - v;
    var lo' := Stretch(lo, d, mult);
    assert lo' == lo + (Mul(d, mult) - d);
    if v < lo {
      MulMono(0.0, d, mult);
      assert p == lo && v <= lo';
    } else if v > lo + width {
      MulMono(d, 0.0, mult);
      assert p == lo + width && lo' + width <= v;
    } else {
      assert d == 0.0 && lo' == lo;
    }
  }

  function RectCentreX(r: Rectangle): real
  {
    r.x + r.width * 0.5
  }

  function RectCentreY(r: Rectangle): real
  {
    r.y + r.height * 0.5
  }

  /** Signed penetration depth on one axis, from the centre offset d (other
      minus this) and the two sizes: the move that separates the shapes on
      that axis. */
  function Penetration(d: real, size: real, otherSize: real): (p: real)
    ensures d < 0.0 ==> d - p == -(size * 0.5 + otherSize * 0.5)
    ensures 0.0 <= d ==> d - p == size * 0.5 + otherSize * 0.5
  {
    if d < 0.0 then d + size * 0.5 + otherSize * 0.5
    else d + size * -0.5 + otherSize * -0.5
  }

  /** Rectangle.Nudge(Rectangle): moves along whichever axis has the
      smaller penetration (ties go to Y), by exactly that penetration, and
      refreshes the edge cache of that axis only. Size and the other axis
      are unchanged. */
  function NudgeRect(a: Rectangle, other: Rectangle): (r: Rectangle)
    ensures r.width == a.width && r.height == a.height
    ensures var penX := Penetration(RectCentreX(other) - RectCentreX(a), a.width, other.width);
            var penY := Penetration(RectCentreY(other) - RectCentreY(a), a.height, other.height);
            if Abs(penX) < Abs(penY) then
              r.x == a.x + penX && r.right == r.x + r.width && r.y == a.y && r.bottom == a.bottom
            else
              r.y == a.y + penY && r.bottom == r.y + r.height && r.x == a.x && r.right == a.right
  {
    var dX := Penetration(other.x + other.width * 0.5 - a.x - a.width * 0.5, a.width, other.width);
    var dY := Penetration(other.y + other.height * 0.5 - a.y - a.height * 0.5, a.height, other.height);
    if (if dX < 0.0 then -dX else dX) < (if dY < 0.0 then -dY else dY) then
      a.(x := a.x + dX, right := a.x + dX + a.width)
    else
      a.(y := a.y + dY, bottom := a.y + dY + a.height)
  }

  /** After the nudge the centres are exactly half the summed sizes apart
      on the axis that moved: the rectangles touch along that axis. */
  lemma NudgeRectSeparates(a: Rectangle, other: Rectangle)
    requires WellFormed(a) && WellFormed(other)
    ensures var r := NudgeRect(a, other);
            var penX := Penetration(RectCentreX(other) - RectCentreX(a), a.width, other.width);
            var penY := Penetration(RectCentreY(other) - RectCentreY(a), a.height, other.height);
            if Abs(penX) < Abs(penY) then
              Abs(RectCentreX(other) - RectCentreX(r)) == a.width * 0.5 + other.width * 0.5
            else
              Abs(RectCentreY(other) - RectCentreY(r)) == a.height * 0.5 + other.height * 0.5
  {
    var r := NudgeRect(a, other);
    assert RectCentreX(other) - RectCentreX(r) == RectCentreX(other) - RectCentreX(a) - (r.x - a.x);
    assert RectCentreY(other) - RectCentreY(r) == RectCentreY(other) - RectCentreY(a) - (r.y - a.y);
  }

  /** Nudging one of two overlapping rectangles leaves them touching: on
      the moved axis their edges meet, and the other axis is unchanged. */
  lemma NudgeRectTouches(a: Rectangle, other: Rectangle)
    requires WellFormed(a) && WellFormed(other)
    requires RectIntersectsRect(a, other)
    ensures RectIntersectsRect(NudgeRect(a, other), other)
  {
    NudgeRectSeparates(a, other);
  }
}

=== FILE: vectors.dfy ===
/** Vector2: an (x, y) pair with a lazily computed magnitude.

    The Java class mutates in place; here every mutator returns the updated
    vector. The cached magnitude is part of the value, with -1.0 meaning
    "not calculated yet", so the caching behaviour (and where the source
    forgets to invalidate the cache) is visible in the model. */
module Vectors {
  import opened Numerics

  const UNCALCULATED_MAGNITUDE: real := -1.0

  datatype Vector2 = Vector2(x: real, y: real, magnitude: real)

  /** x*x + y*y */
  function NormSq(x: real, y: real): real
  {
    Sq(x) + Sq(y)
  }

  function Dot(ux: real, uy: real, wx: real, wy: real): real
  {
    Mul(ux, wx) + Mul(uy, wy)
  }

  /** The cache invariant: the magnitude is either marked uncalculated or
      is the true length of the vector. */
  predicate CacheSound(v: Vector2)
  {
    v.magnitude == UNCALCULATED_MAGNITUDE
    || (0.0 <= v.magnitude && Sq(v.magnitude) == NormSq(v.x, v.y))
  }

  function NewVector(x: real, y: real): (r: Vector2)
    ensures r.x == x && r.y == y
    ensures r.magnitude == UNCALCULATED_MAGNITUDE && CacheSound(r)
  {
    Vector2(x, y, UNCALCULATED_MAGNITUDE)
  }

  /** Copy keeps the components and whatever the cache holds. */
  function Copy(v: Vector2): (r: Vector2)
    ensures r.x == v.x && r.y == v.y && r.magnitude == v.magnitude
    ensures CacheSound(r) <==> CacheSound(v)
  {
    Vector2(v.x, v.y, v.magnitude)
  }

  function SetX(v: Vector2, x: real): (r: Vector2)
    ensures r.x == x && r.y == v.y
    ensures r.magnitude == UNCALCULATED_MAGNITUDE && CacheSound(r)
  {
    Vector2(x, v.y, UNCALCULATED_MAGNITUDE)
  }

  function SetY(v: Vector2, y: real): (r: Vector2)
    ensures r.x == v.x && r.y == y
    ensures r.magnitude == UNCALCULATED_MAGNITUDE && CacheSound(r)
  {
    Vector2(v.x, y, UNCALCULATED_MAGNITUDE)
  }

  function Scale(v: Vector2, scalar: real): (r: Vector2)
    ensures r.x == v.x * scalar && r.y == v.y * scalar
    ensures r.magnitude == UNCALCULATED_MAGNITUDE && CacheSound(r)
  {
    Vector2(v.x * scalar, v.y * scalar, UNCALCULATED_MAGNITUDE)
  }

  /** Scaling multiplies the squared length by the square of the scalar. */
  lemma ScaleLength(v: Vector2, scalar: real)
    ensures NormSq(Scale(v, scalar).x, Scale(v, scalar).y) == Mul(Sq(scalar), NormSq(v.x, v.y))
  {
    SqOfProduct(v.x, scalar);
    SqOfProduct(v.y, scalar);
    assert Mul(Sq(v.x), Sq(scalar)) + Mul(Sq(v.y), Sq(scalar))
        == Mul(Sq(scalar), Sq(v.x) + Sq(v.y));
  }

  /** GetMagnitude returns the cached value when there is one, otherwise
      computes the length and caches it; the updated vector is returned
      alongside. */
  function GetMagnitude(v: Vector2, sqrt: real -> real): (r: (real, Vector2))
    requires IsSqrt(sqrt)
    ensures r.1.x == v.x && r.1.y == v.y && r.1.magnitude == r.0
    ensures v.magnitude != UNCALCULATED_MAGNITUDE ==> r.0 == v.magnitude
    ensures v.magnitude == UNCALCULATED_MAGNITUDE ==> 0.0 <= r.0 && Sq(r.0) == NormSq(v.x, v.y)
  {
    SqNonNegative(v.x);
    SqNonNegative(v.y);
    var m := if v.magnitude == UNCALCULATED_MAGNITUDE then sqrt(NormSq(v.x, v.y)) else v.magnitude;
    (m, Vector2(v.x, v.y, m))
  }

  /** Under the cache invariant, GetMagnitude is the true length and leaves
      a sound, filled cache behind. */
  lemma GetMagnitudeSound(v: Vector2, sqrt: real -> real)
    requires IsSqrt(sqrt)
    requires CacheSound(v)
    ensures 0.0 <= GetMagnitude(v, sqrt).0
    ensures Sq(GetMagnitude(v, sqrt).0) == NormSq(v.x, v.y)
    ensures CacheSound(GetMagnitude(v, sqrt).1)
    ensures GetMagnitude(v, sqrt).1.magnitude != UNCALCULATED_MAGNITUDE
  {
  }

  /** Normalize returns a new unit vector (or (0, 0) for a zero-length
      vector) together with the receiver, whose cache it has filled. */
  function Normalize(v: Vector2, sqrt: real -> real): (r: (Vector2, Vector2))
    requires IsSqrt(sqrt)
    ensures r.1 == GetMagnitude(v, sqrt).1
    ensures r.0.magnitude == UNCALCULATED_MAGNITUDE
    ensures r.1.magnitude == 0.0 ==> r.0.x == 0.0 && r.0.y == 0.0
    ensures r.1.magnitude != 0.0 ==> r.0.x * r.1.magnitude == v.x && r.0.y * r.1.magnitude == v.y
  {
    var (m, self) := GetMagnitude(v, sqrt);
    if m == 0.0 then (NewVector(0.0, 0.0), self)
    else (NewVector(v.x / m, v.y / m), self)
  }

  /** With a sound cache, Normalize gives a unit vector pointing the same
      way, and the zero vector exactly for the zero vector. */
  lemma NormalizeUnit(v: Vector2, sqrt: real -> real)
    requires IsSqrt(sqrt)
    requires CacheSound(v)
    ensures v.x == 0.0 && v.y == 0.0 ==> Normalize(v, sqrt).0.x == 0.0 && Normalize(v, sqrt).0.y == 0.0
    ensures !(v.x == 0.0 && v.y == 0.0) ==> NormSq(Normalize(v, sqrt).0.x, Normalize(v, sqrt).0.y) == 1.0
  {
    var m := GetMagnitude(v, sqrt).0;
    GetMagnitudeSound(v, sqrt);
    if v.x == 0.0 && v.y == 0.0 {
      if m != 0.0 {
        SqPositive(m);
        assert false;
      }
    } else {
      SqDistZero(v.x, v.y, 0.0, 0.0);
      assert m != 0.0;
      assert Normalize(v, sqrt).0 == NewVector(v.x / m, v.y / m);
      UnitByDivision(v.x, v.y, m);
    }
  }

  /** NormalizeInPlace divides by the magnitude without a guard, so the
      magnitude it uses must be non-zero. */
  predicate CanNormalizeInPlace(v: Vector2)
  {
    if v.magnitude == UNCALCULATED_MAGNITUDE then v.x != 0.0 || v.y != 0.0
    else v.magnitude != 0.0
  }

  function NormalizeInPlace(v: Vector2, sqrt: real -> real): (r: Vector2)
    requires IsSqrt(sqrt)
    requires CanNormalizeInPlace(v)
    ensures r.magnitude == 1.0
    ensures r.x * GetMagnitude(v, sqrt).0 == v.x && r.y * GetMagnitude(v, sqrt).0 == v.y
  {
    var m := GetMagnitude(v, sqrt).0;
    assert m != 0.0 by {
      if v.magnitude == UNCALCULATED_MAGNITUDE {
        SqDistZero(v.x, v.y, 0.0, 0.0);
        assert Sq(m) != 0.0;
      }
    }
    Vector2(v.x / m, v.y / m, 1.0)
  }

  /** With a sound cache, NormalizeInPlace produces a unit vector whose
      cache (1.0) is sound. */
  lemma NormalizeInPlaceSound(v: Vector2, sqrt: real -> real)
    requires IsSqrt(sqrt)
    requires CacheSound(v) && CanNormalizeInPlace(v)
    ensures NormSq(NormalizeInPlace(v, sqrt).x, NormalizeInPlace(v, sqrt).y) == 1.0
    ensures CacheSound(NormalizeInPlace(v, sqrt))
  {
    var m := GetMagnitude(v, sqrt).0;
    GetMagnitudeSound(v, sqrt);
    if m == 0.0 {
      SqDistZero(v.x, v.y, 0.0, 0.0);
      assert false;
    }
    UnitLength(v.x, v.y, m, NormalizeInPlace(v, sqrt).x, NormalizeInPlace(v, sqrt).y);
  }

  /** Add changes the components but keeps the old cached magnitude. */
  function Add(v: Vector2, other: Vector2): (r: Vector2)
    ensures r.x - v.x == other.x && r.y - v.y == other.y
    ensures r.magnitude == v.magnitude
  {
    Vector2(v.x + other.x, v.y + other.y, v.magnitude)
  }

  /** The stale cache left by Add is observable: a vector with a sound
      cache plus (1, 0) no longer has one. */
  lemma AddLeavesCacheStale()
    ensures CacheSound(Vector2(3.0, 4.0, 5.0))
    ensures !CacheSound(Add(Vector2(3.0, 4.0, 5.0), NewVector(1.0, 0.0)))
  {
  }

  /** Subtract, as written, changes only x, and subtracts the other
      vector's y from it. */
  function Subtract(v: Vector2, other: Vector2): (r: Vector2)
    ensures v.x - r.x == other.y
    ensures r.y == v.y && r.magnitude == v.magnitude
  {
    Vector2(v.x - other.y, v.y, v.magnitude)
  }

  /** So a vector minus itself is not the zero vector. */
  lemma SubtractSelfNotZero()
    ensures Subtract(NewVector(1.0, 2.0), NewVector(1.0, 2.0)) == Vector2(-1.0, 2.0, UNCALCULATED_MAGNITUDE)
  {
  }

  /** Vector2.Cross: zero for a vector with itself, and the squared length
      for a vector with its quarter turn (-y, x). */
  function Cross(v: Vector2, other: Vector2): (r: real)
    ensures v.x == other.x && v.y == other.y ==> r == 0.0
    ensures other.x == -v.y && other.y == v.x ==> r == NormSq(v.x, v.y)
  {
    Mul(v.x, other.y) - Mul(v.y, other.x)
  }

  lemma CrossAntisymmetric(v: Vector2, w: Vector2)
    ensures Cross(v, w) == -Cross(w, v)
  {
  }

  /** The scalar shared by Vector2.Reflect (restitution 1) and the
      collision responses: restitution * 2 (v . n) / (n . n). */
  function ReflectionScale(vx: real, vy: real, nx: real, ny: real, restitution: real): real
    requires NormSq(nx, ny) != 0.0
  {
    restitution * 2.0 * Dot(vx, vy, nx, ny) / NormSq(nx, ny)
  }

  lemma ReflectionScaleTimesNormSq(vx: real, vy: real, nx: real, ny: real, restitution: real)
    requires NormSq(nx, ny) != 0.0
    ensures Mul(ReflectionScale(vx, vy, nx, ny, restitution), NormSq(nx, ny))
         == 2.0 * Mul(restitution, Dot(vx, vy, nx, ny))
  {
    var q := NormSq(nx, ny);
    var a := restitution * 2.0 * Dot(vx, vy, nx, ny);
    assert a / q * q == a;
  }

  /** The component of v - s n along n, when s (n . n) = 2 e (v . n). */
  lemma ReflectedNormal(vx: real, vy: real, nx: real, ny: real, s: real, e: real)
    requires Mul(s, NormSq(nx, ny)) == 2.0 * Mul(e, Dot(vx, vy, nx, ny))
    ensures Dot(vx - s * nx, vy - s * ny, nx, ny) == Mul(1.0 - 2.0 * e, Dot(vx, vy, nx, ny))
  {
    assert Dot(vx - s * nx, vy - s * ny, nx, ny) == Dot(vx, vy, nx, ny) - Mul(s, NormSq(nx, ny));
  }

  lemma ReflectedLength(vx: real, vy: real, nx: real, ny: real, s: real)
    requires Mul(s, NormSq(nx, ny)) == 2.0 * Dot(vx, vy, nx, ny)
    ensures NormSq(vx - s * nx, vy - s * ny) == NormSq(vx, vy)
  {
    var d := Dot(vx, vy, nx, ny);
    var q := NormSq(nx, ny);
    assert NormSq(vx - s * nx, vy - s * ny) == NormSq(vx, vy) - 2.0 * s * d + s * Mul(s, q);
    assert s * Mul(s, q) == s * (2.0 * d);
  }

  /** Reflect about a non-zero normal: the component along the normal is
      negated and the change lies along the normal, so the tangential
      component is kept. The source leaves the cached magnitude alone,
      which is harmless because the length is unchanged (see
      ReflectPreservesLength). */
  function Reflect(v: Vector2, normal: Vector2): (r: Vector2)
    requires NormSq(normal.x, normal.y) != 0.0
    ensures r.magnitude == v.magnitude
    ensures Dot(r.x, r.y, normal.x, normal.y) == -Dot(v.x, v.y, normal.x, normal.y)
    ensures Mul(r.x - v.x, normal.y) == Mul(r.y - v.y, normal.x)
  {
    var s := ReflectionScale(v.x, v.y, normal.x, normal.y, 1.0);
    ReflectionScaleTimesNormSq(v.x, v.y, normal.x, normal.y, 1.0);
    ReflectedNormal(v.x, v.y, normal.x, normal.y, s, 1.0);
    Vector2(v.x - s * normal.x, v.y - s * normal.y, v.magnitude)
  }

  lemma ReflectPreservesLength(v: Vector2, normal: Vector2)
    requires NormSq(normal.x, normal.y) != 0.0
    ensures NormSq(Reflect(v, normal).x, Reflect(v, normal).y) == NormSq(v.x, v.y)
    ensures CacheSound(v) ==> CacheSound(Reflect(v, normal))
  {
    var s := ReflectionScale(v.x, v.y, normal.x, normal.y, 1.0);
    ReflectionScaleTimesNormSq(v.x, v.y, normal.x, normal.y, 1.0);
    ReflectedLength(v.x, v.y, normal.x, normal.y, s);
  }

  /** Reflecting twice about the same normal gives the original vector back. */
  lemma ReflectInvolution(v: Vector2, normal: Vector2)
    requires NormSq(normal.x, normal.y) != 0.0
    ensures Reflect(Reflect(v, normal), normal) == v
  {
    var q := NormSq(normal.x, normal.y);
    var r := Reflect(v, normal);
    var s := ReflectionScale(v.x, v.y, normal.x, normal.y, 1.0);
    var s' := ReflectionScale(r.x, r.y, normal.x, normal.y, 1.0);
    ReflectionScaleTimesNormSq(v.x, v.y, normal.x, normal.y, 1.0);
    ReflectionScaleTimesNormSq(r.x, r.y, normal.x, normal.y, 1.0);
    assert Mul(s', q) == -Mul(s, q);
    NegatedFactor(s, s', q);
  }

  lemma NegatedFactor(a: real, b: real, q: real)
    requires q != 0.0
    requires Mul(b, q) == -Mul(a, q)
    ensures b == -a
  {
    assert (a + b) * q == 0.0;
  }
}
